=== FILE: README.md ===
# wgpu-native core, modelled in Dafny

wgpu-native exposes the Rust wgpu implementation through the C header
`webgpu.h` and its own extension header `ffi/wgpu.h`. This project models three
parts of it.

- **The integrity script `checks.py`.** It strips C comments from the header.
  It collects the pointer arguments of every exported function and the fields
  of every flat struct. It then checks two things:
  - every Rust wrapper in `src/` takes a reference or a pointer wherever C passes
    a pointer;
  - every struct that `build.rs` overloads has exactly the header's fields.
- **The conversion layer `src/conv.rs` and its helpers in `src/utils.rs`.** These
  turn native enumeration constants, limits, flags, texture formats and features
  into `wgpu-types` values, and some of them back again.
- **`BufferDimensions::new`** from the examples' helper library. It computes
  the padded row layout of a read-back buffer.

Each module follows one source component:

| file | module | models |
|---|---|---|
| `wrappers.dfy` | `Wrappers` | `Option`, `Result`, and `Panic` (a returned value or a panic message) |
| `pystr.dfy` | `PyStr` | the Python `str` operations the script uses, with Python's semantics |
| `dicts.dfy` | `Dicts` | Python dicts filled by a loop, where the last assignment wins and keys keep insertion order |
| `comments.dfy` | `Comments` | `remove_c_comments` |
| `header.dfy` | `Header` | `collect_function_args` and `collect_structs` |
| `checks.dfy` | `Checks` | `check_rust_wrapper_args`, `check_overloaded_structs` and `main` |
| `ints.dfy` | `Ints` | `u32`, `u64`, and the `as u32` truncation |
| `utils.dfy` | `Utils` | `map_enum!`, `make_slice`, `OwnedLabel` and `follow_chain!` |
| `conv_enums.dfy` | `ConvEnums` | every `map_enum!` instance, `to_native_present_mode` and `to_native_composite_alpha_mode` |
| `conv_texture.dfy` | `ConvTexture` | texture formats, texture dimensions and copy layouts |
| `conv_limits.dfy` | `ConvLimits` | `map_required_limits` |
| `conv_backends.dfy` | `ConvBackends` | `map_instance_backend_flags` |
| `conv_features.dfy` | `ConvFeatures` | `map_feature`, `map_features` and `features_to_native` |
| `conv_reports.dfy` | `ConvReports` | `map_storage_report` |
| `buffer_dimensions.dfy` | `BufferDimensions` | `BufferDimensions::new` |

Some inputs become parameters of the model:
- the files the script reads: the header text, the `src` listing as
  (name, text) pairs, and the text of `build.rs`;
- the defaults `wgt::Limits::default()`;
- the lossy UTF-8 decoding of a C label.

A native constant is an `int`, and a `wgpu-types` enumeration is a datatype.
A `wgt::Features` or `wgt::Backends` value is the set of its flags.

## Model

| member | source | states |
|---|---|---|
| Comments.NextCut | checks.py:19-42 | one loop turn cuts at or after the cursor; the loop then resumes strictly after the cut, or stops (-1) |
| Comments.RemoveFrom | checks.py:17-42 | the loop from a cursor never returns more text than lies after that cursor |
| Comments.RemoveCComments | checks.py:12-43 | the result is never longer than the input, and a text without `//` or `/*` comes back unchanged |
| Comments.ScannerAtLine | checks.py:36-40 | a `//` comment ends before the next newline, which is kept; without a newline the rest of the text is dropped |
| Comments.ScannerAtBlock | checks.py:36-42 | a `/*` comment ends just after the first later `*/`; without one the rest is dropped |
| Comments.NoOpenerBefore | checks.py:20-28 | the opener the loop picks is the first one after the cursor; `//` wins only when it starts strictly before `/*` |
| Comments.RemoveCCommentsIsScanner | checks.py:12-43 | `remove_c_comments` equals a character-level reference scanner on every text |
| Comments.UnterminatedDropsRest | checks.py:36-38 | after an unterminated comment, exactly the text before the comment is kept, and no error is raised |
| PyStr.Find | checks.py:94-97 | `str.find` answers -1 or an occurrence at or after its normalised start (a negative start counts from the end) |
| PyStr.FindFirst | checks.py:94-97 | `str.find` returns the first occurrence at or after its normalised start (a negative start counts from the end), or -1 when there is none |
| PyStr.RFind | checks.py:67 | `rfind` finds the last occurrence |
| PyStr.WordsSpec | checks.py:107 | `split()` pieces are non-empty and contain no whitespace; there are none exactly when the text is blank |
| PyStr.SplitOnSpec | checks.py:68 | `split(c)` pieces contain no `c`, and joining them with `c` gives the text back |
| PyStr.StripCharEnds | checks.py:106 | neither end of `strip(";")` is `;` |
| PyStr.LeadCountSpec | checks.py:185 | `strip()` removes a maximal leading run of whitespace |
| PyStr.TrailCountSpec | checks.py:185 | `strip()` removes a maximal trailing run of whitespace |
| PyStr.Lower | checks.py:71 | `lower()` keeps the length and lowers each character |
| PyStr.NormalizeIdempotent | checks.py:149 | `replace("_", "").lower()` applied twice equals applied once |
| Dicts.LastAssignmentWins | checks.py:72 | a key keeps the value of its last assignment |
| Dicts.AssignEntries | checks.py:66-72 | a dict filled in a loop holds exactly the keys some item assigns, each with its last value |
| Dicts.AssignAllOk | checks.py:105-111 | when no item raises, the dict holds exactly the items' keys, each with its last value |
| Dicts.AllOkLastWins | checks.py:110-111 | when no item raises, an item whose key no later item has is the value kept |
| Dicts.AssignOrdered | checks.py:53-72 | an insertion-ordered dict has the same entries as plain assignment, with every key listed once |
| Dicts.FirstAssignmentOrder | checks.py:136 | dict iteration order is the order in which keys were first assigned |
| Header.ExportArgs | checks.py:67-68 | splitting the argument text always gives at least one argument |
| Header.PointerArgsSpec | checks.py:69-72 | the argument dict holds exactly the keys of the `*` arguments, each with the text of the last argument of that key |
| Header.FunctionTable | checks.py:63-72 | the function table holds an entry for every `WGPU_EXPORT` line and nothing else, each with the pointer arguments of its last declaration |
| Header.NoPointerNoArgs | checks.py:66-72 | a function without pointer arguments gets an empty entry |
| Header.ArgKeyKeepsStar | checks.py:71 | an argument key keeps the leading `*` of its last token |
| Header.CollectFunctionArgs | checks.py:49-74 | the function table is a well-formed ordered dict: its key list names every entry exactly once |
| Header.StepAt | checks.py:92-102 | each scanning turn moves the search position strictly forward, so the scan ends |
| Header.FlatStructsOnly | checks.py:100-102 | a struct is decomposed iff no `{` lies between its braces |
| Header.TakenBlock | checks.py:94-104 | a decomposed body is the text between the braces; its name is the stripped text between `}` and `;` |
| Header.FieldKey | checks.py:110 | a field key neither starts nor ends with `*` |
| Header.ParseField | checks.py:106-111 | a field statement raises `IndexError` iff it is blank |
| Header.EmptyFieldCrashes | checks.py:106-111 | a struct body crashes the collector iff one of its field statements is blank |
| Header.CrashIffSomeBody | checks.py:104-111 | `collect_structs` crashes iff some decomposed body does |
| Header.StructTable | checks.py:104-111 | without a crash, the struct table holds exactly the decomposed names, each with the fields of its last block |
| Header.FieldTable | checks.py:106-111 | without a crash, a field dict holds exactly the statements' keys, each with the type of its last statement |
| Checks.ArgVerdict | checks.py:147-159 | a parameter fails iff its key is a C pointer argument and its type starts with none of `&`, `*`, `Option<&` |
| Checks.ArgFailures | checks.py:147-159 | the parameter loop's failures are exactly the failing parameters' verdicts |
| Checks.BadArgIff | checks.py:147-159 | a found wrapper reports a bad argument exactly for a parameter with a pointer key and a non-reference type |
| Checks.MissingOnce | checks.py:161-165 | a found wrapper reports missing arguments at most once, last, and exactly when a pointer argument has no parameter; it names exactly those arguments |
| Checks.CheckFunction | checks.py:136-145 | nothing is checked for a function without pointer arguments, or whose name is not found at an index above 0 |
| Checks.CheckFile | checks.py:136-165 | a file's failures are those of every function in the table |
| Checks.CheckFiles | checks.py:127-135 | only `.rs` files of the listing are checked |
| Checks.PubStructHasName | checks.py:186-187 | a stripped `pub struct ` line always has a third word, so reading the name never raises |
| Checks.StructVerdict | checks.py:191-205 | a closed struct fails iff it is unknown or its keys differ; the mismatch is the symmetric difference, and it is never empty |
| Checks.StructLinesAreVerdicts | checks.py:183-210 | the `build.rs` check reports, in order, the verdict on each closed struct; whether it crashes does not depend on the header |
| Checks.Verdicts | checks.py:190-205 | the failures are exactly the failing verdicts |
| Checks.VerdictsCons | checks.py:201-202 | a struct's failure is appended before those of the structs after it |
| Checks.ExitStatus | checks.py:218-234 | the exit status is 0 iff neither check fails and nothing crashes, and 1 otherwise |
| Checks.WrapperFailuresFirst | checks.py:220-222 | the report lists the wrapper failures first, then the `build.rs` failures |
| Utils.MapEnum | src/utils.rs:155-163 | `Err(x)` iff the value is no listed constant; otherwise the variant of the first arm with that constant |
| Utils.MapEnumOrPanic | src/utils.rs:164-171 | panics iff the value is no listed constant, with the message followed by the value; otherwise returns what `MapEnum` does |
| Utils.MapEnumInverse | src/utils.rs:155-163 | with distinct constants, mapping a variant's constant gives the variant; with distinct variants, the reverse also holds |
| Utils.NumberedBijection | src/utils.rs:155-163 | with listed variants, each variant has exactly one constant that maps to it |
| Utils.MakeSlice | src/utils.rs:41-47 | count 0 gives the empty slice; otherwise the first `count` elements at the pointer |
| Utils.MakeSliceZeroIgnoresPointer | src/utils.rs:42-43 | a zero count never reads the pointer: a null one and any other give the same empty slice |
| Utils.MakeSlicePrefix | src/utils.rs:41-47 | over readable memory the slice is the prefix of length `count`, and a count covering the memory gives all of it back |
| Utils.CStrBytes | src/utils.rs:24 | `CStr::from_ptr` reads the bytes before the first NUL |
| Utils.NewLabel | src/utils.rs:19-29 | no label iff the pointer is null; otherwise the lossy decoding of the bytes before the first NUL |
| Utils.LabelReadBack | src/utils.rs:17-38 | a label built by `OwnedLabel::new` reads back through `into_inner`, `as_cow` and `into_cow` as nothing exactly when the pointer is null, and otherwise as the decoded bytes before the first NUL (borrowed for `as_cow`, owned for `into_cow`) |
| Utils.IntoInner | src/utils.rs:30-32 | with `Utils.LabelReadBack`: `None` iff the label's pointer was null, otherwise the decoded text |
| Utils.AsCow | src/utils.rs:33-35 | with `Utils.LabelReadBack`: `None` iff the label's pointer was null, otherwise the decoded text, borrowed |
| Utils.IntoCow | src/utils.rs:36-38 | with `Utils.LabelReadBack`: `None` iff the label's pointer was null, otherwise the decoded text, owned |
| Utils.FirstArm | src/utils.rs:89-103 | a chain node is stored only in the first arm whose sType matches |
| Utils.LastWithSpec | src/utils.rs:76-77 | of several nodes with one sType, the last one wins |
| Utils.FollowChain | src/utils.rs:80-109 | each requested slot holds the last node of its sType, or `None`; nodes of unrequested sTypes are skipped |
| ConvEnums.MapLoadOp | src/conv.rs:6-13 | returns for exactly the listed constants; otherwise panics "Unknown load op: " followed by the value |
| ConvEnums.LoadOpBijection | src/conv.rs:6-13 | every load op has exactly one native constant |
| ConvEnums.MapStoreOp | src/conv.rs:14-21 | returns for exactly the listed constants; otherwise panics with the value |
| ConvEnums.StoreOpBijection | src/conv.rs:14-21 | every store op has exactly one native constant |
| ConvEnums.MapAddressMode | src/conv.rs:22-30 | returns for exactly the listed constants; otherwise panics with the value |
| ConvEnums.AddressModeBijection | src/conv.rs:22-30 | every address mode has exactly one native constant |
| ConvEnums.MapFilterMode | src/conv.rs:31-38 | returns for exactly the listed constants; otherwise panics with the value |
| ConvEnums.FilterModeBijection | src/conv.rs:31-38 | every filter mode has exactly one native constant |
| ConvEnums.MapMipmapFilterMode | src/conv.rs:39-46 | returns for exactly the listed constants; otherwise panics with the value |
| ConvEnums.MipmapFilterModeBijection | src/conv.rs:39-46 | every mipmap filter mode has exactly one native constant |
| ConvEnums.MapCompareFunction | src/conv.rs:47-59 | `Err(value)` iff the value is not listed |
| ConvEnums.CompareFunctionBijection | src/conv.rs:47-59 | every compare function has exactly one native constant |
| ConvEnums.MapTextureAspect | src/conv.rs:60-68 | returns for exactly the listed constants; otherwise panics with the value |
| ConvEnums.TextureAspectBijection | src/conv.rs:60-68 | every texture aspect has exactly one native constant |
| ConvEnums.MapPresentMode | src/conv.rs:69-77 | returns for exactly the listed constants; otherwise panics with the value |
| ConvEnums.PresentModeBijection | src/conv.rs:69-77 | every listed present mode has exactly one native constant |
| ConvEnums.MapPrimitiveTopology | src/conv.rs:78-88 | returns for exactly the listed constants; otherwise panics with the value |
| ConvEnums.PrimitiveTopologyBijection | src/conv.rs:78-88 | every topology has exactly one native constant |
| ConvEnums.MapIndexFormat | src/conv.rs:89-95 | `Err(value)` iff the value is not listed |
| ConvEnums.IndexFormatBijection | src/conv.rs:89-95 | every index format has exactly one native constant |
| ConvEnums.MapBlendFactor | src/conv.rs:96-114 | returns for exactly the listed constants; otherwise panics with the value |
| ConvEnums.BlendFactorBijection | src/conv.rs:96-114 | every blend factor has exactly one native constant |
| ConvEnums.MapBlendOperation | src/conv.rs:115-125 | returns for exactly the listed constants; otherwise panics with the value |
| ConvEnums.BlendOperationBijection | src/conv.rs:115-125 | every blend operation has exactly one native constant |
| ConvEnums.MapStencilOperation | src/conv.rs:126-138 | `Err(value)` iff the value is not listed |
| ConvEnums.StencilOperationBijection | src/conv.rs:126-138 | every stencil operation has exactly one native constant |
| ConvEnums.MapVertexFormat | src/conv.rs:139-173 | `Err(value)` iff the value is not listed |
| ConvEnums.VertexFormatBijection | src/conv.rs:139-173 | every vertex format has exactly one native constant |
| ConvEnums.MapShaderStage | src/conv.rs:175-183 | `Err(value)` iff the value is not listed |
| ConvEnums.ShaderStageBijection | src/conv.rs:175-183 | every shader stage has exactly one native constant |
| ConvEnums.MapCompositeAlphaMode | src/conv.rs:185-194 | `Err(value)` iff the value is not listed |
| ConvEnums.CompositeAlphaModeBijection | src/conv.rs:185-194 | every composite alpha mode has exactly one native constant |
| ConvEnums.ToNativePresentMode | src/conv.rs:976-986 | no native constant exactly for AutoVsync, AutoNoVsync and FifoRelaxed |
| ConvEnums.PresentModeRoundTrip | src/conv.rs:976-986 | `map_present_mode` inverts `to_native_present_mode` wherever that gives a constant, and a constant that maps to a mode is that mode's constant |
| ConvEnums.CompositeAlphaModeRoundTrip | src/conv.rs:988-998 | `map_composite_alpha_mode` inverts `to_native_composite_alpha_mode` to `Ok` for every mode, and the reverse |
| ConvTexture.MapTextureViewDimension | src/conv.rs:563-575 | `Some` exactly for the six listed constants |
| ConvTexture.TextureViewDimensionBijection | src/conv.rs:563-575 | every view dimension has exactly one native constant |
| ConvTexture.MapTextureDimension | src/conv.rs:577-584 | returns for the three listed constants; otherwise panics "Unknown texture dimension: " followed by the value |
| ConvTexture.TextureDimensionBijection | src/conv.rs:577-584 | every texture dimension has exactly one native constant |
| ConvTexture.MapStride | src/conv.rs:533-537 | a stride of 0 panics; `WGPU_COPY_STRIDE_UNDEFINED` gives `None`; any other value is kept |
| ConvTexture.MapTextureDataLayout | src/conv.rs:530-544 | panics iff either stride is 0, `bytesPerRow` first; otherwise the offset is copied and each stride mapped |
| ConvTexture.StrideRoundTrip | src/conv.rs:533-542 | every non-zero stride except `u32::MAX` survives the trip through its native value |
| ConvTexture.ToNativeTextureFormat | src/conv.rs:690-802 | no native constant exactly for the six 16-bit norm formats and the HDR ASTC formats |
| ConvTexture.TextureFormatToNativeAndBack | src/conv.rs:587-802 | `map_texture_format` inverts `to_native_texture_format` on every format with a native constant |
| ConvTexture.TextureFormatFromNativeAndBack | src/conv.rs:587-802 | exactly the listed constants map to a format, and `to_native_texture_format` gives the constant back |
| ConvLimits.NothingRequestedGivesDefaults | src/conv.rs:342-446 | limits that request nothing give exactly the defaults |
| ConvLimits.EachFieldFollowsItsRequest | src/conv.rs:348-439 | field by field, each limit takes its own requested value when that is defined, and keeps its own default when it is the undefined sentinel, whatever the other fields request |
| ConvLimits.EverythingRequestedIgnoresDefaults | src/conv.rs:342-446 | when every read limit and the push-constant size are requested, the result is the request field by field, with the binding sizes cut to 32 bits, and the defaults play no part |
| ConvLimits.CommentedOutFieldsIgnored | src/conv.rs:363-421 | the requests left commented out in the source (bindings per bind group at lines 363-365, inter-stage variables and colour attachments at lines 416-421) have no effect on the result |
| ConvLimits.PushConstantsOnlyFromExtras | src/conv.rs:440-444 | the push-constant size is the default unless defined extras request one, and then it is that size |
| ConvLimits.BindingSizesTruncated | src/conv.rs:389-406 | requested binding sizes are cut to their low 32 bits; the buffer size is copied whole |
| ConvBackends.MapInstanceBackendFlags | src/conv.rs:218-239 | a backend is in the set iff its native bit is set |
| ConvBackends.NoFlagsNoBackends | src/conv.rs:218-239 | no flags give no backends |
| ConvBackends.BackendFlagsDistributeOverOr | src/conv.rs:218-239 | mapping the OR of two masks gives the union of their sets |
| ConvBackends.UnknownBitsIgnored | src/conv.rs:218-239 | bits that name no backend are ignored |
| ConvBackends.BackendFlagsRoundTrip | src/conv.rs:218-239 | the mapping and the mask of a set invert each other |
| ConvFeatures.MapFeatureInverts | src/conv.rs:948-974 | `map_feature` gives each flag back from its native name, and only from that name |
| ConvFeatures.MapFeatureKnown | src/conv.rs:948-974 | `map_feature` answers `None` exactly for names that belong to no flag |
| ConvFeatures.UnavailableFeaturesIgnored | src/conv.rs:969-971 | RG11B10UfloatRenderable and BGRA8UnormStorage map to nothing |
| ConvFeatures.MapFeatures | src/conv.rs:887-897 | the flags are the union of the flags of the known names in the list |
| ConvFeatures.UnknownNamesIgnored | src/conv.rs:887-897 | a name of no flag adds nothing |
| ConvFeatures.Emit | src/conv.rs:899-946 | emits exactly the checked flags that are held, once each, in ascending order when the checks are |
| ConvFeatures.FeaturesToNativeContents | src/conv.rs:899-946 | as written, the emitted names are every held flag except ShaderFloat16, once each, in ascending order |
| ConvFeatures.FeaturesRoundTripAsWritten | src/conv.rs:887-974 | reading back what `features_to_native` writes loses exactly ShaderFloat16 |
| ConvFeatures.ShaderFloat16Dropped | src/conv.rs:899-946 | an adapter whose only feature is ShaderFloat16 reports no features |
| ConvFeatures.FeaturesToNativeFixedContents | src/conv.rs:899-946 | with ShaderFloat16 checked, every held flag is emitted once, in ascending order |
| ConvFeatures.FeaturesRoundTrip | src/conv.rs:887-974 | with ShaderFloat16 checked, every set of flags survives the trip through native names |
| ConvFeatures.NamesRoundTrip | src/conv.rs:887-974 | a list of native names comes back through the flags as exactly its known names |
| ConvReports.MapStorageReportAsWritten | src/conv.rs:813-820 | occupied, error and element size are copied; `numVacant` is right iff the vacant count equals the error count |
| ConvReports.AsWrittenAgreesOnlyWhenVacantIsError | src/conv.rs:813-820 | the mapping as written agrees with the field-by-field copy iff vacant equals error |
| ConvReports.VacantSlotsLost | src/conv.rs:813-820 | two vacant slots and no errors are reported as no vacant slots |
| ConvReports.StorageReportRoundTrip | src/conv.rs:813-820 | the field-by-field copy and its read-back invert each other |
| BufferDimensions.NewDimensions | examples/helper/src/lib.rs:22-36 | see the note below the table |
| BufferDimensions.PaddedIsLeast | examples/helper/src/lib.rs:26-28 | the padded row is the least multiple of 256 that holds the row |

`BufferDimensions.NewDimensions` states the following:
- it returns iff 4·width ≤ 2^64 − 256;
- the unpadded row is 4·width;
- the padded row is a multiple of 256, at least the unpadded row and less than 256 above it;
- a row already aligned to 256 bytes gets no padding;
- width and height are unchanged.

## Left out

**Modelled with a stand-in, a parameter or a narrower scope**
- File I/O, byte decoding, printing and `sys.exit` in `checks.py`. The header, the `src` listing, and the texts of `build.rs` and the Rust files are parameters. The exit status is a returned number.
- `os.listdir` order. The listing is a parameter, taken in the given order.
- The text of the failure messages. `Checks.Failure` records the message parts instead, because the script prints sets in Python's hash-randomised order.
- PyStr.Lower: lowers ASCII letters only, because full Unicode case mapping is outside the model. The wrapper keys it lowers are ASCII identifiers.
- `webgpu.h` is not part of this model, so the values of the `WGPU*` enumerations are unknown. Each native constant of a `map_enum!` instance, a texture format or a dimension is its 1-based position in its arm list. The `Map*` contracts state their domain in these terms (a constant returns iff it lies between 1 and the number of arms). The bijection and round-trip lemmas need only that the constants are distinct. The feature names follow `WGPUFeatureName` order from 1. The backend bits are distinct single bits among the low six, and the backend lemmas need only that.
- `ffi/wgpu.h` defines the native features PUSH_CONSTANTS (0x04000000), TEXTURE_ADAPTER_SPECIFIC_FORMAT_FEATURES (0x10000000) and VERTEX_WRITABLE_STORAGE (0x1000000000), and the model uses those values. It defines no value for MULTI_DRAW_INDIRECT or MULTI_DRAW_INDIRECT_COUNT, although `src/conv.rs` uses both. Those two get the stand-ins 0x20000000 and 0x40000000.
- The sentinels `WGPU_COPY_STRIDE_UNDEFINED` and `WGPU_LIMIT_U32_UNDEFINED` are 0xffffffff, and `WGPU_LIMIT_U64_UNDEFINED` is 0xffffffffffffffff.
- `wgt::Limits::default()` is a parameter of `MapRequiredLimits`. The `Limits` datatype holds only the fields the conversion writes.
- `to_string_lossy` in `OwnedLabel::new` is a parameter, since UTF-8 decoding is outside the model.
- `follow_chain!`: its alignment assertion and pointer casts are left out, because they concern memory layout. The chain is a sequence of (sType, payload) nodes.
- `Userdata` and its `Send`/`Sync` impls: there is no logic to model.
- `map_shader_stage` is compiled only with the `glsl` feature. It is modelled unconditionally.
- BufferDimensions.NewDimensions: models a debug build, where `usize` is 64 bits and arithmetic overflow panics. The wrap-around of a release build is not modelled.
- ConvEnums.ToNativeCompositeAlphaMode: has no contract of its own. `ConvEnums.CompositeAlphaModeRoundTrip` states what it means.
- ConvTexture.MapTextureFormat: has no contract of its own. `ConvTexture.TextureFormatFromNativeAndBack` and `ConvTexture.TextureFormatToNativeAndBack` state what it means. The single `match` is written as runs of twelve arms, tried in order, which select the same arm.
- ConvFeatures.Emit, ConvFeatures.FeaturesToNativeContents, ConvFeatures.FeaturesToNativeFixedContents: the clause that the emitted names ascend depends on the stand-in values. So does the no-repeat clause, which is derived from it. The checks of `features_to_native` test flags in increasing native value only because the two multi-draw stand-ins lie between 0x10000000 and 0x1000000000. The source promises only the order of its checks. The contents clauses need only distinct native names.
- Header.CollectStructs: has no contract of its own. `Header.StructTable`, `Header.CrashIffSomeBody`, `Header.FlatStructsOnly` and `Header.TakenBlock` state what it means, over the blocks its scan takes.
- Checks.CheckRustWrapperArgs: has no contract of its own. `Checks.CheckFiles`, `Checks.BadArgIff` and `Checks.MissingOnce` state what it means, over the table `Header.CollectFunctionArgs` builds.
- Checks.CheckOverloadedStructs: has no contract of its own. `Checks.StructLinesAreVerdicts` and `Checks.StructVerdict` state what it means, over the table `Header.CollectStructs` builds.
- Checks.Report: has no contract of its own. `Checks.WrapperFailuresFirst` and `Checks.ExitStatus` state what it means.
- ConvFeatures.MapFeature: has no contract of its own. `ConvFeatures.MapFeatureInverts`, `ConvFeatures.MapFeatureKnown` and `ConvFeatures.UnavailableFeaturesIgnored` state what it means.
- ConvFeatures.FeaturesToNative: has no contract of its own. `ConvFeatures.FeaturesToNativeContents`, `ConvFeatures.FeaturesRoundTripAsWritten` and `ConvFeatures.ShaderFloat16Dropped` state what it means.
- ConvLimits.MapRequiredLimits: has no contract of its own. `ConvLimits.EachFieldFollowsItsRequest`, `ConvLimits.EverythingRequestedIgnoresDefaults`, `ConvLimits.NothingRequestedGivesDefaults`, `ConvLimits.CommentedOutFieldsIgnored`, `ConvLimits.PushConstantsOnlyFromExtras` and `ConvLimits.BindingSizesTruncated` state what it means.
- Header.TakenBlock: stated only for a struct whose `{` and `}` are both found. When either is missing, the scan only moves on (`Header.StepAt`).

**Outside the modelled core**
- `map_hub_report` and `write_global_report`: they apply `map_storage_report` to each registry under platform `cfg`s. `write_global_report` also sets the report's backend type to that of the last hub present, in the order Vulkan, Metal, D3D12, D3D11, OpenGL, so OpenGL wins when present. This is per-platform bookkeeping with no property of its own beyond `ConvReports.StorageReportRoundTrip`.
- `map_shader_module`: shader parsing. It takes WGSL, SPIR-V or GLSL in that order, parses SPIR-V and GLSL with the naga front ends and unwraps the result, and panics "Shader not provided." when none is given. Parsing is naga's and is not part of this model.
- `map_swapchain_descriptor` and `map_query_set_descriptor`: descriptor assembly with inline matches that panic. These are the swap-chain alpha mode, the query type and the pipeline-statistic names. They also unwrap `TextureUsages::from_bits` and `expect` on the modelled texture-format mapping. The inline matches follow the same list-or-panic shape as `Utils.MapEnumOrPanic`, but they are not modelled one by one.
- The other descriptor mappings, `map_color`, `map_extent3d`, `map_origin3d`, `map_blend_component`, `map_stencil_face_state` and `map_image_copy_*`: these assemble wgpu-core structs from native ones by copying fields and calling the modelled mappings.
- `src/lib.rs`, `src/device.rs`, `src/command.rs`, `src/unimplemented.rs` and `src/logging.rs`: these are FFI entry points, object lifetimes and logging.
- `build.rs` and `ffi/wgpu.h` as programs: they are only input text to the script.
- `save_png` and the C examples: file output and demonstrations.

## Findings

| source | as written | input that shows it | evidently intended | confidence | as-written member | corrected member |
|---|---|---|---|---|---|---|
| src/conv.rs:813-820 | `numVacant: report.num_error` | a storage with 5 occupied slots, 2 vacant and 0 errors reports 0 vacant | `numVacant: report.num_vacant` | high; not executed | ConvReports.VacantSlotsLost | ConvReports.StorageReportRoundTrip |
| src/conv.rs:899-946 | `features_to_native` never checks `SHADER_FLOAT16`, although `map_feature` accepts `WGPUFeatureName_ShaderF16` | the feature set {ShaderFloat16} becomes the empty list and reads back as no features | push `WGPUFeatureName_ShaderF16` when the flag is held | medium; not executed | ConvFeatures.ShaderFloat16Dropped | ConvFeatures.FeaturesRoundTrip |

=== FILE: buffer_dimensions.dfy ===
/** `BufferDimensions::new` of the examples' helper library: the row layout
    of a buffer that receives a texture of 4-byte pixels, rows padded to the
    copy alignment of 256 bytes. */
module BufferDimensions {
  import opened Wrappers
  import opened Ints

  /** `size_of::<u32>()`. */
  const BytesPerPixel := 4

  /** The alignment a buffer row must keep for a texture copy. */
  const RowAlignment := 256

  /** `usize` is taken as 64 bits. */
  datatype Dimensions = Dimensions(
    width: u64,
    height: u64,
    unpaddedBytesPerRow: u64,
    paddedBytesPerRow: u64)

  /** `BufferDimensions::new` with overflow checks on (a debug build): the
      multiplication and the addition panic instead of wrapping. The layout
      exists exactly when the padded row fits in a `usize`; then the padded
      row is the least multiple of 256 that holds the row. */
  function NewDimensions(width: u64, height: u64): (r: Panic<Dimensions>)
    ensures r.Returned? <==> BytesPerPixel * (width as int) <= U64_LIMIT - RowAlignment
    ensures r.Returned? ==>
      && r.value.width == width && r.value.height == height
      && r.value.unpaddedBytesPerRow as int == BytesPerPixel * (width as int)
      && r.value.paddedBytesPerRow as int % RowAlignment == 0
      && r.value.unpaddedBytesPerRow <= r.value.paddedBytesPerRow
      && (r.value.paddedBytesPerRow as int) < (r.value.unpaddedBytesPerRow as int) + RowAlignment
      && ((r.value.unpaddedBytesPerRow as int) % RowAlignment == 0 ==>
            r.value.paddedBytesPerRow == r.value.unpaddedBytesPerRow)
  {
    var unpadded := BytesPerPixel * (width as int);
    if unpadded >= U64_LIMIT then Panicked("attempt to multiply with overflow")
    else
      var padding := (RowAlignment - unpadded % RowAlignment) % RowAlignment;
      if unpadded + padding >= U64_LIMIT then Panicked("attempt to add with overflow")
      else Returned(Dimensions(width, height, unpadded as u64, (unpadded + padding) as u64))
  }

  /** Any multiple of 256 that holds the row is at least the padded row. */
  lemma PaddedIsLeast(width: u64, height: u64, m: int)
    requires NewDimensions(width, height).Returned?
    requires m % RowAlignment == 0 && m >= BytesPerPixel * (width as int)
    ensures NewDimensions(width, height).value.paddedBytesPerRow as int <= m
  {
  }
}

=== FILE: checks.dfy ===
/** The two integrity checks of the script and its entry point: the Rust
    wrappers must take a reference or pointer wherever the C header declares a
    pointer argument (`check_rust_wrapper_args`), and the structs that
    `build.rs` overloads must have exactly the fields of the header's structs
    of that name (`check_overloaded_structs`).  Files are parameters: the
    header text, the `src` directory listing as (file name, text) pairs in
    listing order, and the text of `build.rs`. */
module Checks {
  import opened Wrappers
  import opened PyStr
  import opened Dicts
  import opened Header

  /** One entry of the script's `fails` list.  The script appends the printed
      message; the model keeps the parts the message is made of. */
  datatype Failure =
    | BadArgType(arg: string, typ: string)            // "✖ {argname}: {typ}"
    | MissingArgs(func: string, missing: set<string>) // "{funcname} has missing args: {missing}"
    | UnknownStruct(name: string)                     // "✖ Unknown build.rs struct {name}"
    | KeyMismatch(name: string, mismatch: set<string>) // "✖ Key mismatch in build.rs struct {name}: {mismatch}"

  // ---------------------------------------------------------------- wrappers

  /** A Rust parameter type that passes a C pointer on: it starts with `&`,
      `*` or `Option<&`. */
  predicate IsRefType(typ: string) {
    StartsWith(typ, "&") || StartsWith(typ, "*") || StartsWith(typ, "Option<&")
  }

  /** A Rust parameter `name: type` as (key, type): the key is the text before
      the first `:` with `_` removed and lower-cased (not stripped), the type
      the stripped text after it, empty without a `:`. */
  function WrapperArg(arg: string): (string, string) {
    (Normalize(PartitionBefore(arg, ":")), Strip(PartitionAfter(arg, ":")))
  }

  /** The parameters of the Rust function whose name is first found at `i0`:
      the text from the next `(` to the `)` after it (Python slice bounds, and
      `find` from -1 when there is no `(`), whitespace runs collapsed to one
      space, split at `,`, each piece stripped. */
  function WrapperArgs(text: string, i0: int): (args: seq<string>)
    ensures |args| >= 1
  {
    var i1 := Find(text, "(", i0);
    var i2 := Find(text, ")", i1);
    var pieces := SplitOn(Join(Words(Slice(text, i1 + 1, i2)), " "), ',');
    seq(|pieces|, i requires 0 <= i < |pieces| => Strip(pieces[i]))
  }

  /** The keys a wrapper's parameters cover. */
  function Covered(args: seq<string>): set<string> {
    set i | 0 <= i < |args| :: WrapperArg(args[i]).0
  }

  /** The failure one parameter raises: a parameter whose key is a C pointer
      argument but whose type is no reference or pointer. */
  function ArgVerdict(arg: string, ptrs: map<string, string>): (v: Option<Failure>)
    ensures v.Some? <==> WrapperArg(arg).0 in ptrs && !IsRefType(WrapperArg(arg).1)
    ensures v.Some? ==> v.value == BadArgType(WrapperArg(arg).0, WrapperArg(arg).1)
  {
    var (key, typ) := WrapperArg(arg);
    if key in ptrs && !IsRefType(typ) then Some(BadArgType(key, typ)) else None
  }

  /** The failures of the parameter loop, in parameter order. */
  function ArgFailures(args: seq<string>, ptrs: map<string, string>): (r: seq<Failure>)
    ensures |r| <= |args|
    ensures forall f :: f in r <==> exists i :: 0 <= i < |args| && ArgVerdict(args[i], ptrs) == Some(f)
  {
    var os := seq(|args|, i requires 0 <= i < |args| => ArgVerdict(args[i], ptrs));
    assert forall i :: 0 <= i < |args| ==> os[i] == ArgVerdict(args[i], ptrs);
    Present(os)
  }

  /** One turn of the function loop for one source file: `func` with pointer
      arguments `ptrs` (keys as the header collector made them).  Nothing is
      checked when `ptrs` is empty or the name is not found at an index above 0
      (a name at the very start of the file is missed, as `i0 > 0` demands). */
  function CheckFunction(text: string, func: string, ptrs: map<string, string>): (r: seq<Failure>)
    ensures |ptrs| == 0 || Find(text, func, 0) <= 0 ==> r == []
    ensures forall f :: f in r ==> f.BadArgType? || f.MissingArgs?
  {
    if |ptrs| == 0 then []
    else
      var i0 := Find(text, func, 0);
      if i0 <= 0 then []
      else
        var args := WrapperArgs(text, i0);
        var missing := ptrs.Keys - Covered(args);
        ArgFailures(args, ptrs) + (if missing != {} then [MissingArgs(func, missing)] else [])
  }

  /** The function loop over one source file, in the table's key order. */
  function CheckFile(text: string, funcs: OrderedDict<string, map<string, string>>): (r: seq<Failure>)
    requires funcs.Valid()
    ensures forall f :: f in r <==>
      exists i :: 0 <= i < |funcs.keys| && f in CheckFunction(text, funcs.keys[i], funcs.entries[funcs.keys[i]])
  {
    var keys := funcs.keys;
    assert forall i :: 0 <= i < |keys| ==> keys[i] in funcs.entries;
    var xss := seq(|keys|, i requires 0 <= i < |keys| => CheckFunction(text, keys[i], funcs.entries[keys[i]]));
    assert forall i :: 0 <= i < |keys| ==> xss[i] == CheckFunction(text, keys[i], funcs.entries[keys[i]]);
    Flatten(xss)
  }

  /** A directory entry the wrapper check reads: its path ends in `.rs`. */
  predicate IsRustFile(fname: string) {
    EndsWith("src/" + fname, ".rs")
  }

  /** The file loop of `check_rust_wrapper_args` with function table `funcs`:
      every `.rs` file of the listing, in listing order. */
  function CheckFiles(funcs: OrderedDict<string, map<string, string>>, files: seq<(string, string)>): (r: seq<Failure>)
    requires funcs.Valid()
    ensures forall f :: f in r <==>
      exists k :: 0 <= k < |files| && IsRustFile(files[k].0) && f in CheckFile(files[k].1, funcs)
  {
    var xss := seq(|files|, k requires 0 <= k < |files| =>
      if IsRustFile(files[k].0) then CheckFile(files[k].1, funcs) else []);
    assert forall k :: 0 <= k < |files| ==>
      xss[k] == if IsRustFile(files[k].0) then CheckFile(files[k].1, funcs) else [];
    Flatten(xss)
  }

  /** `check_rust_wrapper_args()`: the files checked against the header's
      function table. */
  function CheckRustWrapperArgs(header: string, files: seq<(string, string)>): (r: seq<Failure>) {
    CheckFiles(CollectFunctionArgs(header), files)
  }

  /** A parameter of a found wrapper fails exactly when its key is a pointer
      argument of the header and its type is no reference or pointer; the
      failure records the key and the type. */
  lemma BadArgIff(text: string, func: string, ptrs: map<string, string>, key: string, typ: string)
    requires |ptrs| > 0 && Find(text, func, 0) > 0
    ensures var args := WrapperArgs(text, Find(text, func, 0));
      BadArgType(key, typ) in CheckFunction(text, func, ptrs) <==>
        exists i :: 0 <= i < |args| && WrapperArg(args[i]) == (key, typ) && key in ptrs && !IsRefType(typ)
  {
    var args := WrapperArgs(text, Find(text, func, 0));
    var missing := ptrs.Keys - Covered(args);
    assert CheckFunction(text, func, ptrs) ==
      ArgFailures(args, ptrs) + (if missing != {} then [MissingArgs(func, missing)] else []);
  }

  /** A found wrapper reports missing arguments at most once, as its last
      failure, and exactly when some pointer argument of the header has no
      parameter of its key; the report names exactly those arguments. */
  lemma MissingOnce(text: string, func: string, ptrs: map<string, string>)
    requires |ptrs| > 0 && Find(text, func, 0) > 0
    ensures var r := CheckFunction(text, func, ptrs);
      var args := WrapperArgs(text, Find(text, func, 0));
      && (forall i :: 0 <= i < |r| - 1 ==> r[i].BadArgType?)
      && ((|r| > 0 && r[|r| - 1].MissingArgs?) <==> !(ptrs.Keys <= Covered(args)))
      && (|r| > 0 && r[|r| - 1].MissingArgs? ==> r[|r| - 1] == MissingArgs(func, ptrs.Keys - Covered(args)))
  {
    var args := WrapperArgs(text, Find(text, func, 0));
    var bad := ArgFailures(args, ptrs);
    var missing := ptrs.Keys - Covered(args);
    var r := CheckFunction(text, func, ptrs);
    assert forall f :: f in bad ==> f.BadArgType?;
    if missing == {} {
      assert r == bad;
      assert ptrs.Keys <= Covered(args) by {
        forall k | k in ptrs.Keys ensures k in Covered(args) {
          assert k !in missing;
        }
      }
      if |r| > 0 {
        assert r[|r| - 1] in bad;
      }
    } else {
      assert r == bad + [MissingArgs(func, missing)];
      var k :| k in missing;
      assert k in ptrs.Keys && k !in Covered(args);
      assert forall i :: 0 <= i < |r| - 1 ==> r[i] == bad[i];
    }
  }

  // ---------------------------------------------------------------- build.rs

  /** The struct `build.rs` has open: its name and the keys of its `pub`
      fields so far. */
  datatype Open = Open(name: string, keys: set<string>)

  /** A stripped `pub struct ` line has at least three words: the line does
      not end in whitespace, so something follows the keyword. */
  lemma PubStructHasName(line: string)
    requires StartsWith(Strip(line), "pub struct ")
    ensures |Words(Strip(line))| >= 3
  {
    var s := Strip(line);
    StripEndsInText(line);
    assert s[..11] == "pub struct ";
    ThreeWords(s);
  }

  /** A stripped text ends in a non-whitespace character. */
  lemma StripEndsInText(line: string)
    ensures var s := Strip(line); |s| > 0 ==> !IsSpace(s[|s| - 1])
  {
    var l := LStrip(line, Whitespace);
    TrailCountSpec(l, Whitespace);
    var s := Strip(line);
    assert s == l[..|l| - TrailCount(l, Whitespace)];
    if |s| > 0 {
      assert s[|s| - 1] == l[|l| - 1 - TrailCount(l, Whitespace)];
    }
  }

  lemma ThreeWords(s: string)
    requires |s| >= 11 && s[..11] == "pub struct " && !IsSpace(s[|s| - 1])
    ensures |Words(s)| >= 3
  {
    var p := "pub struct ";
    assert forall j :: 0 <= j < 11 ==> s[j] == p[j];
    forall j | 0 <= j < 3 ensures !IsSpace(s[j]) {
      LetterNotSpace(s[j]);
    }
    SkipWord(s, 3);
    var t := s[4..];
    forall j | 0 <= j < 6 ensures !IsSpace(t[j]) {
      assert t[j] == p[4 + j];
      LetterNotSpace(t[j]);
    }
    assert t[6] == ' ';
    SkipWord(t, 6);
    assert t[7..] == s[11..];
    WordsSpec(s[11..]);
    assert s[11..][|s| - 12] == s[|s| - 1];
  }

  /** A word of `k` characters followed by one space contributes one word. */
  lemma SkipWord(s: string, k: nat)
    requires 0 < k < |s| && s[k] == ' '
    requires forall j :: 0 <= j < k ==> !IsSpace(s[j])
    ensures |Words(s)| == 1 + |Words(s[k + 1..])|
  {
    WordsStep(s, k);
    assert s[k..][1..] == s[k + 1..];
  }

  /** The struct name of a `pub struct ` line: the third word of the
      stripped line. */
  function StructName(line: string): string
    requires StartsWith(Strip(line), "pub struct ")
  {
    PubStructHasName(line);
    Words(Strip(line))[2]
  }

  /** The key of a stripped `pub ` field line: its second word once every `:`
      is a space.  A line like `pub :` has no second word: the script raises
      `IndexError`. */
  function FieldLineKey(sline: string): Result<string, Crash> {
    var ws := Words(Replace(sline, ":", " "));
    if |ws| < 2 then Err(IndexError("split()[1]")) else Ok(ws[1])
  }

  /** The verdict on a closed struct: unknown to the header, or with a key set
      that differs from the header's (the symmetric difference is reported),
      or none. */
  function StructVerdict(structs: map<string, map<string, string>>, b: Open): (v: Option<Failure>)
    ensures v.None? <==> b.name in structs && structs[b.name].Keys == b.keys
    ensures v == Some(UnknownStruct(b.name)) <==> b.name !in structs
    ensures v.Some? && v.value.KeyMismatch? ==>
      && b.name in structs && v.value.name == b.name && v.value.mismatch != {}
      && (forall k :: k in v.value.mismatch <==> (k in structs[b.name] <==> k !in b.keys))
  {
    if b.name !in structs then Some(UnknownStruct(b.name))
    else
      var refKeys := structs[b.name].Keys;
      var mismatch := (refKeys - b.keys) + (b.keys - refKeys);
      if mismatch != {} then Some(KeyMismatch(b.name, mismatch)) else None
  }

  /** Python truthiness of `name`: set and not empty. */
  predicate Named(open: Option<Open>) {
    open.Some? && open.value.name != ""
  }

  /** One turn of the line loop of `check_overloaded_structs`: the new open
      struct and what the turn appends to `fails`.  A `pub struct ` line opens
      a struct (dropping one still open); while one is open, a `}` line closes
      and judges it and a `pub ` line adds a key. */
  function StructLine(structs: map<string, map<string, string>>, open: Option<Open>, line: string)
    : Result<(Option<Open>, seq<Failure>), Crash>
  {
    var sline := Strip(line);
    if StartsWith(sline, "pub struct ") then
      Ok((Some(Open(StructName(line), {})), []))
    else if Named(open) then
      if StartsWith(sline, "}") then
        match StructVerdict(structs, open.value)
        case None => Ok((None, []))
        case Some(f) => Ok((None, [f]))
      else if StartsWith(sline, "pub ") then
        match FieldLineKey(sline)
        case Err(e) => Err(e)
        case Ok(key) => Ok((Some(Open(open.value.name, open.value.keys + {key})), []))
      else Ok((open, []))
    else Ok((open, []))
  }

  /** The line loop from state `open` over `lines`: the failures, in order,
      or the first crash. */
  function StructLines(structs: map<string, map<string, string>>, open: Option<Open>, lines: seq<string>)
    : Result<seq<Failure>, Crash>
    decreases |lines|
  {
    if |lines| == 0 then Ok([])
    else
      match StructLine(structs, open, lines[0])
      case Err(e) => Err(e)
      case Ok((next, fs)) =>
        match StructLines(structs, next, lines[1..])
        case Err(e) => Err(e)
        case Ok(rest) => Ok(fs + rest)
  }

  /** `check_overloaded_structs()`: collect the header's structs (which may
      crash), then walk the lines of `build.rs`. */
  function CheckOverloadedStructs(header: string, buildRs: string): Result<seq<Failure>, Crash> {
    match CollectStructs(header)
    case Err(e) => Err(e)
    case Ok(structs) => StructLines(structs, None, SplitLines(buildRs))
  }

  /** Reference reading of `build.rs`, independent of the header: the structs
      the line loop closes, in order, or the crash of a keyless `pub` line. */
  function ClosedStructs(open: Option<Open>, lines: seq<string>): Result<seq<Open>, Crash>
    decreases |lines|
  {
    if |lines| == 0 then Ok([])
    else
      var sline := Strip(lines[0]);
      if StartsWith(sline, "pub struct ") then ClosedStructs(Some(Open(StructName(lines[0]), {})), lines[1..])
      else if !Named(open) then ClosedStructs(open, lines[1..])
      else if StartsWith(sline, "}") then
        match ClosedStructs(None, lines[1..])
        case Err(e) => Err(e)
        case Ok(rest) => Ok([open.value] + rest)
      else if StartsWith(sline, "pub ") then
        match FieldLineKey(sline)
        case Err(e) => Err(e)
        case Ok(key) => ClosedStructs(Some(Open(open.value.name, open.value.keys + {key})), lines[1..])
      else ClosedStructs(open, lines[1..])
  }

  /** The verdicts on a sequence of closed structs, in order. */
  function Verdicts(structs: map<string, map<string, string>>, bs: seq<Open>): (r: seq<Failure>)
    ensures |r| <= |bs|
    ensures forall f :: f in r <==> exists i :: 0 <= i < |bs| && StructVerdict(structs, bs[i]) == Some(f)
  {
    var os := seq(|bs|, i requires 0 <= i < |bs| => StructVerdict(structs, bs[i]));
    assert forall i :: 0 <= i < |bs| ==> os[i] == StructVerdict(structs, bs[i]);
    Present(os)
  }

  /** The build.rs check fails once for each closed struct that is unknown or
      whose keys differ, in order, and for nothing else; whether it crashes
      does not depend on the header's structs. */
  lemma {:induction false} StructLinesAreVerdicts(structs: map<string, map<string, string>>,
                                                  open: Option<Open>, lines: seq<string>)
    ensures StructLines(structs, open, lines).Ok? <==> ClosedStructs(open, lines).Ok?
    ensures StructLines(structs, open, lines).Ok? ==>
      StructLines(structs, open, lines).value == Verdicts(structs, ClosedStructs(open, lines).value)
    decreases |lines|
  {
    if |lines| > 0 {
      var sline := Strip(lines[0]);
      match StructLine(structs, open, lines[0])
      case Err(e) =>
      case Ok((next, fs)) =>
        StructLinesAreVerdicts(structs, next, lines[1..]);
        if !StartsWith(sline, "pub struct ") && Named(open) && StartsWith(sline, "}") {
          var rest := ClosedStructs(None, lines[1..]);
          if rest.Ok? {
            VerdictsCons(structs, open.value, rest.value);
          }
        }
    }
  }

  /** The verdicts of `[b] + bs` are the verdict on `b` followed by those of `bs`. */
  lemma VerdictsCons(structs: map<string, map<string, string>>, b: Open, bs: seq<Open>)
    ensures Verdicts(structs, [b] + bs) ==
      (match StructVerdict(structs, b) case None => [] case Some(f) => [f]) + Verdicts(structs, bs)
  {
    var os := seq(|bs| + 1, i requires 0 <= i < |bs| + 1 => StructVerdict(structs, ([b] + bs)[i]));
    assert os[1..] == seq(|bs|, i requires 0 <= i < |bs| => StructVerdict(structs, bs[i]));
  }

  // ---------------------------------------------------------------- main

  /** The `fails` list `main()` reports: the wrapper failures first, then the
      build.rs failures; or the crash that ends the script. */
  function Report(header: string, files: seq<(string, string)>, buildRs: string): Result<seq<Failure>, Crash> {
    var wrappers := CheckRustWrapperArgs(header, files);
    match CheckOverloadedStructs(header, buildRs)
    case Err(e) => Err(e)
    case Ok(structs) => Ok(wrappers + structs)
  }

  /** The exit status of `main()`: 0 when the script runs through without a
      failure, 1 otherwise (an uncaught exception also exits with 1). */
  function ExitStatus(header: string, files: seq<(string, string)>, buildRs: string): (status: nat)
    ensures status == 0 || status == 1
    ensures status == 0 <==>
      && CheckRustWrapperArgs(header, files) == []
      && CheckOverloadedStructs(header, buildRs) == Ok([])
  {
    match Report(header, files, buildRs)
    case Err(_) => 1
    case Ok(fails) => if |fails| > 0 then 1 else 0
  }

  /** Without a crash the report starts with the wrapper failures and ends
      with the build.rs failures. */
  lemma WrapperFailuresFirst(header: string, files: seq<(string, string)>, buildRs: string)
    requires Report(header, files, buildRs).Ok?
    ensures var r := Report(header, files, buildRs).value;
      var w := CheckRustWrapperArgs(header, files);
      && |w| <= |r| && r[..|w|] == w
      && CheckOverloadedStructs(header, buildRs) == Ok(r[|w|..])
  {
    var r := Report(header, files, buildRs).value;
    var w := CheckRustWrapperArgs(header, files);
    assert r == w + CheckOverloadedStructs(header, buildRs).value;
  }
}

=== FILE: comments.dfy ===
/** `remove_c_comments` of checks.py: the cursor loop that cuts `//` and
    slash-star block comments out of C text, and a character-level scanner it is
    proved equal to. */
module Comments {
  import opened PyStr

  /** One turn of the loop of `remove_c_comments` from cursor `pos`: the kept
      text runs from `pos` to `start`; copying resumes at `resume`, or the loop
      stops when `resume` is -1. */
  datatype Cut = Cut(start: nat, resume: int)

  /** Look for the next `//` and the next slash-star; a slash-star wins unless a
      `//` starts strictly before it.  A line comment ends just before the next
      newline (which is kept), a block comment just after the next star-slash.
      Without an opener everything is kept; without a terminator the rest of the
      text is dropped. */
  function NextCut(code: string, pos: nat): (c: Cut)
    requires pos <= |code|
    ensures pos <= c.start <= |code|
    ensures c.resume == -1 || c.start < c.resume <= |code|
  {
    var i1 := Find(code, "//", pos);
    var i2 := Find(code, "/*", pos);
    if i2 >= 0 && !(i1 >= 0 && i1 < i2) then
      var end := Find(code, "*/", i2 + 2);
      Cut(i2, if end < 0 then -1 else end + 2)
    else if i1 >= 0 then
      Cut(i1, Find(code, "\n", i1 + 2))
    else Cut(|code|, -1)
  }

  /** The loop of `remove_c_comments` from cursor `pos`. */
  function RemoveFrom(code: string, pos: nat): (r: string)
    requires pos <= |code|
    ensures |r| <= |code| - pos
    decreases |code| - pos
  {
    var c := NextCut(code, pos);
    if c.resume < 0 then code[pos..c.start]
    else code[pos..c.start] + RemoveFrom(code, c.resume)
  }

  /** `remove_c_comments(code)`. */
  function RemoveCComments(code: string): (r: string)
    ensures |r| <= |code|
    ensures Find(code, "//", 0) < 0 && Find(code, "/*", 0) < 0 ==> r == code
  {
    RemoveFrom(code, 0)
  }

  // ------------------------------------------------------------ reference scanner

  predicate OpenerAt(code: string, i: int) {
    OccursAt(code, "//", i) || OccursAt(code, "/*", i)
  }

  /** Outside any comment at index `i`: copy characters until an opener. */
  function StripCode(code: string, i: nat): string
    requires i <= |code|
    decreases |code| - i, 0
  {
    if i == |code| then ""
    else if OccursAt(code, "//", i) then StripLine(code, i + 2)
    else if OccursAt(code, "/*", i) then StripBlock(code, i + 2)
    else [code[i]] + StripCode(code, i + 1)
  }

  /** Inside a line comment: drop characters up to, not including, a newline. */
  function StripLine(code: string, i: nat): string
    requires i <= |code|
    decreases |code| - i, 1
  {
    if i == |code| then ""
    else if code[i] == '\n' then StripCode(code, i)
    else StripLine(code, i + 1)
  }

  /** Inside a block comment: drop characters through the closing star-slash. */
  function StripBlock(code: string, i: nat): string
    requires i <= |code|
    decreases |code| - i, 0
  {
    if i == |code| then ""
    else if OccursAt(code, "*/", i) then StripCode(code, i + 2)
    else StripBlock(code, i + 1)
  }

  lemma {:induction false} CopyPlain(code: string, pos: nat, k: nat)
    requires pos <= k <= |code|
    requires forall j :: pos <= j < k ==> !OpenerAt(code, j)
    ensures StripCode(code, pos) == code[pos..k] + StripCode(code, k)
    decreases k - pos
  {
    if pos < k {
      assert !OpenerAt(code, pos);
      assert StripCode(code, pos) == [code[pos]] + StripCode(code, pos + 1);
      CopyPlain(code, pos + 1, k);
      assert code[pos..k] == [code[pos]] + code[pos + 1..k];
    }
  }

  lemma {:induction false} SkipLine(code: string, a: nat, e: nat)
    requires a <= e <= |code|
    requires forall j :: a <= j < e ==> code[j] != '\n'
    ensures StripLine(code, a) == StripLine(code, e)
    decreases e - a
  {
    if a < e {
      SkipLine(code, a + 1, e);
    }
  }

  lemma {:induction false} SkipBlock(code: string, a: nat, e: nat)
    requires a <= e <= |code|
    requires forall j :: a <= j < e ==> !OccursAt(code, "*/", j)
    ensures StripBlock(code, a) == StripBlock(code, e)
    decreases e - a
  {
    if a < e {
      SkipBlock(code, a + 1, e);
    }
  }

  lemma {:induction false} LineToEnd(code: string, a: nat)
    requires a <= |code|
    requires forall j :: a <= j < |code| ==> code[j] != '\n'
    ensures StripLine(code, a) == ""
  {
    SkipLine(code, a, |code|);
  }

  lemma {:induction false} BlockToEnd(code: string, a: nat)
    requires a <= |code|
    requires forall j :: a <= j ==> !OccursAt(code, "*/", j)
    ensures StripBlock(code, a) == ""
  {
    SkipBlock(code, a, |code|);
  }

  /** What the scanner does at a `//`: resume after the comment at the next
      newline, or stop when there is none. */
  lemma ScannerAtLine(code: string, start: nat)
    requires OccursAt(code, "//", start)
    ensures var end := Find(code, "\n", start + 2);
            StripCode(code, start) == if end < 0 then "" else StripCode(code, end)
  {
    var end := Find(code, "\n", start + 2);
    FindFirst(code, "\n", start + 2);
    assert StripCode(code, start) == StripLine(code, start + 2);
    if end < 0 {
      forall j | start + 2 <= j < |code| ensures code[j] != '\n' {
        assert !OccursAt(code, "\n", j);
        assert code[j..j + 1] == [code[j]];
      }
      LineToEnd(code, start + 2);
    } else {
      forall j | start + 2 <= j < end ensures code[j] != '\n' {
        assert !OccursAt(code, "\n", j);
        assert code[j..j + 1] == [code[j]];
      }
      SkipLine(code, start + 2, end);
      assert code[end..end + 1] == "\n";
      assert code[end] == '\n';
      assert StripLine(code, end) == StripCode(code, end);
    }
  }

  /** What the scanner does at a slash-star: resume after the next star-slash,
      or stop when there is none. */
  lemma ScannerAtBlock(code: string, start: nat)
    requires OccursAt(code, "/*", start)
    ensures var end := Find(code, "*/", start + 2);
            StripCode(code, start) == if end < 0 then "" else StripCode(code, end + 2)
  {
    assert code[start + 1] == '*';
    assert !OccursAt(code, "//", start);
    assert StripCode(code, start) == StripBlock(code, start + 2);
    var end := Find(code, "*/", start + 2);
    FindFirst(code, "*/", start + 2);
    if end < 0 {
      BlockToEnd(code, start + 2);
    } else {
      SkipBlock(code, start + 2, end);
    }
  }

  /** The opener `remove_c_comments` picks from cursor `pos` is the first one. */
  lemma NoOpenerBefore(code: string, pos: nat)
    requires pos <= |code|
    ensures var i1 := Find(code, "//", pos);
            var i2 := Find(code, "/*", pos);
            var block := i2 >= 0 && !(i1 >= 0 && i1 < i2);
            var stop := if block then i2 else if i1 >= 0 then i1 else |code|;
            pos <= stop <= |code| && forall j :: pos <= j < stop ==> !OpenerAt(code, j)
  {
    FindFirst(code, "//", pos);
    FindFirst(code, "/*", pos);
  }

  /** The scanner copies the text before the cut unchanged. */
  lemma PlainBeforeCut(code: string, pos: nat)
    requires pos <= |code|
    ensures var c := NextCut(code, pos);
            StripCode(code, pos) == code[pos..c.start] + StripCode(code, c.start)
  {
    NoOpenerBefore(code, pos);
    CopyPlain(code, pos, NextCut(code, pos).start);
  }

  /** At the cut, the scanner drops the comment and carries on where the
      cursor loop resumes, or stops where the loop stops. */
  lemma ScannerAtCut(code: string, pos: nat)
    requires pos <= |code|
    ensures var c := NextCut(code, pos);
            StripCode(code, c.start) == if c.resume < 0 then "" else StripCode(code, c.resume)
  {
    var i1 := Find(code, "//", pos);
    var i2 := Find(code, "/*", pos);
    if i2 >= 0 && !(i1 >= 0 && i1 < i2) {
      BlockCut(code, pos, i2);
    } else if i1 >= 0 {
      LineCut(code, pos, i1);
    } else {
      assert NextCut(code, pos) == Cut(|code|, -1);
    }
  }

  lemma BlockCut(code: string, pos: nat, i2: int)
    requires pos <= |code|
    requires var i1 := Find(code, "//", pos);
             i2 == Find(code, "/*", pos) && i2 >= 0 && !(i1 >= 0 && i1 < i2)
    ensures var c := NextCut(code, pos);
            StripCode(code, c.start) == if c.resume < 0 then "" else StripCode(code, c.resume)
  {
    var end := Find(code, "*/", i2 + 2);
    assert NextCut(code, pos) == Cut(i2, if end < 0 then -1 else end + 2);
    ScannerAtBlock(code, i2);
  }

  lemma LineCut(code: string, pos: nat, i1: int)
    requires pos <= |code|
    requires var i2 := Find(code, "/*", pos);
             i1 == Find(code, "//", pos) && i1 >= 0 && !(i2 >= 0 && !(i1 < i2))
    ensures var c := NextCut(code, pos);
            StripCode(code, c.start) == if c.resume < 0 then "" else StripCode(code, c.resume)
  {
    assert NextCut(code, pos) == Cut(i1, Find(code, "\n", i1 + 2));
    ScannerAtLine(code, i1);
  }

  /** The cursor loop of `remove_c_comments` and the character-level scanner
      agree on every text from every cursor. */
  lemma {:induction false} RemoveFromIsScanner(code: string, pos: nat)
    requires pos <= |code|
    ensures RemoveFrom(code, pos) == StripCode(code, pos)
    decreases |code| - pos
  {
    var c := NextCut(code, pos);
    PlainBeforeCut(code, pos);
    ScannerAtCut(code, pos);
    if c.resume >= 0 {
      RemoveFromIsScanner(code, c.resume);
    }
  }

  /** `remove_c_comments` is the character-level comment scanner: copy code,
      drop `//` up to (not including) the newline, drop slash-star through the first
      later star-slash, and drop everything after an unterminated opener. */
  lemma RemoveCCommentsIsScanner(code: string)
    ensures RemoveCComments(code) == StripCode(code, 0)
  {
    RemoveFromIsScanner(code, 0);
  }

  /** An unterminated comment drops the rest of the text, without an error:
      what is kept is exactly the text before the first opener. */
  lemma UnterminatedDropsRest(code: string, k: nat)
    requires k < |code| && OpenerAt(code, k)
    requires forall j :: 0 <= j < k ==> !OpenerAt(code, j)
    requires OccursAt(code, "//", k) ==> forall j :: k + 2 <= j < |code| ==> code[j] != '\n'
    requires OccursAt(code, "/*", k) ==> forall j :: k + 2 <= j ==> !OccursAt(code, "*/", j)
    ensures RemoveCComments(code) == code[..k]
  {
    RemoveCCommentsIsScanner(code);
    CopyPlain(code, 0, k);
    if OccursAt(code, "//", k) {
      LineToEnd(code, k + 2);
    } else {
      BlockToEnd(code, k + 2);
    }
  }
}

=== FILE: conv_backends.dfy ===
/** `map_instance_backend_flags` of `src/conv.rs`: the native instance
    backend bit mask as a set of `wgt::Backends`. */
module ConvBackends {

  /** The backends `wgt::Backends` can name. */
  datatype Backend = BrowserWebGpu | Vulkan | Gl | Metal | Dx12 | Dx11

  /** The native `WGPUInstanceBackend_*` bit of each backend. The header that
      defines them is not part of this model; each stand-in is a distinct
      single bit among the low six, which is all the lemmas below rely on. */
  function BackendBit(b: Backend): (bit: bv32)
    ensures bit != 0 && bit & (bit - 1) == 0
  {
    match b
    case BrowserWebGpu => 0x01
    case Vulkan => 0x02
    case Gl => 0x04
    case Metal => 0x08
    case Dx12 => 0x10
    case Dx11 => 0x20
  }

  /** Every bit some backend names. */
  const KnownBackendBits: bv32 := 0x3f

  /** `map_instance_backend_flags`: test each backend's bit in turn and add
      the backend when it is set. */
  function MapInstanceBackendFlags(flags: bv32): (r: set<Backend>)
    ensures forall b: Backend :: b in r <==> flags & BackendBit(b) != 0
  {
    (if flags & BackendBit(BrowserWebGpu) != 0 then {BrowserWebGpu} else {})
    + (if flags & BackendBit(Vulkan) != 0 then {Vulkan} else {})
    + (if flags & BackendBit(Gl) != 0 then {Gl} else {})
    + (if flags & BackendBit(Metal) != 0 then {Metal} else {})
    + (if flags & BackendBit(Dx12) != 0 then {Dx12} else {})
    + (if flags & BackendBit(Dx11) != 0 then {Dx11} else {})
  }

  /** The mask with exactly the bits of `backends`: the inverse direction. */
  function BackendsToFlags(backends: set<Backend>): (flags: bv32)
    ensures flags & !KnownBackendBits == 0
  {
    (if BrowserWebGpu in backends then BackendBit(BrowserWebGpu) else 0)
    | (if Vulkan in backends then BackendBit(Vulkan) else 0)
    | (if Gl in backends then BackendBit(Gl) else 0)
    | (if Metal in backends then BackendBit(Metal) else 0)
    | (if Dx12 in backends then BackendBit(Dx12) else 0)
    | (if Dx11 in backends then BackendBit(Dx11) else 0)
  }

  /** No flags, no backends. */
  lemma NoFlagsNoBackends()
    ensures MapInstanceBackendFlags(0) == {}
  {
    assert forall b: Backend :: b !in MapInstanceBackendFlags(0);
  }

  /** The mapping sends the union of two masks to the union of their sets. */
  lemma BackendFlagsDistributeOverOr(a: bv32, b: bv32)
    ensures MapInstanceBackendFlags(a | b) == MapInstanceBackendFlags(a) + MapInstanceBackendFlags(b)
  {
    forall x: Backend ensures (a | b) & BackendBit(x) != 0 <==> a & BackendBit(x) != 0 || b & BackendBit(x) != 0 {
      OrMasked(a, b, BackendBit(x));
    }
  }

  lemma OrMasked(a: bv32, b: bv32, m: bv32)
    ensures (a | b) & m != 0 <==> a & m != 0 || b & m != 0
  {
  }

  /** Bits that name no backend are ignored. */
  lemma UnknownBitsIgnored(flags: bv32)
    ensures MapInstanceBackendFlags(flags) == MapInstanceBackendFlags(flags & KnownBackendBits)
  {
    forall x: Backend ensures flags & BackendBit(x) != 0 <==> (flags & KnownBackendBits) & BackendBit(x) != 0 {
      KnownBit(flags, x);
    }
  }

  lemma KnownBit(flags: bv32, x: Backend)
    ensures flags & BackendBit(x) == (flags & KnownBackendBits) & BackendBit(x)
  {
    match x
    case BrowserWebGpu =>
    case Vulkan =>
    case Gl =>
    case Metal =>
    case Dx12 =>
    case Dx11 =>
  }

  /** Every set of backends survives the trip through its mask, and every
      mask without unknown bits survives the trip through its set. */
  lemma BackendFlagsRoundTrip(backends: set<Backend>, flags: bv32)
    ensures MapInstanceBackendFlags(BackendsToFlags(backends)) == backends
    ensures flags & !KnownBackendBits == 0 ==> BackendsToFlags(MapInstanceBackendFlags(flags)) == flags
  {
    var f := BackendsToFlags(backends);
    forall x: Backend ensures f & BackendBit(x) != 0 <==> x in backends {
      match x
      case BrowserWebGpu =>
      case Vulkan =>
      case Gl =>
      case Metal =>
      case Dx12 =>
      case Dx11 =>
    }
  }
}

=== FILE: conv_enums.dfy ===
/** The `map_enum!` instances of `src/conv.rs`: each native enum of the C
    header mapped to its Rust enum, and the two conversions back to native
    constants. The C header defining the native constants is not part of this
    model: each native constant stands for its position in its instance's arm
    list, counted from 1. The domain clause of each `Map*` function (a value
    maps iff it lies between 1 and the number of arms) is stated in that
    numbering; the bijection and round-trip lemmas need only that the
    constants are distinct. */
module ConvEnums {
  import opened Wrappers
  import opened Utils

  /** `wgc::command::LoadOp`: what a render pass does with an attachment first. */
  datatype LoadOp =
    Clear | Load

  /** `wgc::command::StoreOp`: what a render pass does with an attachment last. */
  datatype StoreOp =
    Discard | Store

  /** `wgt::AddressMode`: sampler behaviour outside the texture. */
  datatype AddressMode =
    ClampToEdge | Repeat | MirrorRepeat

  /** `wgt::FilterMode`: texel filtering, for both the filter and the mipmap filter. */
  datatype FilterMode =
    Nearest | Linear

  /** `wgt::TextureAspect`: the aspect of a texture a view or copy covers. */
  datatype TextureAspect =
    All | StencilOnly | DepthOnly

  /** `wgt::PresentMode`: all its variants, of which the native enum has three. */
  datatype PresentMode =
    AutoVsync | AutoNoVsync | Fifo | FifoRelaxed | Immediate | Mailbox

  /** `wgt::PrimitiveTopology`. */
  datatype PrimitiveTopology =
    PointList | LineList | LineStrip | TriangleList | TriangleStrip

  /** `wgt::BlendFactor`. */
  datatype BlendFactor =
    Zero | One | Src | OneMinusSrc | SrcAlpha | OneMinusSrcAlpha | Dst | OneMinusDst |
    DstAlpha | OneMinusDstAlpha | SrcAlphaSaturated | Constant | OneMinusConstant

  /** `wgt::BlendOperation`. */
  datatype BlendOperation =
    Add | Subtract | ReverseSubtract | Min | Max

  /** `wgt::CompareFunction`. */
  datatype CompareFunction =
    Never | Less | Equal | LessEqual | Greater | NotEqual | GreaterEqual | Always

  /** `wgt::IndexFormat`. */
  datatype IndexFormat =
    Uint16 | Uint32

  /** `wgt::StencilOperation`. */
  datatype StencilOperation =
    Keep | Zero | Replace | Invert | IncrementClamp | DecrementClamp | IncrementWrap |
    DecrementWrap

  /** `wgt::VertexFormat`. */
  datatype VertexFormat =
    Uint8x2 | Uint8x4 | Sint8x2 | Sint8x4 | Unorm8x2 | Unorm8x4 | Snorm8x2 | Snorm8x4 |
    Uint16x2 | Uint16x4 | Sint16x2 | Sint16x4 | Unorm16x2 | Unorm16x4 | Snorm16x2 |
    Snorm16x4 | Float16x2 | Float16x4 | Float32 | Float32x2 | Float32x3 | Float32x4 |
    Uint32 | Uint32x2 | Uint32x3 | Uint32x4 | Sint32 | Sint32x2 | Sint32x3 | Sint32x4

  /** `naga::ShaderStage` (built with the `glsl` feature). */
  datatype ShaderStage =
    Vertex | Fragment | Compute

  /** `wgt::CompositeAlphaMode`. */
  datatype CompositeAlphaMode =
    Auto | Opaque | PreMultiplied | PostMultiplied | Inherit

  // ---------------------------------------------------------------- map_load_op

  /** The arms of `map_load_op`, in order. */
  const LoadOpArms: seq<LoadOp> := [
    LoadOp.Clear, LoadOp.Load
  ]

  /** `map_load_op`: the variant of a listed native constant; any other
      value panics with "Unknown load op: " and the value. */
  function MapLoadOp(value: int): (r: Panic<LoadOp>)
    ensures r.Returned? <==> 1 <= value <= |LoadOpArms|
    ensures r.Panicked? ==> r.message == "Unknown load op: " + Decimal(value)
  {
    NumberedLookup(LoadOpArms, value);
    MapEnumOrPanic(Numbered(LoadOpArms), "Unknown load op", value)
  }

  /** Every variant `map_load_op` can return has exactly one native constant. */
  lemma LoadOpBijection(v: LoadOp)
    ensures exists c :: MapLoadOp(c) == Returned(v) && forall c' :: MapLoadOp(c') == Returned(v) ==> c' == c
  {
    assert v in LoadOpArms && Distinct(LoadOpArms);
    NumberedBijection(LoadOpArms, v);
    var c := NativeOf(Numbered(LoadOpArms), v).value;
    assert MapLoadOp(c) == Returned(v);
    forall c' | MapLoadOp(c') == Returned(v) ensures c' == c {}
  }

  // ---------------------------------------------------------------- map_store_op

  /** The arms of `map_store_op`, in order. */
  const StoreOpArms: seq<StoreOp> := [
    StoreOp.Discard, StoreOp.Store
  ]

  /** `map_store_op`: the variant of a listed native constant; any other
      value panics with "Unknown store op: " and the value. */
  function MapStoreOp(value: int): (r: Panic<StoreOp>)
    ensures r.Returned? <==> 1 <= value <= |StoreOpArms|
    ensures r.Panicked? ==> r.message == "Unknown store op: " + Decimal(value)
  {
    NumberedLookup(StoreOpArms, value);
    MapEnumOrPanic(Numbered(StoreOpArms), "Unknown store op", value)
  }

  /** Every variant `map_store_op` can return has exactly one native constant. */
  lemma StoreOpBijection(v: StoreOp)
    ensures exists c :: MapStoreOp(c) == Returned(v) && forall c' :: MapStoreOp(c') == Returned(v) ==> c' == c
  {
    assert v in StoreOpArms && Distinct(StoreOpArms);
    NumberedBijection(StoreOpArms, v);
    var c := NativeOf(Numbered(StoreOpArms), v).value;
    assert MapStoreOp(c) == Returned(v);
    forall c' | MapStoreOp(c') == Returned(v) ensures c' == c {}
  }

  // ---------------------------------------------------------------- map_address_mode

  /** The arms of `map_address_mode`, in order. */
  const AddressModeArms: seq<AddressMode> := [
    AddressMode.ClampToEdge, AddressMode.Repeat, AddressMode.MirrorRepeat
  ]

  /** `map_address_mode`: the variant of a listed native constant; any other
      value panics with "Unknown address mode: " and the value. */
  function MapAddressMode(value: int): (r: Panic<AddressMode>)
    ensures r.Returned? <==> 1 <= value <= |AddressModeArms|
    ensures r.Panicked? ==> r.message == "Unknown address mode: " + Decimal(value)
  {
    NumberedLookup(AddressModeArms, value);
    MapEnumOrPanic(Numbered(AddressModeArms), "Unknown address mode", value)
  }

  /** Every variant `map_address_mode` can return has exactly one native constant. */
  lemma AddressModeBijection(v: AddressMode)
    ensures exists c :: MapAddressMode(c) == Returned(v) && forall c' :: MapAddressMode(c') == Returned(v) ==> c' == c
  {
    assert v in AddressModeArms && Distinct(AddressModeArms);
    NumberedBijection(AddressModeArms, v);
    var c := NativeOf(Numbered(AddressModeArms), v).value;
    assert MapAddressMode(c) == Returned(v);
    forall c' | MapAddressMode(c') == Returned(v) ensures c' == c {}
  }

  // ---------------------------------------------------------------- map_filter_mode

  /** The arms of `map_filter_mode`, in order. */
  const FilterModeArms: seq<FilterMode> := [
    FilterMode.Nearest, FilterMode.Linear
  ]

  /** `map_filter_mode`: the variant of a listed native constant; any other
      value panics with "Unknown filter mode: " and the value. */
  function MapFilterMode(value: int): (r: Panic<FilterMode>)
    ensures r.Returned? <==> 1 <= value <= |FilterModeArms|
    ensures r.Panicked? ==> r.message == "Unknown filter mode: " + Decimal(value)
  {
    NumberedLookup(FilterModeArms, value);
    MapEnumOrPanic(Numbered(FilterModeArms), "Unknown filter mode", value)
  }

  /** Every variant `map_filter_mode` can return has exactly one native constant. */
  lemma FilterModeBijection(v: FilterMode)
    ensures exists c :: MapFilterMode(c) == Returned(v) && forall c' :: MapFilterMode(c') == Returned(v) ==> c' == c
  {
    assert v in FilterModeArms && Distinct(FilterModeArms);
    NumberedBijection(FilterModeArms, v);
    var c := NativeOf(Numbered(FilterModeArms), v).value;
    assert MapFilterMode(c) == Returned(v);
    forall c' | MapFilterMode(c') == Returned(v) ensures c' == c {}
  }

  // ---------------------------------------------------------------- map_mipmap_filter_mode

  /** The arms of `map_mipmap_filter_mode`, in order. */
  const MipmapFilterModeArms: seq<FilterMode> := [
    FilterMode.Nearest, FilterMode.Linear
  ]

  /** `map_mipmap_filter_mode`: the variant of a listed native constant; any other
      value panics with "Unknown mipmap filter mode: " and the value. */
  function MapMipmapFilterMode(value: int): (r: Panic<FilterMode>)
    ensures r.Returned? <==> 1 <= value <= |MipmapFilterModeArms|
    ensures r.Panicked? ==> r.message == "Unknown mipmap filter mode: " + Decimal(value)
  {
    NumberedLookup(MipmapFilterModeArms, value);
    MapEnumOrPanic(Numbered(MipmapFilterModeArms), "Unknown mipmap filter mode", value)
  }

  /** Every variant `map_mipmap_filter_mode` can return has exactly one native constant. */
  lemma MipmapFilterModeBijection(v: FilterMode)
    ensures exists c :: MapMipmapFilterMode(c) == Returned(v) && forall c' :: MapMipmapFilterMode(c') == Returned(v) ==> c' == c
  {
    assert v in MipmapFilterModeArms && Distinct(MipmapFilterModeArms);
    NumberedBijection(MipmapFilterModeArms, v);
    var c := NativeOf(Numbered(MipmapFilterModeArms), v).value;
    assert MapMipmapFilterMode(c) == Returned(v);
    forall c' | MapMipmapFilterMode(c') == Returned(v) ensures c' == c {}
  }

  // ---------------------------------------------------------------- map_texture_aspect

  /** The arms of `map_texture_aspect`, in order. */
  const TextureAspectArms: seq<TextureAspect> := [
    TextureAspect.All, TextureAspect.StencilOnly, TextureAspect.DepthOnly
  ]

  /** `map_texture_aspect`: the variant of a listed native constant; any other
      value panics with "Unknown texture aspect: " and the value. */
  function MapTextureAspect(value: int): (r: Panic<TextureAspect>)
    ensures r.Returned? <==> 1 <= value <= |TextureAspectArms|
    ensures r.Panicked? ==> r.message == "Unknown texture aspect: " + Decimal(value)
  {
    NumberedLookup(TextureAspectArms, value);
    MapEnumOrPanic(Numbered(TextureAspectArms), "Unknown texture aspect", value)
  }

  /** Every variant `map_texture_aspect` can return has exactly one native constant. */
  lemma TextureAspectBijection(v: TextureAspect)
    ensures exists c :: MapTextureAspect(c) == Returned(v) && forall c' :: MapTextureAspect(c') == Returned(v) ==> c' == c
  {
    assert v in TextureAspectArms && Distinct(TextureAspectArms);
    NumberedBijection(TextureAspectArms, v);
    var c := NativeOf(Numbered(TextureAspectArms), v).value;
    assert MapTextureAspect(c) == Returned(v);
    forall c' | MapTextureAspect(c') == Returned(v) ensures c' == c {}
  }

  // ---------------------------------------------------------------- map_present_mode

  /** The arms of `map_present_mode`, in order. */
  const PresentModeArms: seq<PresentMode> := [
    PresentMode.Immediate, PresentMode.Mailbox, PresentMode.Fifo
  ]

  /** `map_present_mode`: the variant of a listed native constant; any other
      value panics with "Unknown present mode: " and the value. */
  function MapPresentMode(value: int): (r: Panic<PresentMode>)
    ensures r.Returned? <==> 1 <= value <= |PresentModeArms|
    ensures r.Panicked? ==> r.message == "Unknown present mode: " + Decimal(value)
  {
    NumberedLookup(PresentModeArms, value);
    MapEnumOrPanic(Numbered(PresentModeArms), "Unknown present mode", value)
  }

  /** Every variant `map_present_mode` can return has exactly one native constant. */
  lemma PresentModeBijection(v: PresentMode)
    requires v in PresentModeArms
    ensures exists c :: MapPresentMode(c) == Returned(v) && forall c' :: MapPresentMode(c') == Returned(v) ==> c' == c
  {
    assert Distinct(PresentModeArms);
    NumberedBijection(PresentModeArms, v);
    var c := NativeOf(Numbered(PresentModeArms), v).value;
    assert MapPresentMode(c) == Returned(v);
    forall c' | MapPresentMode(c') == Returned(v) ensures c' == c {}
  }

  // ---------------------------------------------------------------- map_primitive_topology

  /** The arms of `map_primitive_topology`, in order. */
  const PrimitiveTopologyArms: seq<PrimitiveTopology> := [
    PrimitiveTopology.PointList, PrimitiveTopology.LineList,
    PrimitiveTopology.LineStrip, PrimitiveTopology.TriangleList,
    PrimitiveTopology.TriangleStrip
  ]

  /** `map_primitive_topology`: the variant of a listed native constant; any other
      value panics with "Unknown primitive topology: " and the value. */
  function MapPrimitiveTopology(value: int): (r: Panic<PrimitiveTopology>)
    ensures r.Returned? <==> 1 <= value <= |PrimitiveTopologyArms|
    ensures r.Panicked? ==> r.message == "Unknown primitive topology: " + Decimal(value)
  {
    NumberedLookup(PrimitiveTopologyArms, value);
    MapEnumOrPanic(Numbered(PrimitiveTopologyArms), "Unknown primitive topology", value)
  }

  /** Every variant `map_primitive_topology` can return has exactly one native constant. */
  lemma PrimitiveTopologyBijection(v: PrimitiveTopology)
    ensures exists c :: MapPrimitiveTopology(c) == Returned(v) && forall c' :: MapPrimitiveTopology(c') == Returned(v) ==> c' == c
  {
    assert v in PrimitiveTopologyArms && Distinct(PrimitiveTopologyArms);
    NumberedBijection(PrimitiveTopologyArms, v);
    var c := NativeOf(Numbered(PrimitiveTopologyArms), v).value;
    assert MapPrimitiveTopology(c) == Returned(v);
    forall c' | MapPrimitiveTopology(c') == Returned(v) ensures c' == c {}
  }

  // ---------------------------------------------------------------- map_blend_factor

  /** The arms of `map_blend_factor`, in order. */
  const BlendFactorArms: seq<BlendFactor> := [
    BlendFactor.Zero, BlendFactor.One, BlendFactor.Src, BlendFactor.OneMinusSrc,
    BlendFactor.SrcAlpha, BlendFactor.OneMinusSrcAlpha, BlendFactor.Dst,
    BlendFactor.OneMinusDst, BlendFactor.DstAlpha, BlendFactor.OneMinusDstAlpha,
    BlendFactor.SrcAlphaSaturated, BlendFactor.Constant,
    BlendFactor.OneMinusConstant
  ]

  /** `map_blend_factor`: the variant of a listed native constant; any other
      value panics with "Unknown blend factor: " and the value. */
  function MapBlendFactor(value: int): (r: Panic<BlendFactor>)
    ensures r.Returned? <==> 1 <= value <= |BlendFactorArms|
    ensures r.Panicked? ==> r.message == "Unknown blend factor: " + Decimal(value)
  {
    NumberedLookup(BlendFactorArms, value);
    MapEnumOrPanic(Numbered(BlendFactorArms), "Unknown blend factor", value)
  }

  /** Every variant `map_blend_factor` can return has exactly one native constant. */
  lemma BlendFactorBijection(v: BlendFactor)
    ensures exists c :: MapBlendFactor(c) == Returned(v) && forall c' :: MapBlendFactor(c') == Returned(v) ==> c' == c
  {
    assert v in BlendFactorArms && Distinct(BlendFactorArms);
    NumberedBijection(BlendFactorArms, v);
    var c := NativeOf(Numbered(BlendFactorArms), v).value;
    assert MapBlendFactor(c) == Returned(v);
    forall c' | MapBlendFactor(c') == Returned(v) ensures c' == c {}
  }

  // ---------------------------------------------------------------- map_blend_operation

  /** The arms of `map_blend_operation`, in order. */
  const BlendOperationArms: seq<BlendOperation> := [
    BlendOperation.Add, BlendOperation.Subtract, BlendOperation.ReverseSubtract,
    BlendOperation.Min, BlendOperation.Max
  ]

  /** `map_blend_operation`: the variant of a listed native constant; any other
      value panics with "Unknown blend operation: " and the value. */
  function MapBlendOperation(value: int): (r: Panic<BlendOperation>)
    ensures r.Returned? <==> 1 <= value <= |BlendOperationArms|
    ensures r.Panicked? ==> r.message == "Unknown blend operation: " + Decimal(value)
  {
    NumberedLookup(BlendOperationArms, value);
    MapEnumOrPanic(Numbered(BlendOperationArms), "Unknown blend operation", value)
  }

  /** Every variant `map_blend_operation` can return has exactly one native constant. */
  lemma BlendOperationBijection(v: BlendOperation)
    ensures exists c :: MapBlendOperation(c) == Returned(v) && forall c' :: MapBlendOperation(c') == Returned(v) ==> c' == c
  {
    assert v in BlendOperationArms && Distinct(BlendOperationArms);
    NumberedBijection(BlendOperationArms, v);
    var c := NativeOf(Numbered(BlendOperationArms), v).value;
    assert MapBlendOperation(c) == Returned(v);
    forall c' | MapBlendOperation(c') == Returned(v) ensures c' == c {}
  }

  // ---------------------------------------------------------------- map_compare_function

  /** The arms of `map_compare_function`, in order. */
  const CompareFunctionArms: seq<CompareFunction> := [
    CompareFunction.Never, CompareFunction.Less, CompareFunction.Equal,
    CompareFunction.LessEqual, CompareFunction.Greater, CompareFunction.NotEqual,
    CompareFunction.GreaterEqual, CompareFunction.Always
  ]

  /** `map_compare_function`: the variant of a listed native constant; any other
      value comes back as the error. */
  function MapCompareFunction(value: int): (r: Result<CompareFunction, int>)
    ensures r.Err? <==> !(1 <= value <= |CompareFunctionArms|)
    ensures r.Err? ==> r.error == value
  {
    NumberedLookup(CompareFunctionArms, value);
    MapEnum(Numbered(CompareFunctionArms), value)
  }

  /** Every variant has exactly one native constant. */
  lemma CompareFunctionBijection(v: CompareFunction)
    ensures exists c :: MapCompareFunction(c) == Ok(v) && forall c' :: MapCompareFunction(c') == Ok(v) ==> c' == c
  {
    assert v in CompareFunctionArms && Distinct(CompareFunctionArms);
    NumberedBijection(CompareFunctionArms, v);
    var c := NativeOf(Numbered(CompareFunctionArms), v).value;
    assert MapCompareFunction(c) == Ok(v);
    forall c' | MapCompareFunction(c') == Ok(v) ensures c' == c {}
  }

  // ---------------------------------------------------------------- map_index_format

  /** The arms of `map_index_format`, in order. */
  const IndexFormatArms: seq<IndexFormat> := [
    IndexFormat.Uint16, IndexFormat.Uint32
  ]

  /** `map_index_format`: the variant of a listed native constant; any other
      value comes back as the error. */
  function MapIndexFormat(value: int): (r: Result<IndexFormat, int>)
    ensures r.Err? <==> !(1 <= value <= |IndexFormatArms|)
    ensures r.Err? ==> r.error == value
  {
    NumberedLookup(IndexFormatArms, value);
    MapEnum(Numbered(IndexFormatArms), value)
  }

  /** Every variant has exactly one native constant. */
  lemma IndexFormatBijection(v: IndexFormat)
    ensures exists c :: MapIndexFormat(c) == Ok(v) && forall c' :: MapIndexFormat(c') == Ok(v) ==> c' == c
  {
    assert v in IndexFormatArms && Distinct(IndexFormatArms);
    NumberedBijection(IndexFormatArms, v);
    var c := NativeOf(Numbered(IndexFormatArms), v).value;
    assert MapIndexFormat(c) == Ok(v);
    forall c' | MapIndexFormat(c') == Ok(v) ensures c' == c {}
  }

  // ---------------------------------------------------------------- map_stencil_operation

  /** The arms of `map_stencil_operation`, in order. */
  const StencilOperationArms: seq<StencilOperation> := [
    StencilOperation.Keep, StencilOperation.Zero, StencilOperation.Replace,
    StencilOperation.Invert, StencilOperation.IncrementClamp,
    StencilOperation.DecrementClamp, StencilOperation.IncrementWrap,
    StencilOperation.DecrementWrap
  ]

  /** `map_stencil_operation`: the variant of a listed native constant; any other
      value comes back as the error. */
  function MapStencilOperation(value: int): (r: Result<StencilOperation, int>)
    ensures r.Err? <==> !(1 <= value <= |StencilOperationArms|)
    ensures r.Err? ==> r.error == value
  {
    NumberedLookup(StencilOperationArms, value);
    MapEnum(Numbered(StencilOperationArms), value)
  }

  /** Every variant has exactly one native constant. */
  lemma StencilOperationBijection(v: StencilOperation)
    ensures exists c :: MapStencilOperation(c) == Ok(v) && forall c' :: MapStencilOperation(c') == Ok(v) ==> c' == c
  {
    assert v in StencilOperationArms && Distinct(StencilOperationArms);
    NumberedBijection(StencilOperationArms, v);
    var c := NativeOf(Numbered(StencilOperationArms), v).value;
    assert MapStencilOperation(c) == Ok(v);
    forall c' | MapStencilOperation(c') == Ok(v) ensures c' == c {}
  }

  // ---------------------------------------------------------------- map_vertex_format

  /** The arms of `map_vertex_format`, in order: the 8-bit, 16-bit and
      32-bit formats. */
  const VertexFormatArms: seq<VertexFormat> := VertexFormats8 + VertexFormats16 + VertexFormats32

  const VertexFormats8: seq<VertexFormat> := [
    VertexFormat.Uint8x2, VertexFormat.Uint8x4, VertexFormat.Sint8x2, VertexFormat.Sint8x4,
    VertexFormat.Unorm8x2, VertexFormat.Unorm8x4, VertexFormat.Snorm8x2, VertexFormat.Snorm8x4
  ]

  const VertexFormats16: seq<VertexFormat> := [
    VertexFormat.Uint16x2, VertexFormat.Uint16x4, VertexFormat.Sint16x2, VertexFormat.Sint16x4,
    VertexFormat.Unorm16x2, VertexFormat.Unorm16x4, VertexFormat.Snorm16x2, VertexFormat.Snorm16x4,
    VertexFormat.Float16x2, VertexFormat.Float16x4
  ]

  const VertexFormats32: seq<VertexFormat> := [
    VertexFormat.Float32, VertexFormat.Float32x2, VertexFormat.Float32x3, VertexFormat.Float32x4,
    VertexFormat.Uint32, VertexFormat.Uint32x2, VertexFormat.Uint32x3, VertexFormat.Uint32x4,
    VertexFormat.Sint32, VertexFormat.Sint32x2, VertexFormat.Sint32x3, VertexFormat.Sint32x4
  ]

  /** No vertex format is listed twice. */
  lemma VertexFormatArmsDistinct()
    ensures Distinct(VertexFormatArms)
  {
    assert Distinct(VertexFormats8) && Distinct(VertexFormats16) && Distinct(VertexFormats32);
    DistinctConcat(VertexFormats8, VertexFormats16);
    DistinctConcat(VertexFormats8 + VertexFormats16, VertexFormats32);
  }

  /** `map_vertex_format`: the variant of a listed native constant; any other
      value comes back as the error. */
  function MapVertexFormat(value: int): (r: Result<VertexFormat, int>)
    ensures r.Err? <==> !(1 <= value <= |VertexFormatArms|)
    ensures r.Err? ==> r.error == value
  {
    NumberedLookup(VertexFormatArms, value);
    MapEnum(Numbered(VertexFormatArms), value)
  }

  /** Every variant has exactly one native constant. */
  lemma VertexFormatBijection(v: VertexFormat)
    ensures exists c :: MapVertexFormat(c) == Ok(v) && forall c' :: MapVertexFormat(c') == Ok(v) ==> c' == c
  {
    assert v in VertexFormatArms;
    VertexFormatArmsDistinct();
    NumberedBijection(VertexFormatArms, v);
    var c := NativeOf(Numbered(VertexFormatArms), v).value;
    assert MapVertexFormat(c) == Ok(v);
    forall c' | MapVertexFormat(c') == Ok(v) ensures c' == c {}
  }

  // ---------------------------------------------------------------- map_shader_stage

  /** The arms of `map_shader_stage`, in order. */
  const ShaderStageArms: seq<ShaderStage> := [
    ShaderStage.Vertex, ShaderStage.Fragment, ShaderStage.Compute
  ]

  /** `map_shader_stage`: the variant of a listed native constant; any other
      value comes back as the error. */
  function MapShaderStage(value: int): (r: Result<ShaderStage, int>)
    ensures r.Err? <==> !(1 <= value <= |ShaderStageArms|)
    ensures r.Err? ==> r.error == value
  {
    NumberedLookup(ShaderStageArms, value);
    MapEnum(Numbered(ShaderStageArms), value)
  }

  /** Every variant has exactly one native constant. */
  lemma ShaderStageBijection(v: ShaderStage)
    ensures exists c :: MapShaderStage(c) == Ok(v) && forall c' :: MapShaderStage(c') == Ok(v) ==> c' == c
  {
    assert v in ShaderStageArms && Distinct(ShaderStageArms);
    NumberedBijection(ShaderStageArms, v);
    var c := NativeOf(Numbered(ShaderStageArms), v).value;
    assert MapShaderStage(c) == Ok(v);
    forall c' | MapShaderStage(c') == Ok(v) ensures c' == c {}
  }

  // ---------------------------------------------------------------- map_composite_alpha_mode

  /** The arms of `map_composite_alpha_mode`, in order. */
  const CompositeAlphaModeArms: seq<CompositeAlphaMode> := [
    CompositeAlphaMode.Auto, CompositeAlphaMode.Opaque,
    CompositeAlphaMode.PreMultiplied, CompositeAlphaMode.PostMultiplied,
    CompositeAlphaMode.Inherit
  ]

  /** `map_composite_alpha_mode`: the variant of a listed native constant; any other
      value comes back as the error. */
  function MapCompositeAlphaMode(value: int): (r: Result<CompositeAlphaMode, int>)
    ensures r.Err? <==> !(1 <= value <= |CompositeAlphaModeArms|)
    ensures r.Err? ==> r.error == value
  {
    NumberedLookup(CompositeAlphaModeArms, value);
    MapEnum(Numbered(CompositeAlphaModeArms), value)
  }

  /** Every variant has exactly one native constant. */
  lemma CompositeAlphaModeBijection(v: CompositeAlphaMode)
    ensures exists c :: MapCompositeAlphaMode(c) == Ok(v) && forall c' :: MapCompositeAlphaMode(c') == Ok(v) ==> c' == c
  {
    assert v in CompositeAlphaModeArms && Distinct(CompositeAlphaModeArms);
    NumberedBijection(CompositeAlphaModeArms, v);
    var c := NativeOf(Numbered(CompositeAlphaModeArms), v).value;
    assert MapCompositeAlphaMode(c) == Ok(v);
    forall c' | MapCompositeAlphaMode(c') == Ok(v) ensures c' == c {}
  }

  // ---------------------------------------------------------------- conversions back to native constants

  /** The native present-mode constants (their positions in `map_present_mode`). */
  const NativePresentModeImmediate := 1
  const NativePresentModeMailbox := 2
  const NativePresentModeFifo := 3

  /** `to_native_present_mode`: the native constant of the three modes the C
      header has, and nothing for the automatic and relaxed modes. */
  function ToNativePresentMode(mode: PresentMode): (r: Option<int>)
    ensures r.None? <==> mode.AutoVsync? || mode.AutoNoVsync? || mode.FifoRelaxed?
  {
    match mode
    case Fifo => Some(NativePresentModeFifo)
    case Immediate => Some(NativePresentModeImmediate)
    case Mailbox => Some(NativePresentModeMailbox)
    case AutoVsync | AutoNoVsync | FifoRelaxed => None
  }

  /** `map_present_mode` inverts `to_native_present_mode`: a mode that has a
      native constant comes back from it, and a native constant that maps to a
      mode is the one `to_native_present_mode` gives for that mode. */
  lemma PresentModeRoundTrip(mode: PresentMode, c: int)
    ensures ToNativePresentMode(mode).Some? ==> MapPresentMode(ToNativePresentMode(mode).value) == Returned(mode)
    ensures MapPresentMode(c) == Returned(mode) ==> ToNativePresentMode(mode) == Some(c)
  {
    NumberedLookup(PresentModeArms, c);
    if ToNativePresentMode(mode).Some? {
      NumberedLookup(PresentModeArms, ToNativePresentMode(mode).value);
    }
  }

  /** The native composite-alpha constants (their positions in
      `map_composite_alpha_mode`). */
  const NativeCompositeAlphaModeAuto := 1
  const NativeCompositeAlphaModeOpaque := 2
  const NativeCompositeAlphaModePreMultiplied := 3
  const NativeCompositeAlphaModePostMultiplied := 4
  const NativeCompositeAlphaModeInherit := 5

  /** `to_native_composite_alpha_mode`: every mode has a native constant. */
  function ToNativeCompositeAlphaMode(mode: CompositeAlphaMode): (r: int)
  {
    match mode
    case Auto => NativeCompositeAlphaModeAuto
    case Opaque => NativeCompositeAlphaModeOpaque
    case PreMultiplied => NativeCompositeAlphaModePreMultiplied
    case PostMultiplied => NativeCompositeAlphaModePostMultiplied
    case Inherit => NativeCompositeAlphaModeInherit
  }

  /** `map_composite_alpha_mode` inverts `to_native_composite_alpha_mode`
      with `Ok` on every mode, and a constant that maps to a mode is that
      mode's constant. */
  lemma CompositeAlphaModeRoundTrip(mode: CompositeAlphaMode, c: int)
    ensures MapCompositeAlphaMode(ToNativeCompositeAlphaMode(mode)) == Ok(mode)
    ensures MapCompositeAlphaMode(c) == Ok(mode) ==> ToNativeCompositeAlphaMode(mode) == c
  {
    NumberedLookup(CompositeAlphaModeArms, c);
    NumberedLookup(CompositeAlphaModeArms, ToNativeCompositeAlphaMode(mode));
  }
}

=== FILE: conv_features.dfy ===
/** `map_feature`, `map_features` and `features_to_native` of `src/conv.rs`:
    native feature names against the `wgt::Features` flags. */
module ConvFeatures {
  import opened Wrappers
  import opened Utils

  /** The `wgt::Features` flags the conversions name. A `wgt::Features` value
      is the set of its flags. */
  datatype Feature =
    | DepthClipControl | Depth32FloatStencil8 | TimestampQuery | PipelineStatisticsQuery
    | TextureCompressionBc | TextureCompressionEtc2 | TextureCompressionAstcLdr
    | IndirectFirstInstance | ShaderFloat16
    | PushConstants | TextureAdapterSpecificFormatFeatures
    | MultiDrawIndirect | MultiDrawIndirectCount | VertexWritableStorage

  /* `WGPUFeatureName_*` come from `webgpu.h`, which is not part of this model;
     the stand-ins follow that enumeration's order. */
  const FeatureNameDepthClipControl := 1
  const FeatureNameDepth32FloatStencil8 := 2
  const FeatureNameTimestampQuery := 3
  const FeatureNamePipelineStatisticsQuery := 4
  const FeatureNameTextureCompressionBc := 5
  const FeatureNameTextureCompressionEtc2 := 6
  const FeatureNameTextureCompressionAstc := 7
  const FeatureNameIndirectFirstInstance := 8
  const FeatureNameShaderF16 := 9
  const FeatureNameRg11b10UfloatRenderable := 10
  const FeatureNameBgra8UnormStorage := 11

  /* `WGPUNativeFeature_*` as `ffi/wgpu.h` defines them; the header defines
     no value for the two multi-draw features, so those two are stand-ins. */
  const NativeFeaturePushConstants := 0x0400_0000
  const NativeFeatureTextureAdapterSpecificFormatFeatures := 0x1000_0000
  const NativeFeatureMultiDrawIndirect := 0x2000_0000
  const NativeFeatureMultiDrawIndirectCount := 0x4000_0000
  const NativeFeatureVertexWritableStorage := 0x10_0000_0000

  /** The native name of each flag. */
  function NativeFeature(f: Feature): int {
    match f
    case DepthClipControl => FeatureNameDepthClipControl
    case Depth32FloatStencil8 => FeatureNameDepth32FloatStencil8
    case TimestampQuery => FeatureNameTimestampQuery
    case PipelineStatisticsQuery => FeatureNamePipelineStatisticsQuery
    case TextureCompressionBc => FeatureNameTextureCompressionBc
    case TextureCompressionEtc2 => FeatureNameTextureCompressionEtc2
    case TextureCompressionAstcLdr => FeatureNameTextureCompressionAstc
    case IndirectFirstInstance => FeatureNameIndirectFirstInstance
    case ShaderFloat16 => FeatureNameShaderF16
    case PushConstants => NativeFeaturePushConstants
    case TextureAdapterSpecificFormatFeatures => NativeFeatureTextureAdapterSpecificFormatFeatures
    case MultiDrawIndirect => NativeFeatureMultiDrawIndirect
    case MultiDrawIndirectCount => NativeFeatureMultiDrawIndirectCount
    case VertexWritableStorage => NativeFeatureVertexWritableStorage
  }

  /** Different flags have different native names. */
  lemma NativeFeatureInjective(f: Feature, g: Feature)
    ensures NativeFeature(f) == NativeFeature(g) ==> f == g
  {
  }

  /** The arms of `map_feature` that name a flag, in source order; the two
      arms for features wgpu-core lacks answer `None` like the fallback. */
  const FeatureArms: seq<(int, Feature)> := [
    (FeatureNameDepthClipControl, DepthClipControl),
    (FeatureNameDepth32FloatStencil8, Depth32FloatStencil8),
    (FeatureNameTimestampQuery, TimestampQuery),
    (FeatureNamePipelineStatisticsQuery, PipelineStatisticsQuery),
    (FeatureNameTextureCompressionBc, TextureCompressionBc),
    (FeatureNameTextureCompressionEtc2, TextureCompressionEtc2),
    (FeatureNameTextureCompressionAstc, TextureCompressionAstcLdr),
    (FeatureNameIndirectFirstInstance, IndirectFirstInstance),
    (FeatureNameShaderF16, ShaderFloat16),
    (NativeFeaturePushConstants, PushConstants),
    (NativeFeatureTextureAdapterSpecificFormatFeatures, TextureAdapterSpecificFormatFeatures),
    (NativeFeatureMultiDrawIndirect, MultiDrawIndirect),
    (NativeFeatureMultiDrawIndirectCount, MultiDrawIndirectCount),
    (NativeFeatureVertexWritableStorage, VertexWritableStorage)]

  /** `map_feature`: the flag a native feature name stands for, or `None`. */
  function MapFeature(c: int): Option<Feature> {
    match MapEnum(FeatureArms, c)
    case Ok(f) => Some(f)
    case Err(_) => None
  }

  /** Each arm of `map_feature` pairs a flag with its native name. */
  lemma FeatureArmsAgree()
    ensures forall j :: 0 <= j < |FeatureArms| ==> FeatureArms[j].0 == NativeFeature(FeatureArms[j].1)
  {
  }

  /** Every flag has an arm. */
  lemma FeatureArmsComplete(f: Feature)
    ensures (NativeFeature(f), f) in FeatureArms
  {
  }

  /** `map_feature` inverts the native name of every flag, and a name that
      maps to a flag is that flag's native name. */
  lemma MapFeatureInverts(f: Feature, c: int)
    ensures MapFeature(NativeFeature(f)) == Some(f)
    ensures MapFeature(c) == Some(f) ==> c == NativeFeature(f)
  {
    FeatureArmsAgree();
    FeatureArmsComplete(f);
    var r := MapFeature(NativeFeature(f));
    assert NativeFeature(f) in Constants(FeatureArms) by {
      var j :| 0 <= j < |FeatureArms| && FeatureArms[j] == (NativeFeature(f), f);
      assert Constants(FeatureArms)[j] == NativeFeature(f);
    }
    NativeFeatureInjective(f, r.value);
  }

  /** `map_feature` answers `None` exactly for the names no flag has. */
  lemma MapFeatureKnown(c: int)
    ensures MapFeature(c).None? <==> forall g :: NativeFeature(g) != c
  {
    forall g ensures MapFeature(NativeFeature(g)) == Some(g) {
      MapFeatureInverts(g, c);
    }
    if MapFeature(c).Some? {
      MapFeatureInverts(MapFeature(c).value, c);
    }
  }

  /** The features wgpu-core lacks map to nothing. */
  lemma UnavailableFeaturesIgnored()
    ensures MapFeature(FeatureNameRg11b10UfloatRenderable) == None
    ensures MapFeature(FeatureNameBgra8UnormStorage) == None
  {
    assert FeatureNameRg11b10UfloatRenderable !in Constants(FeatureArms);
    assert FeatureNameBgra8UnormStorage !in Constants(FeatureArms);
  }

  /** `map_features`: the union of the flags of the known names, in a pass
      over the list. */
  function MapFeatures(cs: seq<int>): (r: set<Feature>)
    ensures forall f :: f in r <==> exists i :: 0 <= i < |cs| && MapFeature(cs[i]) == Some(f)
  {
    CollectSome(cs, MapFeature)
  }

  /** A name that stands for no flag adds nothing. */
  lemma UnknownNamesIgnored(cs: seq<int>, c: int)
    requires MapFeature(c).None?
    ensures MapFeatures(cs + [c]) == MapFeatures(cs)
  {
    assert (cs + [c])[..|cs|] == cs;
  }

  /** The native names of `order` increase along it. */
  predicate Ascending(order: seq<Feature>) {
    forall i :: 0 < i < |order| ==> NativeFeature(order[i - 1]) < NativeFeature(order[i])
  }

  /** Emit the native name of every flag of `order` that `fs` holds, in the
      order of `order`: the run of `if features.contains(..)` tests. */
  function Emit(order: seq<Feature>, fs: set<Feature>): (r: seq<int>)
    ensures forall c :: c in r <==> exists i :: 0 <= i < |order| && order[i] in fs && c == NativeFeature(order[i])
    ensures Ascending(order) ==> forall i, j :: 0 <= i < j < |r| ==> r[i] < r[j]
    ensures Ascending(order) && |order| > 0 ==> forall i :: 0 <= i < |r| ==> NativeFeature(order[0]) <= r[i]
    decreases |order|
  {
    if |order| == 0 then []
    else
      var rest := Emit(order[1..], fs);
      assert forall i :: 1 <= i < |order| ==> order[i] == order[1..][i - 1];
      assert Ascending(order) ==> Ascending(order[1..]);
      if order[0] in fs then [NativeFeature(order[0])] + rest else rest
  }

  /** Native names listed in ascending order hold no repeats. */
  lemma AscendingDistinct(r: seq<int>)
    requires forall i, j :: 0 <= i < j < |r| ==> r[i] < r[j]
    ensures Distinct(r)
  {
  }

  /** The flags `features_to_native` tests, in source order. It never tests
      `ShaderFloat16`. */
  const FeaturesToNativeOrder: seq<Feature> := [
    DepthClipControl, Depth32FloatStencil8, TimestampQuery, PipelineStatisticsQuery,
    TextureCompressionBc, TextureCompressionEtc2, TextureCompressionAstcLdr, IndirectFirstInstance,
    PushConstants, TextureAdapterSpecificFormatFeatures, MultiDrawIndirect, MultiDrawIndirectCount,
    VertexWritableStorage]

  /** The flags `features_to_native` should test: every flag `map_feature`
      produces, `ShaderFloat16` in its native-name order. */
  const FeaturesToNativeFixedOrder: seq<Feature> := [
    DepthClipControl, Depth32FloatStencil8, TimestampQuery, PipelineStatisticsQuery,
    TextureCompressionBc, TextureCompressionEtc2, TextureCompressionAstcLdr, IndirectFirstInstance,
    ShaderFloat16,
    PushConstants, TextureAdapterSpecificFormatFeatures, MultiDrawIndirect, MultiDrawIndirectCount,
    VertexWritableStorage]

  /** Both lists test flags in ascending native-name order. */
  lemma OrdersAscending()
    ensures Ascending(FeaturesToNativeOrder)
    ensures Ascending(FeaturesToNativeFixedOrder)
  {
  }

  /** The as-written list tests every flag but `ShaderFloat16`; the fixed
      list tests every flag. */
  lemma OrdersCover(f: Feature)
    ensures f in FeaturesToNativeOrder <==> f != ShaderFloat16
    ensures f in FeaturesToNativeFixedOrder
  {
    match f
    case DepthClipControl =>
    case Depth32FloatStencil8 =>
    case TimestampQuery =>
    case PipelineStatisticsQuery =>
    case TextureCompressionBc =>
    case TextureCompressionEtc2 =>
    case TextureCompressionAstcLdr =>
    case IndirectFirstInstance =>
    case ShaderFloat16 =>
    case PushConstants =>
    case TextureAdapterSpecificFormatFeatures =>
    case MultiDrawIndirect =>
    case MultiDrawIndirectCount =>
    case VertexWritableStorage =>
  }

  /** `features_to_native` as written. */
  function FeaturesToNative(fs: set<Feature>): seq<int> {
    Emit(FeaturesToNativeOrder, fs)
  }

  /** `features_to_native` with `ShaderFloat16` emitted. */
  function FeaturesToNativeFixed(fs: set<Feature>): seq<int> {
    Emit(FeaturesToNativeFixedOrder, fs)
  }

  /** `features_to_native` as written emits, in ascending order and so once
      each, the native name of every held flag but `ShaderFloat16`, and
      nothing else. */
  lemma FeaturesToNativeContents(fs: set<Feature>)
    ensures var r := FeaturesToNative(fs);
      && (forall i, j :: 0 <= i < j < |r| ==> r[i] < r[j])
      && Distinct(r)
      && (forall f :: f in fs && f != ShaderFloat16 ==> NativeFeature(f) in r)
      && (forall c :: c in r ==> exists f :: f in fs && f != ShaderFloat16 && c == NativeFeature(f))
  {
    var r := FeaturesToNative(fs);
    OrdersAscending();
    AscendingDistinct(r);
    forall f | f in fs && f != ShaderFloat16 ensures NativeFeature(f) in r {
      OrdersCover(f);
      var i :| 0 <= i < |FeaturesToNativeOrder| && FeaturesToNativeOrder[i] == f;
    }
    forall c | c in r ensures exists f :: f in fs && f != ShaderFloat16 && c == NativeFeature(f) {
      var i :| 0 <= i < |FeaturesToNativeOrder| && FeaturesToNativeOrder[i] in fs && c == NativeFeature(FeaturesToNativeOrder[i]);
      OrdersCover(FeaturesToNativeOrder[i]);
    }
  }

  /** The fixed `features_to_native` emits, in ascending order and so once
      each, the native name of every held flag, and nothing else. */
  lemma FeaturesToNativeFixedContents(fs: set<Feature>)
    ensures var r := FeaturesToNativeFixed(fs);
      && (forall i, j :: 0 <= i < j < |r| ==> r[i] < r[j])
      && Distinct(r)
      && (forall f :: f in fs ==> NativeFeature(f) in r)
      && (forall c :: c in r ==> exists f :: f in fs && c == NativeFeature(f))
  {
    var r := FeaturesToNativeFixed(fs);
    OrdersAscending();
    AscendingDistinct(r);
    forall f | f in fs ensures NativeFeature(f) in r {
      OrdersCover(f);
      var i :| 0 <= i < |FeaturesToNativeFixedOrder| && FeaturesToNativeFixedOrder[i] == f;
    }
  }

  /** The flags read back from a list of native names are those named by
      the list: a name in the list whose flag is `f` puts `f` in, and a flag
      only gets in that way. */
  lemma ReadBack(cs: seq<int>, fs: set<Feature>)
    requires forall f :: f in fs ==> NativeFeature(f) in cs
    requires forall c :: c in cs ==> exists f :: f in fs && c == NativeFeature(f)
    ensures MapFeatures(cs) == fs
  {
    forall f | f in MapFeatures(cs) ensures f in fs {
      var i :| 0 <= i < |cs| && MapFeature(cs[i]) == Some(f);
      assert cs[i] in cs;
      var g :| g in fs && cs[i] == NativeFeature(g);
      MapFeatureInverts(g, cs[i]);
    }
    forall f | f in fs ensures f in MapFeatures(cs) {
      MapFeatureInverts(f, 0);
      var i :| 0 <= i < |cs| && cs[i] == NativeFeature(f);
    }
  }

  /** Reading back what `features_to_native` writes loses exactly
      `ShaderFloat16`. */
  lemma FeaturesRoundTripAsWritten(fs: set<Feature>)
    ensures MapFeatures(FeaturesToNative(fs)) == fs - {ShaderFloat16}
  {
    FeaturesToNativeContents(fs);
    ReadBack(FeaturesToNative(fs), fs - {ShaderFloat16});
  }

  /** Nothing is emitted when `fs` holds none of the checked flags. */
  lemma {:induction false} EmitNothing(order: seq<Feature>, fs: set<Feature>)
    requires forall i :: 0 <= i < |order| ==> order[i] !in fs
    ensures Emit(order, fs) == []
    decreases |order|
  {
    if |order| > 0 {
      EmitNothing(order[1..], fs);
    }
  }

  /** An adapter that supports only 16-bit shader floats reports no
      features at all. */
  lemma ShaderFloat16Dropped(fs: set<Feature>)
    requires fs == {ShaderFloat16}
    ensures FeaturesToNative(fs) == []
    ensures MapFeatures(FeaturesToNative(fs)) != fs
  {
    OrdersCover(ShaderFloat16);
    EmitNothing(FeaturesToNativeOrder, fs);
    assert ShaderFloat16 !in MapFeatures([]);
  }

  /** With `ShaderFloat16` emitted, every set of flags survives the trip
      through native names. */
  lemma FeaturesRoundTrip(fs: set<Feature>)
    ensures MapFeatures(FeaturesToNativeFixed(fs)) == fs
  {
    FeaturesToNativeFixedContents(fs);
    ReadBack(FeaturesToNativeFixed(fs), fs);
  }

  /** A list of native names comes back, through the flags, as exactly its
      known names. */
  lemma NamesRoundTrip(cs: seq<int>)
    ensures forall c :: c in FeaturesToNativeFixed(MapFeatures(cs)) <==> c in cs && MapFeature(c).Some?
  {
    var fs := MapFeatures(cs);
    FeaturesToNativeFixedContents(fs);
    forall c | c in FeaturesToNativeFixed(fs) ensures c in cs && MapFeature(c).Some? {
      var f :| f in fs && c == NativeFeature(f);
      NameBackSound(cs, f);
    }
    forall c | c in cs && MapFeature(c).Some? ensures c in FeaturesToNativeFixed(fs) {
      NameBackComplete(cs, c);
    }
  }

  /** A flag read back from a list has its native name in the list. */
  lemma NameBackSound(cs: seq<int>, f: Feature)
    requires f in MapFeatures(cs)
    ensures NativeFeature(f) in cs && MapFeature(NativeFeature(f)) == Some(f)
  {
    var i :| 0 <= i < |cs| && MapFeature(cs[i]) == Some(f);
    MapFeatureInverts(f, cs[i]);
  }

  /** A known name in a list reads back as the flag it names. */
  lemma NameBackComplete(cs: seq<int>, c: int)
    requires c in cs && MapFeature(c).Some?
    ensures MapFeature(c).value in MapFeatures(cs) && c == NativeFeature(MapFeature(c).value)
  {
    MapFeatureInverts(MapFeature(c).value, c);
    var i :| 0 <= i < |cs| && cs[i] == c;
  }
}

=== FILE: conv_limits.dfy ===
/** `map_required_limits` of `src/conv.rs`: the limits a C caller requests,
    laid over the defaults of `wgt::Limits`. */
module ConvLimits {
  import opened Wrappers
  import opened Ints

  /** `WGPU_LIMIT_U32_UNDEFINED` and `WGPU_LIMIT_U64_UNDEFINED`: "no request". */
  const LimitU32Undefined: u32 := 0xffff_ffff
  const LimitU64Undefined: u64 := 0xffff_ffff_ffff_ffff

  /** The native `WGPULimits`, every field the conversion names, the three the
      conversion leaves commented out included. */
  datatype NativeLimits = NativeLimits(
    maxTextureDimension1D: u32,
    maxTextureDimension2D: u32,
    maxTextureDimension3D: u32,
    maxTextureArrayLayers: u32,
    maxBindGroups: u32,
    maxBindingsPerBindGroup: u32,
    maxDynamicUniformBuffersPerPipelineLayout: u32,
    maxDynamicStorageBuffersPerPipelineLayout: u32,
    maxSampledTexturesPerShaderStage: u32,
    maxSamplersPerShaderStage: u32,
    maxStorageBuffersPerShaderStage: u32,
    maxStorageTexturesPerShaderStage: u32,
    maxUniformBuffersPerShaderStage: u32,
    maxUniformBufferBindingSize: u64,
    maxStorageBufferBindingSize: u64,
    minUniformBufferOffsetAlignment: u32,
    minStorageBufferOffsetAlignment: u32,
    maxVertexBuffers: u32,
    maxBufferSize: u64,
    maxVertexAttributes: u32,
    maxVertexBufferArrayStride: u32,
    maxInterStageShaderComponents: u32,
    maxInterStageShaderVariables: u32,
    maxColorAttachments: u32,
    maxComputeWorkgroupStorageSize: u32,
    maxComputeInvocationsPerWorkgroup: u32,
    maxComputeWorkgroupSizeX: u32,
    maxComputeWorkgroupSizeY: u32,
    maxComputeWorkgroupSizeZ: u32,
    maxComputeWorkgroupsPerDimension: u32)

  /** The native `WGPURequiredLimitsExtras`. */
  datatype LimitsExtras = LimitsExtras(maxPushConstantSize: u32)

  /** `wgt::Limits`, the fields the conversion writes. */
  datatype Limits = Limits(
    maxTextureDimension1d: u32,
    maxTextureDimension2d: u32,
    maxTextureDimension3d: u32,
    maxTextureArrayLayers: u32,
    maxBindGroups: u32,
    maxDynamicUniformBuffersPerPipelineLayout: u32,
    maxDynamicStorageBuffersPerPipelineLayout: u32,
    maxSampledTexturesPerShaderStage: u32,
    maxSamplersPerShaderStage: u32,
    maxStorageBuffersPerShaderStage: u32,
    maxStorageTexturesPerShaderStage: u32,
    maxUniformBuffersPerShaderStage: u32,
    maxUniformBufferBindingSize: u32,
    maxStorageBufferBindingSize: u32,
    minUniformBufferOffsetAlignment: u32,
    minStorageBufferOffsetAlignment: u32,
    maxVertexBuffers: u32,
    maxBufferSize: u64,
    maxVertexAttributes: u32,
    maxVertexBufferArrayStride: u32,
    maxInterStageShaderComponents: u32,
    maxComputeWorkgroupStorageSize: u32,
    maxComputeInvocationsPerWorkgroup: u32,
    maxComputeWorkgroupSizeX: u32,
    maxComputeWorkgroupSizeY: u32,
    maxComputeWorkgroupSizeZ: u32,
    maxComputeWorkgroupsPerDimension: u32,
    maxPushConstantSize: u32)

  /** A requested 32-bit limit overrides the default unless it is undefined. */
  function Request32(requested: u32, default: u32): u32 {
    if requested != LimitU32Undefined then requested else default
  }

  /** A requested 64-bit binding size overrides a 32-bit default unless it is
      undefined, cut to its low 32 bits by `as u32`. */
  function RequestTruncated(requested: u64, default: u32): u32 {
    if requested != LimitU64Undefined then TruncateU32(requested) else default
  }

  /** A requested 64-bit limit overrides the default unless it is undefined. */
  function Request64(requested: u64, default: u64): u64 {
    if requested != LimitU64Undefined then requested else default
  }

  /** `map_required_limits`: every limit starts from `defaults`
      (`wgt::Limits::default()`) and takes the requested value unless that is
      the undefined sentinel; the push-constant size comes only from the
      extras. */
  function MapRequiredLimits(n: NativeLimits, extras: Option<LimitsExtras>, defaults: Limits): (l: Limits)
  {
    Limits(
      maxTextureDimension1d := Request32(n.maxTextureDimension1D, defaults.maxTextureDimension1d),
      maxTextureDimension2d := Request32(n.maxTextureDimension2D, defaults.maxTextureDimension2d),
      maxTextureDimension3d := Request32(n.maxTextureDimension3D, defaults.maxTextureDimension3d),
      maxTextureArrayLayers := Request32(n.maxTextureArrayLayers, defaults.maxTextureArrayLayers),
      maxBindGroups := Request32(n.maxBindGroups, defaults.maxBindGroups),
      maxDynamicUniformBuffersPerPipelineLayout :=
        Request32(n.maxDynamicUniformBuffersPerPipelineLayout, defaults.maxDynamicUniformBuffersPerPipelineLayout),
      maxDynamicStorageBuffersPerPipelineLayout :=
        Request32(n.maxDynamicStorageBuffersPerPipelineLayout, defaults.maxDynamicStorageBuffersPerPipelineLayout),
      maxSampledTexturesPerShaderStage :=
        Request32(n.maxSampledTexturesPerShaderStage, defaults.maxSampledTexturesPerShaderStage),
      maxSamplersPerShaderStage := Request32(n.maxSamplersPerShaderStage, defaults.maxSamplersPerShaderStage),
      maxStorageBuffersPerShaderStage :=
        Request32(n.maxStorageBuffersPerShaderStage, defaults.maxStorageBuffersPerShaderStage),
      maxStorageTexturesPerShaderStage :=
        Request32(n.maxStorageTexturesPerShaderStage, defaults.maxStorageTexturesPerShaderStage),
      maxUniformBuffersPerShaderStage :=
        Request32(n.maxUniformBuffersPerShaderStage, defaults.maxUniformBuffersPerShaderStage),
      maxUniformBufferBindingSize := RequestTruncated(n.maxUniformBufferBindingSize, defaults.maxUniformBufferBindingSize),
      maxStorageBufferBindingSize := RequestTruncated(n.maxStorageBufferBindingSize, defaults.maxStorageBufferBindingSize),
      minUniformBufferOffsetAlignment :=
        Request32(n.minUniformBufferOffsetAlignment, defaults.minUniformBufferOffsetAlignment),
      minStorageBufferOffsetAlignment :=
        Request32(n.minStorageBufferOffsetAlignment, defaults.minStorageBufferOffsetAlignment),
      maxVertexBuffers := Request32(n.maxVertexBuffers, defaults.maxVertexBuffers),
      maxBufferSize := Request64(n.maxBufferSize, defaults.maxBufferSize),
      maxVertexAttributes := Request32(n.maxVertexAttributes, defaults.maxVertexAttributes),
      maxVertexBufferArrayStride := Request32(n.maxVertexBufferArrayStride, defaults.maxVertexBufferArrayStride),
      maxInterStageShaderComponents :=
        Request32(n.maxInterStageShaderComponents, defaults.maxInterStageShaderComponents),
      maxComputeWorkgroupStorageSize :=
        Request32(n.maxComputeWorkgroupStorageSize, defaults.maxComputeWorkgroupStorageSize),
      maxComputeInvocationsPerWorkgroup :=
        Request32(n.maxComputeInvocationsPerWorkgroup, defaults.maxComputeInvocationsPerWorkgroup),
      maxComputeWorkgroupSizeX := Request32(n.maxComputeWorkgroupSizeX, defaults.maxComputeWorkgroupSizeX),
      maxComputeWorkgroupSizeY := Request32(n.maxComputeWorkgroupSizeY, defaults.maxComputeWorkgroupSizeY),
      maxComputeWorkgroupSizeZ := Request32(n.maxComputeWorkgroupSizeZ, defaults.maxComputeWorkgroupSizeZ),
      maxComputeWorkgroupsPerDimension :=
        Request32(n.maxComputeWorkgroupsPerDimension, defaults.maxComputeWorkgroupsPerDimension),
      maxPushConstantSize :=
        if extras.Some? then Request32(extras.value.maxPushConstantSize, defaults.maxPushConstantSize)
        else defaults.maxPushConstantSize)
  }

  /** Native limits that request nothing. */
  const AllUndefined := NativeLimits(
    LimitU32Undefined, LimitU32Undefined, LimitU32Undefined, LimitU32Undefined, LimitU32Undefined,
    LimitU32Undefined, LimitU32Undefined, LimitU32Undefined, LimitU32Undefined, LimitU32Undefined,
    LimitU32Undefined, LimitU32Undefined, LimitU32Undefined, LimitU64Undefined, LimitU64Undefined,
    LimitU32Undefined, LimitU32Undefined, LimitU32Undefined, LimitU64Undefined, LimitU32Undefined,
    LimitU32Undefined, LimitU32Undefined, LimitU32Undefined, LimitU32Undefined, LimitU32Undefined,
    LimitU32Undefined, LimitU32Undefined, LimitU32Undefined, LimitU32Undefined, LimitU32Undefined)

  /** Requesting nothing gives the defaults, with or without undefined extras. */
  lemma NothingRequestedGivesDefaults(defaults: Limits, extras: Option<LimitsExtras>)
    requires extras.Some? ==> extras.value.maxPushConstantSize == LimitU32Undefined
    ensures MapRequiredLimits(AllUndefined, extras, defaults) == defaults
  {
  }

  /** Requested limits that differ only in the fields the conversion leaves
      commented out (bindings per bind group, inter-stage variables, colour
      attachments) give the same limits. */
  lemma CommentedOutFieldsIgnored(a: NativeLimits, b: NativeLimits, extras: Option<LimitsExtras>, defaults: Limits)
    requires a.(maxBindingsPerBindGroup := 0, maxInterStageShaderVariables := 0, maxColorAttachments := 0)
          == b.(maxBindingsPerBindGroup := 0, maxInterStageShaderVariables := 0, maxColorAttachments := 0)
    ensures MapRequiredLimits(a, extras, defaults) == MapRequiredLimits(b, extras, defaults)
  {
  }

  /** The push-constant size is the default unless defined extras request
      one, and then it is the requested size. */
  lemma PushConstantsOnlyFromExtras(n: NativeLimits, extras: Option<LimitsExtras>, defaults: Limits)
    ensures var l := MapRequiredLimits(n, extras, defaults);
      && (extras.None? ==> l.maxPushConstantSize == defaults.maxPushConstantSize)
      && (extras.Some? && extras.value.maxPushConstantSize != LimitU32Undefined ==>
            l.maxPushConstantSize == extras.value.maxPushConstantSize)
      && (extras.Some? && extras.value.maxPushConstantSize == LimitU32Undefined ==>
            l.maxPushConstantSize == defaults.maxPushConstantSize)
  {
  }

  /** The two binding sizes are the requested sizes modulo 2^32, exact when
      below 2^32, while the buffer size is copied whole. */
  lemma BindingSizesTruncated(n: NativeLimits, extras: Option<LimitsExtras>, defaults: Limits)
    ensures var l := MapRequiredLimits(n, extras, defaults);
      && (n.maxUniformBufferBindingSize != LimitU64Undefined ==>
            l.maxUniformBufferBindingSize as int == n.maxUniformBufferBindingSize as int % U32_LIMIT)
      && (n.maxStorageBufferBindingSize != LimitU64Undefined ==>
            l.maxStorageBufferBindingSize as int == n.maxStorageBufferBindingSize as int % U32_LIMIT)
      && (n.maxBufferSize != LimitU64Undefined ==> l.maxBufferSize == n.maxBufferSize)
  {
  }

  /** A 32-bit limit `got` follows its request: the requested value when it is
      defined, the default when it is the undefined sentinel. */
  predicate Takes32(requested: u32, default: u32, got: u32) {
    && (requested != LimitU32Undefined ==> got == requested)
    && (requested == LimitU32Undefined ==> got == default)
  }

  /** Field by field: every 32-bit limit takes its own requested value when
      that is defined and keeps its own default otherwise, whatever the other
      fields request; the 64-bit sizes do the same against their sentinel. */
  lemma EachFieldFollowsItsRequest(n: NativeLimits, extras: Option<LimitsExtras>, defaults: Limits)
    ensures var l := MapRequiredLimits(n, extras, defaults);
      && Takes32(n.maxTextureDimension1D, defaults.maxTextureDimension1d, l.maxTextureDimension1d)
      && Takes32(n.maxTextureDimension2D, defaults.maxTextureDimension2d, l.maxTextureDimension2d)
      && Takes32(n.maxTextureDimension3D, defaults.maxTextureDimension3d, l.maxTextureDimension3d)
      && Takes32(n.maxTextureArrayLayers, defaults.maxTextureArrayLayers, l.maxTextureArrayLayers)
      && Takes32(n.maxBindGroups, defaults.maxBindGroups, l.maxBindGroups)
      && Takes32(n.maxDynamicUniformBuffersPerPipelineLayout, defaults.maxDynamicUniformBuffersPerPipelineLayout, l.maxDynamicUniformBuffersPerPipelineLayout)
      && Takes32(n.maxDynamicStorageBuffersPerPipelineLayout, defaults.maxDynamicStorageBuffersPerPipelineLayout, l.maxDynamicStorageBuffersPerPipelineLayout)
      && Takes32(n.maxSampledTexturesPerShaderStage, defaults.maxSampledTexturesPerShaderStage, l.maxSampledTexturesPerShaderStage)
      && Takes32(n.maxSamplersPerShaderStage, defaults.maxSamplersPerShaderStage, l.maxSamplersPerShaderStage)
      && Takes32(n.maxStorageBuffersPerShaderStage, defaults.maxStorageBuffersPerShaderStage, l.maxStorageBuffersPerShaderStage)
      && Takes32(n.maxStorageTexturesPerShaderStage, defaults.maxStorageTexturesPerShaderStage, l.maxStorageTexturesPerShaderStage)
      && Takes32(n.maxUniformBuffersPerShaderStage, defaults.maxUniformBuffersPerShaderStage, l.maxUniformBuffersPerShaderStage)
      && Takes32(n.minUniformBufferOffsetAlignment, defaults.minUniformBufferOffsetAlignment, l.minUniformBufferOffsetAlignment)
      && Takes32(n.minStorageBufferOffsetAlignment, defaults.minStorageBufferOffsetAlignment, l.minStorageBufferOffsetAlignment)
      && Takes32(n.maxVertexBuffers, defaults.maxVertexBuffers, l.maxVertexBuffers)
      && Takes32(n.maxVertexAttributes, defaults.maxVertexAttributes, l.maxVertexAttributes)
      && Takes32(n.maxVertexBufferArrayStride, defaults.maxVertexBufferArrayStride, l.maxVertexBufferArrayStride)
      && Takes32(n.maxInterStageShaderComponents, defaults.maxInterStageShaderComponents, l.maxInterStageShaderComponents)
      && Takes32(n.maxComputeWorkgroupStorageSize, defaults.maxComputeWorkgroupStorageSize, l.maxComputeWorkgroupStorageSize)
      && Takes32(n.maxComputeInvocationsPerWorkgroup, defaults.maxComputeInvocationsPerWorkgroup, l.maxComputeInvocationsPerWorkgroup)
      && Takes32(n.maxComputeWorkgroupSizeX, defaults.maxComputeWorkgroupSizeX, l.maxComputeWorkgroupSizeX)
      && Takes32(n.maxComputeWorkgroupSizeY, defaults.maxComputeWorkgroupSizeY, l.maxComputeWorkgroupSizeY)
      && Takes32(n.maxComputeWorkgroupSizeZ, defaults.maxComputeWorkgroupSizeZ, l.maxComputeWorkgroupSizeZ)
      && Takes32(n.maxComputeWorkgroupsPerDimension, defaults.maxComputeWorkgroupsPerDimension, l.maxComputeWorkgroupsPerDimension)
      && (n.maxUniformBufferBindingSize == LimitU64Undefined ==>
            l.maxUniformBufferBindingSize == defaults.maxUniformBufferBindingSize)
      && (n.maxStorageBufferBindingSize == LimitU64Undefined ==>
            l.maxStorageBufferBindingSize == defaults.maxStorageBufferBindingSize)
      && (n.maxBufferSize == LimitU64Undefined ==> l.maxBufferSize == defaults.maxBufferSize)
  {
  }

  /** Every limit the conversion reads is requested, push constants included. */
  predicate EverythingRequested(n: NativeLimits, extras: Option<LimitsExtras>) {
    n.maxTextureDimension1D != LimitU32Undefined &&
    n.maxTextureDimension2D != LimitU32Undefined &&
    n.maxTextureDimension3D != LimitU32Undefined &&
    n.maxTextureArrayLayers != LimitU32Undefined &&
    n.maxBindGroups != LimitU32Undefined &&
    n.maxDynamicUniformBuffersPerPipelineLayout != LimitU32Undefined &&
    n.maxDynamicStorageBuffersPerPipelineLayout != LimitU32Undefined &&
    n.maxSampledTexturesPerShaderStage != LimitU32Undefined &&
    n.maxSamplersPerShaderStage != LimitU32Undefined &&
    n.maxStorageBuffersPerShaderStage != LimitU32Undefined &&
    n.maxStorageTexturesPerShaderStage != LimitU32Undefined &&
    n.maxUniformBuffersPerShaderStage != LimitU32Undefined &&
    n.minUniformBufferOffsetAlignment != LimitU32Undefined &&
    n.minStorageBufferOffsetAlignment != LimitU32Undefined &&
    n.maxVertexBuffers != LimitU32Undefined &&
    n.maxVertexAttributes != LimitU32Undefined &&
    n.maxVertexBufferArrayStride != LimitU32Undefined &&
    n.maxInterStageShaderComponents != LimitU32Undefined &&
    n.maxComputeWorkgroupStorageSize != LimitU32Undefined &&
    n.maxComputeInvocationsPerWorkgroup != LimitU32Undefined &&
    n.maxComputeWorkgroupSizeX != LimitU32Undefined &&
    n.maxComputeWorkgroupSizeY != LimitU32Undefined &&
    n.maxComputeWorkgroupSizeZ != LimitU32Undefined &&
    n.maxComputeWorkgroupsPerDimension != LimitU32Undefined &&
    n.maxUniformBufferBindingSize != LimitU64Undefined &&
    n.maxStorageBufferBindingSize != LimitU64Undefined &&
    n.maxBufferSize != LimitU64Undefined &&
    extras.Some? && extras.value.maxPushConstantSize != LimitU32Undefined
  }

  /** Requesting everything gives the request itself, field by field with the
      binding sizes cut to 32 bits, and the defaults play no part. */
  lemma EverythingRequestedIgnoresDefaults(n: NativeLimits, extras: Option<LimitsExtras>, defaults: Limits)
    requires EverythingRequested(n, extras)
    ensures MapRequiredLimits(n, extras, defaults) ==
      Limits(
        n.maxTextureDimension1D,
        n.maxTextureDimension2D,
        n.maxTextureDimension3D,
        n.maxTextureArrayLayers,
        n.maxBindGroups,
        n.maxDynamicUniformBuffersPerPipelineLayout,
        n.maxDynamicStorageBuffersPerPipelineLayout,
        n.maxSampledTexturesPerShaderStage,
        n.maxSamplersPerShaderStage,
        n.maxStorageBuffersPerShaderStage,
        n.maxStorageTexturesPerShaderStage,
        n.maxUniformBuffersPerShaderStage,
        TruncateU32(n.maxUniformBufferBindingSize),
        TruncateU32(n.maxStorageBufferBindingSize),
        n.minUniformBufferOffsetAlignment,
        n.minStorageBufferOffsetAlignment,
        n.maxVertexBuffers,
        n.maxBufferSize,
        n.maxVertexAttributes,
        n.maxVertexBufferArrayStride,
        n.maxInterStageShaderComponents,
        n.maxComputeWorkgroupStorageSize,
        n.maxComputeInvocationsPerWorkgroup,
        n.maxComputeWorkgroupSizeX,
        n.maxComputeWorkgroupSizeY,
        n.maxComputeWorkgroupSizeZ,
        n.maxComputeWorkgroupsPerDimension,
        extras.value.maxPushConstantSize)
  {
  }
}

=== FILE: conv_reports.dfy ===
/** `map_storage_report` of `src/conv.rs`: wgpu-core's per-storage
    counters copied into the native `WGPUStorageReport`. */
module ConvReports {
  import opened Ints

  /** `wgc::hub::StorageReport`; every counter is a `usize`, taken as 64 bits. */
  datatype StorageReport = StorageReport(numOccupied: u64, numVacant: u64, numError: u64, elementSize: u64)

  /** The native `WGPUStorageReport`, of `size_t` fields. */
  datatype NativeStorageReport = NativeStorageReport(numOccupied: u64, numVacant: u64, numError: u64, elementSize: u64)

  /** `map_storage_report` as written: `numVacant` receives `num_error`. */
  function MapStorageReportAsWritten(report: StorageReport): (n: NativeStorageReport)
    ensures n.numOccupied == report.numOccupied && n.numError == report.numError
    ensures n.elementSize == report.elementSize
    ensures n.numVacant == report.numVacant <==> report.numVacant == report.numError
  {
    NativeStorageReport(report.numOccupied, report.numError, report.numError, report.elementSize)
  }

  /** `map_storage_report` copying each counter to the field of its name. */
  function MapStorageReport(report: StorageReport): NativeStorageReport {
    NativeStorageReport(report.numOccupied, report.numVacant, report.numError, report.elementSize)
  }

  /** Reading a native report back into wgpu-core's terms. */
  function StorageReportFromNative(n: NativeStorageReport): StorageReport {
    StorageReport(n.numOccupied, n.numVacant, n.numError, n.elementSize)
  }

  /** The corrected mapping loses nothing: it and the read-back invert each
      other. */
  lemma StorageReportRoundTrip(report: StorageReport, n: NativeStorageReport)
    ensures StorageReportFromNative(MapStorageReport(report)) == report
    ensures MapStorageReport(StorageReportFromNative(n)) == n
  {
  }

  /** The mapping as written agrees with the corrected one exactly when
      the vacant and error counts happen to be equal. */
  lemma AsWrittenAgreesOnlyWhenVacantIsError(report: StorageReport)
    ensures MapStorageReportAsWritten(report) == MapStorageReport(report) <==> report.numVacant == report.numError
  {
  }

  /** A storage with two vacant slots and no errors reports no vacant slots. */
  lemma VacantSlotsLost(report: StorageReport)
    requires report == StorageReport(5, 2, 0, 64)
    ensures MapStorageReportAsWritten(report).numVacant == 0
    ensures StorageReportFromNative(MapStorageReportAsWritten(report)) != report
  {
  }
}

=== FILE: conv_texture.dfy ===
/** Texture conversions of `src/conv.rs`: texture formats in both
    directions, view and texture dimensions, and the copy layout. The C header
    defining the native constants is not part of this model: each native
    texture-format constant stands for its position in the arm list of
    `map_texture_format`, counted from 1, and likewise for the dimensions. */
module ConvTexture {
  import opened Wrappers
  import opened Ints
  import opened Utils

  /** `wgt::AstcBlock`: the block footprint of an ASTC format. */
  datatype AstcBlock =
    B4x4 | B5x4 | B5x5 | B6x5 | B6x6 | B8x5 | B8x6 | B8x8 | B10x5 | B10x6 | B10x8 | B10x10 |
    B12x10 | B12x12

  /** `wgt::AstcChannel`: how ASTC texels are read. */
  datatype AstcChannel = Unorm | UnormSrgb | Hdr

  /** `wgt::TextureFormat`, every variant `to_native_texture_format` matches. */
  datatype TextureFormat =
    R16Unorm | R16Snorm | Rg16Unorm | Rg16Snorm | Rgba16Unorm | Rgba16Snorm | R8Unorm |
    R8Snorm | R8Uint | R8Sint | R16Uint | R16Sint | R16Float | Rg8Unorm | Rg8Snorm |
    Rg8Uint | Rg8Sint | R32Float | R32Uint | R32Sint | Rg16Uint | Rg16Sint | Rg16Float |
    Rgba8Unorm | Rgba8UnormSrgb | Rgba8Snorm | Rgba8Uint | Rgba8Sint | Bgra8Unorm |
    Bgra8UnormSrgb | Rgb10a2Unorm | Rg11b10Float | Rgb9e5Ufloat | Rg32Float | Rg32Uint |
    Rg32Sint | Rgba16Uint | Rgba16Sint | Rgba16Float | Rgba32Float | Rgba32Uint |
    Rgba32Sint | Stencil8 | Depth16Unorm | Depth24Plus | Depth24PlusStencil8 |
    Depth32Float | Depth32FloatStencil8 | Bc1RgbaUnorm | Bc1RgbaUnormSrgb | Bc2RgbaUnorm |
    Bc2RgbaUnormSrgb | Bc3RgbaUnorm | Bc3RgbaUnormSrgb | Bc4RUnorm | Bc4RSnorm |
    Bc5RgUnorm | Bc5RgSnorm | Bc6hRgbUfloat | Bc6hRgbSfloat | Bc7RgbaUnorm |
    Bc7RgbaUnormSrgb | Etc2Rgb8Unorm | Etc2Rgb8UnormSrgb | Etc2Rgb8A1Unorm |
    Etc2Rgb8A1UnormSrgb | Etc2Rgba8Unorm | Etc2Rgba8UnormSrgb | EacR11Unorm | EacR11Snorm |
    EacRg11Unorm | EacRg11Snorm | Astc(block: AstcBlock, channel: AstcChannel)

  /** The formats the C header has no constant for: the 16-bit normalized
      formats and the HDR ASTC formats. */
  predicate Unsupported(f: TextureFormat) {
    || f.R16Unorm? || f.R16Snorm? || f.Rg16Unorm? || f.Rg16Snorm? || f.Rgba16Unorm? || f.Rgba16Snorm?
    || (f.Astc? && f.channel.Hdr?)
  }

  /** The number of native texture-format constants `map_texture_format` lists. */
  const NativeTextureFormatCount := 94

  // ---------------------------------------------------------------- dimensions

  /** `wgt::TextureViewDimension`. */
  datatype TextureViewDimension = D1 | D2 | D2Array | Cube | CubeArray | D3

  /** The arms of `map_texture_view_dimension`, in order. */
  const ViewDimensionArms: seq<TextureViewDimension> := [D1, D2, D2Array, Cube, CubeArray, D3]

  /** `map_texture_view_dimension`: the dimension of a listed native
      constant, nothing for any other value (the native "undefined" included). */
  function MapTextureViewDimension(value: int): (r: Option<TextureViewDimension>)
    ensures r.Some? <==> 1 <= value <= |ViewDimensionArms|
  {
    NumberedLookup(ViewDimensionArms, value);
    match MapEnum(Numbered(ViewDimensionArms), value)
    case Ok(d) => Some(d)
    case Err(_) => None
  }

  /** Every view dimension has exactly one native constant. */
  lemma TextureViewDimensionBijection(d: TextureViewDimension)
    ensures exists c :: MapTextureViewDimension(c) == Some(d) &&
                        forall c' :: MapTextureViewDimension(c') == Some(d) ==> c' == c
  {
    assert d in ViewDimensionArms && Distinct(ViewDimensionArms);
    NumberedBijection(ViewDimensionArms, d);
    var c := NativeOf(Numbered(ViewDimensionArms), d).value;
    assert MapTextureViewDimension(c) == Some(d);
    forall c' | MapTextureViewDimension(c') == Some(d) ensures c' == c {
      NumberedLookup(ViewDimensionArms, c');
    }
  }

  /** `wgt::TextureDimension`. */
  datatype TextureDimension = Tex1D | Tex2D | Tex3D

  /** The arms of `map_texture_dimension`, in order. */
  const DimensionArms: seq<TextureDimension> := [Tex1D, Tex2D, Tex3D]

  /** `map_texture_dimension`: the dimension of a listed native constant;
      any other value panics with "Unknown texture dimension: " and the value. */
  function MapTextureDimension(value: int): (r: Panic<TextureDimension>)
    ensures r.Returned? <==> 1 <= value <= |DimensionArms|
    ensures r.Panicked? ==> r.message == "Unknown texture dimension: " + Decimal(value)
  {
    NumberedLookup(DimensionArms, value);
    match MapEnum(Numbered(DimensionArms), value)
    case Ok(d) => Returned(d)
    case Err(x) => Panicked("Unknown texture dimension: " + Decimal(x))
  }

  /** Every texture dimension has exactly one native constant. */
  lemma TextureDimensionBijection(d: TextureDimension)
    ensures exists c :: MapTextureDimension(c) == Returned(d) &&
                        forall c' :: MapTextureDimension(c') == Returned(d) ==> c' == c
  {
    assert d in DimensionArms && Distinct(DimensionArms);
    NumberedBijection(DimensionArms, d);
    var c := NativeOf(Numbered(DimensionArms), d).value;
    assert MapTextureDimension(c) == Returned(d);
    forall c' | MapTextureDimension(c') == Returned(d) ensures c' == c {
      NumberedLookup(DimensionArms, c');
    }
  }

  // ---------------------------------------------------------------- copy layout

  /** `WGPU_COPY_STRIDE_UNDEFINED`: a stride left to be derived. */
  const CopyStrideUndefined: u32 := 0xffff_ffff

  /** The native `WGPUTextureDataLayout`. */
  datatype TextureDataLayout = TextureDataLayout(offset: u64, bytesPerRow: u32, rowsPerImage: u32)

  /** `wgt::ImageDataLayout`; a present stride is a `NonZeroU32`. */
  datatype ImageDataLayout = ImageDataLayout(offset: u64, bytesPerRow: Option<u32>, rowsPerImage: Option<u32>)

  /** One stride of `map_texture_data_layout`: `0` panics with `message`, the
      undefined sentinel means no stride, any other value is the stride. */
  function MapStride(value: u32, message: string): (r: Panic<Option<u32>>)
    ensures r.Panicked? <==> value == 0
    ensures r.Panicked? ==> r.message == message
    ensures r == Returned(None) <==> value == CopyStrideUndefined
    ensures r.Returned? && r.value.Some? ==> r.value.value == value
  {
    if value == 0 then Panicked(message)
    else if value == CopyStrideUndefined then Returned(None)
    else Returned(Some(value))
  }

  /** `map_texture_data_layout`: the offset unchanged and both strides mapped,
      `bytesPerRow` first, so that its panic is the one raised when both are 0. */
  function MapTextureDataLayout(layout: TextureDataLayout): (r: Panic<ImageDataLayout>)
    ensures r.Panicked? <==> layout.bytesPerRow == 0 || layout.rowsPerImage == 0
    ensures layout.bytesPerRow == 0 ==> r == Panicked("invalid bytesPerRow")
    ensures layout.bytesPerRow != 0 && layout.rowsPerImage == 0 ==> r == Panicked("invalid rowsPerImage")
    ensures r.Returned? ==>
      && r.value.offset == layout.offset
      && Returned(r.value.bytesPerRow) == MapStride(layout.bytesPerRow, "invalid bytesPerRow")
      && Returned(r.value.rowsPerImage) == MapStride(layout.rowsPerImage, "invalid rowsPerImage")
  {
    match MapStride(layout.bytesPerRow, "invalid bytesPerRow")
    case Panicked(m) => Panicked(m)
    case Returned(bytesPerRow) =>
      match MapStride(layout.rowsPerImage, "invalid rowsPerImage")
      case Panicked(m) => Panicked(m)
      case Returned(rowsPerImage) => Returned(ImageDataLayout(layout.offset, bytesPerRow, rowsPerImage))
  }

  /** The native encoding of a stride, the inverse the mapping implies:
      `None` as the undefined sentinel, a stride as itself. */
  function StrideToNative(stride: Option<u32>): u32 {
    if stride.None? then CopyStrideUndefined else stride.value
  }

  /** Every stride other than `u32::MAX` survives the trip through its native
      encoding, while `Some(u32::MAX)` cannot be expressed: its encoding is the
      sentinel and comes back as `None`. */
  lemma StrideRoundTrip(stride: Option<u32>)
    requires stride.Some? ==> stride.value != 0
    ensures stride != Some(CopyStrideUndefined) ==> MapStride(StrideToNative(stride), "") == Returned(stride)
    ensures stride == Some(CopyStrideUndefined) ==> MapStride(StrideToNative(stride), "") == Returned(None)
  {
  }

  /** `map_texture_format`: the format of a listed native constant, nothing
      for any other value. The single `match` of the source is split here into
      runs of twelve arms, in order, which selects the same arm. */
  function MapTextureFormat(value: int): Option<TextureFormat>
  {
    if value < 1 then None
    else if value <= 12 then TextureFormatArms1(value)
    else if value <= 24 then TextureFormatArms2(value)
    else if value <= 36 then TextureFormatArms3(value)
    else if value <= 48 then TextureFormatArms4(value)
    else if value <= 60 then TextureFormatArms5(value)
    else if value <= 72 then TextureFormatArms6(value)
    else if value <= 84 then TextureFormatArms7(value)
    else if value <= 94 then TextureFormatArms8(value)
    else None
  }

  /** Arms 1 to 12 of `map_texture_format`. */
  function TextureFormatArms1(value: int): Option<TextureFormat> {
    match value
    case 1 => Some(R8Unorm)
    case 2 => Some(R8Snorm)
    case 3 => Some(R8Uint)
    case 4 => Some(R8Sint)
    case 5 => Some(R16Uint)
    case 6 => Some(R16Sint)
    case 7 => Some(R16Float)
    case 8 => Some(Rg8Unorm)
    case 9 => Some(Rg8Snorm)
    case 10 => Some(Rg8Uint)
    case 11 => Some(Rg8Sint)
    case 12 => Some(R32Float)
    case _ => None
  }

  /** Arms 13 to 24 of `map_texture_format`. */
  function TextureFormatArms2(value: int): Option<TextureFormat> {
    match value
    case 13 => Some(R32Uint)
    case 14 => Some(R32Sint)
    case 15 => Some(Rg16Uint)
    case 16 => Some(Rg16Sint)
    case 17 => Some(Rg16Float)
    case 18 => Some(Rgba8Unorm)
    case 19 => Some(Rgba8UnormSrgb)
    case 20 => Some(Rgba8Snorm)
    case 21 => Some(Rgba8Uint)
    case 22 => Some(Rgba8Sint)
    case 23 => Some(Bgra8Unorm)
    case 24 => Some(Bgra8UnormSrgb)
    case _ => None
  }

  /** Arms 25 to 36 of `map_texture_format`. */
  function TextureFormatArms3(value: int): Option<TextureFormat> {
    match value
    case 25 => Some(Rgb10a2Unorm)
    case 26 => Some(Rg11b10Float)
    case 27 => Some(Rgb9e5Ufloat)
    case 28 => Some(Rg32Float)
    case 29 => Some(Rg32Uint)
    case 30 => Some(Rg32Sint)
    case 31 => Some(Rgba16Uint)
    case 32 => Some(Rgba16Sint)
    case 33 => Some(Rgba16Float)
    case 34 => Some(Rgba32Float)
    case 35 => Some(Rgba32Uint)
    case 36 => Some(Rgba32Sint)
    case _ => None
  }

  /** Arms 37 to 48 of `map_texture_format`. */
  function TextureFormatArms4(value: int): Option<TextureFormat> {
    match value
    case 37 => Some(Stencil8)
    case 38 => Some(Depth16Unorm)
    case 39 => Some(Depth24Plus)
    case 40 => Some(Depth24PlusStencil8)
    case 41 => Some(Depth32Float)
    case 42 => Some(Depth32FloatStencil8)
    case 43 => Some(Bc1RgbaUnorm)
    case 44 => Some(Bc1RgbaUnormSrgb)
    case 45 => Some(Bc2RgbaUnorm)
    case 46 => Some(Bc2RgbaUnormSrgb)
    case 47 => Some(Bc3RgbaUnorm)
    case 48 => Some(Bc3RgbaUnormSrgb)
    case _ => None
  }

  /** Arms 49 to 60 of `map_texture_format`. */
  function TextureFormatArms5(value: int): Option<TextureFormat> {
    match value
    case 49 => Some(Bc4RUnorm)
    case 50 => Some(Bc4RSnorm)
    case 51 => Some(Bc5RgUnorm)
    case 52 => Some(Bc5RgSnorm)
    case 53 => Some(Bc6hRgbUfloat)
    case 54 => Some(Bc6hRgbSfloat)
    case 55 => Some(Bc7RgbaUnorm)
    case 56 => Some(Bc7RgbaUnormSrgb)
    case 57 => Some(Etc2Rgb8Unorm)
    case 58 => Some(Etc2Rgb8UnormSrgb)
    case 59 => Some(Etc2Rgb8A1Unorm)
    case 60 => Some(Etc2Rgb8A1UnormSrgb)
    case _ => None
  }

  /** Arms 61 to 72 of `map_texture_format`. */
  function TextureFormatArms6(value: int): Option<TextureFormat> {
    match value
    case 61 => Some(Etc2Rgba8Unorm)
    case 62 => Some(Etc2Rgba8UnormSrgb)
    case 63 => Some(EacR11Unorm)
    case 64 => Some(EacR11Snorm)
    case 65 => Some(EacRg11Unorm)
    case 66 => Some(EacRg11Snorm)
    case 67 => Some(Astc(B4x4, Unorm))
    case 68 => Some(Astc(B4x4, UnormSrgb))
    case 69 => Some(Astc(B5x4, Unorm))
    case 70 => Some(Astc(B5x4, UnormSrgb))
    case 71 => Some(Astc(B5x5, Unorm))
    case 72 => Some(Astc(B5x5, UnormSrgb))
    case _ => None
  }

  /** Arms 73 to 84 of `map_texture_format`. */
  function TextureFormatArms7(value: int): Option<TextureFormat> {
    match value
    case 73 => Some(Astc(B6x5, Unorm))
    case 74 => Some(Astc(B6x5, UnormSrgb))
    case 75 => Some(Astc(B6x6, Unorm))
    case 76 => Some(Astc(B6x6, UnormSrgb))
    case 77 => Some(Astc(B8x5, Unorm))
    case 78 => Some(Astc(B8x5, UnormSrgb))
    case 79 => Some(Astc(B8x6, Unorm))
    case 80 => Some(Astc(B8x6, UnormSrgb))
    case 81 => Some(Astc(B8x8, Unorm))
    case 82 => Some(Astc(B8x8, UnormSrgb))
    case 83 => Some(Astc(B10x5, Unorm))
    case 84 => Some(Astc(B10x5, UnormSrgb))
    case _ => None
  }

  /** Arms 85 to 94 of `map_texture_format`. */
  function TextureFormatArms8(value: int): Option<TextureFormat> {
    match value
    case 85 => Some(Astc(B10x6, Unorm))
    case 86 => Some(Astc(B10x6, UnormSrgb))
    case 87 => Some(Astc(B10x8, Unorm))
    case 88 => Some(Astc(B10x8, UnormSrgb))
    case 89 => Some(Astc(B10x10, Unorm))
    case 90 => Some(Astc(B10x10, UnormSrgb))
    case 91 => Some(Astc(B12x10, Unorm))
    case 92 => Some(Astc(B12x10, UnormSrgb))
    case 93 => Some(Astc(B12x12, Unorm))
    case 94 => Some(Astc(B12x12, UnormSrgb))
    case _ => None
  }

  /** `to_native_texture_format`: the native constant of a format, nothing
      for the formats the C header lacks. */
  function ToNativeTextureFormat(f: TextureFormat): (r: Option<int>)
    ensures r.None? <==> Unsupported(f)
  {
    match f
    case R16Unorm => None
    case R16Snorm => None
    case Rg16Unorm => None
    case Rg16Snorm => None
    case Rgba16Unorm => None
    case Rgba16Snorm => None
    case Astc(_, Hdr) => None
    case R8Unorm => Some(1)
    case R8Snorm => Some(2)
    case R8Uint => Some(3)
    case R8Sint => Some(4)
    case R16Uint => Some(5)
    case R16Sint => Some(6)
    case R16Float => Some(7)
    case Rg8Unorm => Some(8)
    case Rg8Snorm => Some(9)
    case Rg8Uint => Some(10)
    case Rg8Sint => Some(11)
    case R32Float => Some(12)
    case R32Uint => Some(13)
    case R32Sint => Some(14)
    case Rg16Uint => Some(15)
    case Rg16Sint => Some(16)
    case Rg16Float => Some(17)
    case Rgba8Unorm => Some(18)
    case Rgba8UnormSrgb => Some(19)
    case Rgba8Snorm => Some(20)
    case Rgba8Uint => Some(21)
    case Rgba8Sint => Some(22)
    case Bgra8Unorm => Some(23)
    case Bgra8UnormSrgb => Some(24)
    case Rgb10a2Unorm => Some(25)
    case Rg11b10Float => Some(26)
    case Rgb9e5Ufloat => Some(27)
    case Rg32Float => Some(28)
    case Rg32Uint => Some(29)
    case Rg32Sint => Some(30)
    case Rgba16Uint => Some(31)
    case Rgba16Sint => Some(32)
    case Rgba16Float => Some(33)
    case Rgba32Float => Some(34)
    case Rgba32Uint => Some(35)
    case Rgba32Sint => Some(36)
    case Stencil8 => Some(37)
    case Depth16Unorm => Some(38)
    case Depth24Plus => Some(39)
    case Depth24PlusStencil8 => Some(40)
    case Depth32Float => Some(41)
    case Depth32FloatStencil8 => Some(42)
    case Bc1RgbaUnorm => Some(43)
    case Bc1RgbaUnormSrgb => Some(44)
    case Bc2RgbaUnorm => Some(45)
    case Bc2RgbaUnormSrgb => Some(46)
    case Bc3RgbaUnorm => Some(47)
    case Bc3RgbaUnormSrgb => Some(48)
    case Bc4RUnorm => Some(49)
    case Bc4RSnorm => Some(50)
    case Bc5RgUnorm => Some(51)
    case Bc5RgSnorm => Some(52)
    case Bc6hRgbUfloat => Some(53)
    case Bc6hRgbSfloat => Some(54)
    case Bc7RgbaUnorm => Some(55)
    case Bc7RgbaUnormSrgb => Some(56)
    case Etc2Rgb8Unorm => Some(57)
    case Etc2Rgb8UnormSrgb => Some(58)
    case Etc2Rgb8A1Unorm => Some(59)
    case Etc2Rgb8A1UnormSrgb => Some(60)
    case Etc2Rgba8Unorm => Some(61)
    case Etc2Rgba8UnormSrgb => Some(62)
    case EacR11Unorm => Some(63)
    case EacR11Snorm => Some(64)
    case EacRg11Unorm => Some(65)
    case EacRg11Snorm => Some(66)
    case Astc(B4x4, Unorm) => Some(67)
    case Astc(B4x4, UnormSrgb) => Some(68)
    case Astc(B5x4, Unorm) => Some(69)
    case Astc(B5x4, UnormSrgb) => Some(70)
    case Astc(B5x5, Unorm) => Some(71)
    case Astc(B5x5, UnormSrgb) => Some(72)
    case Astc(B6x5, Unorm) => Some(73)
    case Astc(B6x5, UnormSrgb) => Some(74)
    case Astc(B6x6, Unorm) => Some(75)
    case Astc(B6x6, UnormSrgb) => Some(76)
    case Astc(B8x5, Unorm) => Some(77)
    case Astc(B8x5, UnormSrgb) => Some(78)
    case Astc(B8x6, Unorm) => Some(79)
    case Astc(B8x6, UnormSrgb) => Some(80)
    case Astc(B8x8, Unorm) => Some(81)
    case Astc(B8x8, UnormSrgb) => Some(82)
    case Astc(B10x5, Unorm) => Some(83)
    case Astc(B10x5, UnormSrgb) => Some(84)
    case Astc(B10x6, Unorm) => Some(85)
    case Astc(B10x6, UnormSrgb) => Some(86)
    case Astc(B10x8, Unorm) => Some(87)
    case Astc(B10x8, UnormSrgb) => Some(88)
    case Astc(B10x10, Unorm) => Some(89)
    case Astc(B10x10, UnormSrgb) => Some(90)
    case Astc(B12x10, Unorm) => Some(91)
    case Astc(B12x10, UnormSrgb) => Some(92)
    case Astc(B12x12, Unorm) => Some(93)
    case Astc(B12x12, UnormSrgb) => Some(94)
  }

  /** `map_texture_format` inverts `to_native_texture_format`: exactly the
      formats the C header lacks have no native constant, and every other
      format comes back from its constant. The proof goes family by family. */
  lemma TextureFormatToNativeAndBack(f: TextureFormat)
    ensures ToNativeTextureFormat(f).None? <==> Unsupported(f)
    ensures ToNativeTextureFormat(f).Some? ==> MapTextureFormat(ToNativeTextureFormat(f).value) == Some(f)
  {
    if R8Formats(f) {
      R8FormatsBack(f);
    } else if R16Formats(f) {
      R16FormatsBack(f);
    } else if Rg8Formats(f) {
      Rg8FormatsBack(f);
    } else if R32Formats(f) {
      R32FormatsBack(f);
    } else if Rg16Formats(f) {
      Rg16FormatsBack(f);
    } else if Rgba8NormFormats(f) {
      Rgba8NormFormatsBack(f);
    } else if Rgba8IntFormats(f) {
      Rgba8IntFormatsBack(f);
    } else if Bgra8Formats(f) {
      Bgra8FormatsBack(f);
    } else if PackedFormats(f) {
      PackedFormatsBack(f);
    } else if Rg32Formats(f) {
      Rg32FormatsBack(f);
    } else if Rgba16Formats(f) {
      Rgba16FormatsBack(f);
    } else if Rgba32Formats(f) {
      Rgba32FormatsBack(f);
    } else if Depth16Formats(f) {
      Depth16FormatsBack(f);
    } else if Depth24Formats(f) {
      Depth24FormatsBack(f);
    } else if Depth32Formats(f) {
      Depth32FormatsBack(f);
    } else if Bc1Formats(f) {
      Bc1FormatsBack(f);
    } else if Bc2Formats(f) {
      Bc2FormatsBack(f);
    } else if Bc3Formats(f) {
      Bc3FormatsBack(f);
    } else if Bc4Formats(f) {
      Bc4FormatsBack(f);
    } else if Bc5Formats(f) {
      Bc5FormatsBack(f);
    } else if Bc6hFormats(f) {
      Bc6hFormatsBack(f);
    } else if Bc7Formats(f) {
      Bc7FormatsBack(f);
    } else if Etc2Rgb8Formats(f) {
      Etc2Rgb8FormatsBack(f);
    } else if Etc2Rgb8A1Formats(f) {
      Etc2Rgb8A1FormatsBack(f);
    } else if Etc2Rgba8Formats(f) {
      Etc2Rgba8FormatsBack(f);
    } else if EacR11Formats(f) {
      EacR11FormatsBack(f);
    } else if EacRg11Formats(f) {
      EacRg11FormatsBack(f);
    } else if f.Astc? && !f.channel.Hdr? {
      AstcFormatsBack(f);
    }
  }

  /** ...and the other way round: exactly the listed native constants map
      to a format, and the constant `to_native_texture_format` gives for that
      format is the one it came from. The proof goes family by family. */
  lemma TextureFormatFromNativeAndBack(c: int)
    ensures MapTextureFormat(c).Some? <==> 1 <= c <= NativeTextureFormatCount
    ensures MapTextureFormat(c).Some? ==> ToNativeTextureFormat(MapTextureFormat(c).value) == Some(c)
  {
    if 1 <= c <= 4 {
      R8FromNative(c);
    } else if 5 <= c <= 7 {
      R16FromNative(c);
    } else if 8 <= c <= 11 {
      Rg8FromNative(c);
    } else if 12 <= c <= 14 {
      R32FromNative(c);
    } else if 15 <= c <= 17 {
      Rg16FromNative(c);
    } else if 18 <= c <= 20 {
      Rgba8NormFromNative(c);
    } else if 21 <= c <= 22 {
      Rgba8IntFromNative(c);
    } else if 23 <= c <= 24 {
      Bgra8FromNative(c);
    } else if 25 <= c <= 27 {
      PackedFromNative(c);
    } else if 28 <= c <= 30 {
      Rg32FromNative(c);
    } else if 31 <= c <= 33 {
      Rgba16FromNative(c);
    } else if 34 <= c <= 36 {
      Rgba32FromNative(c);
    } else if 37 <= c <= 38 {
      Depth16FromNative(c);
    } else if 39 <= c <= 40 {
      Depth24FromNative(c);
    } else if 41 <= c <= 42 {
      Depth32FromNative(c);
    } else if 43 <= c <= 44 {
      Bc1FromNative(c);
    } else if 45 <= c <= 46 {
      Bc2FromNative(c);
    } else if 47 <= c <= 48 {
      Bc3FromNative(c);
    } else if 49 <= c <= 50 {
      Bc4FromNative(c);
    } else if 51 <= c <= 52 {
      Bc5FromNative(c);
    } else if 53 <= c <= 54 {
      Bc6hFromNative(c);
    } else if 55 <= c <= 56 {
      Bc7FromNative(c);
    } else if 57 <= c <= 58 {
      Etc2Rgb8FromNative(c);
    } else if 59 <= c <= 60 {
      Etc2Rgb8A1FromNative(c);
    } else if 61 <= c <= 62 {
      Etc2Rgba8FromNative(c);
    } else if 63 <= c <= 64 {
      EacR11FromNative(c);
    } else if 65 <= c <= 66 {
      EacRg11FromNative(c);
    } else if 67 <= c <= 70 {
      Astc4x4And5x4FromNative(c);
    } else if 71 <= c <= 74 {
      Astc5x5And6x5FromNative(c);
    } else if 75 <= c <= 78 {
      Astc6x6And8x5FromNative(c);
    } else if 79 <= c <= 82 {
      Astc8x6And8x8FromNative(c);
    } else if 83 <= c <= 86 {
      Astc10x5And10x6FromNative(c);
    } else if 87 <= c <= 90 {
      Astc10x8And10x10FromNative(c);
    } else if 91 <= c <= 94 {
      Astc12x10And12x12FromNative(c);
    }
  }

  /** The one-channel 8-bit formats. */
  predicate R8Formats(f: TextureFormat) {
    f.R8Unorm? || f.R8Snorm? || f.R8Uint? || f.R8Sint?
  }

  lemma R8FormatsBack(f: TextureFormat)
    requires R8Formats(f)
    ensures ToNativeTextureFormat(f).Some? && MapTextureFormat(ToNativeTextureFormat(f).value) == Some(f)
  {
  }

  /** The constants of the one-channel 8-bit formats come back from `to_native_texture_format`. */
  lemma R8FromNative(c: int)
    requires 1 <= c <= 4
    ensures MapTextureFormat(c).Some? && ToNativeTextureFormat(MapTextureFormat(c).value) == Some(c)
  {
    match c case 1 => case 2 => case 3 => case 4 =>
  }

  /** The one-channel 16-bit formats. */
  predicate R16Formats(f: TextureFormat) {
    f.R16Uint? || f.R16Sint? || f.R16Float?
  }

  lemma R16FormatsBack(f: TextureFormat)
    requires R16Formats(f)
    ensures ToNativeTextureFormat(f).Some? && MapTextureFormat(ToNativeTextureFormat(f).value) == Some(f)
  {
  }

  /** The constants of the one-channel 16-bit formats come back from `to_native_texture_format`. */
  lemma R16FromNative(c: int)
    requires 5 <= c <= 7
    ensures MapTextureFormat(c).Some? && ToNativeTextureFormat(MapTextureFormat(c).value) == Some(c)
  {
    match c case 5 => case 6 => case 7 =>
  }

  /** The two-channel 8-bit formats. */
  predicate Rg8Formats(f: TextureFormat) {
    f.Rg8Unorm? || f.Rg8Snorm? || f.Rg8Uint? || f.Rg8Sint?
  }

  lemma Rg8FormatsBack(f: TextureFormat)
    requires Rg8Formats(f)
    ensures ToNativeTextureFormat(f).Some? && MapTextureFormat(ToNativeTextureFormat(f).value) == Some(f)
  {
  }

  /** The constants of the two-channel 8-bit formats come back from `to_native_texture_format`. */
  lemma Rg8FromNative(c: int)
    requires 8 <= c <= 11
    ensures MapTextureFormat(c).Some? && ToNativeTextureFormat(MapTextureFormat(c).value) == Some(c)
  {
    match c case 8 => case 9 => case 10 => case 11 =>
  }

  /** The one-channel 32-bit formats. */
  predicate R32Formats(f: TextureFormat) {
    f.R32Float? || f.R32Uint? || f.R32Sint?
  }

  lemma R32FormatsBack(f: TextureFormat)
    requires R32Formats(f)
    ensures ToNativeTextureFormat(f).Some? && MapTextureFormat(ToNativeTextureFormat(f).value) == Some(f)
  {
  }

  /** The constants of the one-channel 32-bit formats come back from `to_native_texture_format`. */
  lemma R32FromNative(c: int)
    requires 12 <= c <= 14
    ensures MapTextureFormat(c).Some? && ToNativeTextureFormat(MapTextureFormat(c).value) == Some(c)
  {
    match c case 12 => case 13 => case 14 =>
  }

  /** The two-channel 16-bit formats. */
  predicate Rg16Formats(f: TextureFormat) {
    f.Rg16Uint? || f.Rg16Sint? || f.Rg16Float?
  }

  lemma Rg16FormatsBack(f: TextureFormat)
    requires Rg16Formats(f)
    ensures ToNativeTextureFormat(f).Some? && MapTextureFormat(ToNativeTextureFormat(f).value) == Some(f)
  {
  }

  /** The constants of the two-channel 16-bit formats come back from `to_native_texture_format`. */
  lemma Rg16FromNative(c: int)
    requires 15 <= c <= 17
    ensures MapTextureFormat(c).Some? && ToNativeTextureFormat(MapTextureFormat(c).value) == Some(c)
  {
    match c case 15 => case 16 => case 17 =>
  }

  /** The normalised four-channel 8-bit formats. */
  predicate Rgba8NormFormats(f: TextureFormat) {
    f.Rgba8Unorm? || f.Rgba8UnormSrgb? || f.Rgba8Snorm?
  }

  lemma Rgba8NormFormatsBack(f: TextureFormat)
    requires Rgba8NormFormats(f)
    ensures ToNativeTextureFormat(f).Some? && MapTextureFormat(ToNativeTextureFormat(f).value) == Some(f)
  {
  }

  /** The constants of the normalised four-channel 8-bit formats come back from `to_native_texture_format`. */
  lemma Rgba8NormFromNative(c: int)
    requires 18 <= c <= 20
    ensures MapTextureFormat(c).Some? && ToNativeTextureFormat(MapTextureFormat(c).value) == Some(c)
  {
    match c case 18 => case 19 => case 20 =>
  }

  /** The integer four-channel 8-bit formats. */
  predicate Rgba8IntFormats(f: TextureFormat) {
    f.Rgba8Uint? || f.Rgba8Sint?
  }

  lemma Rgba8IntFormatsBack(f: TextureFormat)
    requires Rgba8IntFormats(f)
    ensures ToNativeTextureFormat(f).Some? && MapTextureFormat(ToNativeTextureFormat(f).value) == Some(f)
  {
  }

  /** The constants of the integer four-channel 8-bit formats come back from `to_native_texture_format`. */
  lemma Rgba8IntFromNative(c: int)
    requires 21 <= c <= 22
    ensures MapTextureFormat(c).Some? && ToNativeTextureFormat(MapTextureFormat(c).value) == Some(c)
  {
    match c case 21 => case 22 =>
  }

  /** The BGRA 8-bit formats. */
  predicate Bgra8Formats(f: TextureFormat) {
    f.Bgra8Unorm? || f.Bgra8UnormSrgb?
  }

  lemma Bgra8FormatsBack(f: TextureFormat)
    requires Bgra8Formats(f)
    ensures ToNativeTextureFormat(f).Some? && MapTextureFormat(ToNativeTextureFormat(f).value) == Some(f)
  {
  }

  /** The constants of the BGRA 8-bit formats come back from `to_native_texture_format`. */
  lemma Bgra8FromNative(c: int)
    requires 23 <= c <= 24
    ensures MapTextureFormat(c).Some? && ToNativeTextureFormat(MapTextureFormat(c).value) == Some(c)
  {
    match c case 23 => case 24 =>
  }

  /** The packed 32-bit formats. */
  predicate PackedFormats(f: TextureFormat) {
    f.Rgb10a2Unorm? || f.Rg11b10Float? || f.Rgb9e5Ufloat?
  }

  lemma PackedFormatsBack(f: TextureFormat)
    requires PackedFormats(f)
    ensures ToNativeTextureFormat(f).Some? && MapTextureFormat(ToNativeTextureFormat(f).value) == Some(f)
  {
  }

  /** The constants of the packed 32-bit formats come back from `to_native_texture_format`. */
  lemma PackedFromNative(c: int)
    requires 25 <= c <= 27
    ensures MapTextureFormat(c).Some? && ToNativeTextureFormat(MapTextureFormat(c).value) == Some(c)
  {
    match c case 25 => case 26 => case 27 =>
  }

  /** The two-channel 32-bit formats. */
  predicate Rg32Formats(f: TextureFormat) {
    f.Rg32Float? || f.Rg32Uint? || f.Rg32Sint?
  }

  lemma Rg32FormatsBack(f: TextureFormat)
    requires Rg32Formats(f)
    ensures ToNativeTextureFormat(f).Some? && MapTextureFormat(ToNativeTextureFormat(f).value) == Some(f)
  {
  }

  /** The constants of the two-channel 32-bit formats come back from `to_native_texture_format`. */
  lemma Rg32FromNative(c: int)
    requires 28 <= c <= 30
    ensures MapTextureFormat(c).Some? && ToNativeTextureFormat(MapTextureFormat(c).value) == Some(c)
  {
    match c case 28 => case 29 => case 30 =>
  }

  /** The four-channel 16-bit formats. */
  predicate Rgba16Formats(f: TextureFormat) {
    f.Rgba16Uint? || f.Rgba16Sint? || f.Rgba16Float?
  }

  lemma Rgba16FormatsBack(f: TextureFormat)
    requires Rgba16Formats(f)
    ensures ToNativeTextureFormat(f).Some? && MapTextureFormat(ToNativeTextureFormat(f).value) == Some(f)
  {
  }

  /** The constants of the four-channel 16-bit formats come back from `to_native_texture_format`. */
  lemma Rgba16FromNative(c: int)
    requires 31 <= c <= 33
    ensures MapTextureFormat(c).Some? && ToNativeTextureFormat(MapTextureFormat(c).value) == Some(c)
  {
    match c case 31 => case 32 => case 33 =>
  }

  /** The four-channel 32-bit formats. */
  predicate Rgba32Formats(f: TextureFormat) {
    f.Rgba32Float? || f.Rgba32Uint? || f.Rgba32Sint?
  }

  lemma Rgba32FormatsBack(f: TextureFormat)
    requires Rgba32Formats(f)
    ensures ToNativeTextureFormat(f).Some? && MapTextureFormat(ToNativeTextureFormat(f).value) == Some(f)
  {
  }

  /** The constants of the four-channel 32-bit formats come back from `to_native_texture_format`. */
  lemma Rgba32FromNative(c: int)
    requires 34 <= c <= 36
    ensures MapTextureFormat(c).Some? && ToNativeTextureFormat(MapTextureFormat(c).value) == Some(c)
  {
    match c case 34 => case 35 => case 36 =>
  }

  /** The stencil-only and 16-bit depth formats. */
  predicate Depth16Formats(f: TextureFormat) {
    f.Stencil8? || f.Depth16Unorm?
  }

  lemma Depth16FormatsBack(f: TextureFormat)
    requires Depth16Formats(f)
    ensures ToNativeTextureFormat(f).Some? && MapTextureFormat(ToNativeTextureFormat(f).value) == Some(f)
  {
  }

  /** The constants of the stencil-only and 16-bit depth formats come back from `to_native_texture_format`. */
  lemma Depth16FromNative(c: int)
    requires 37 <= c <= 38
    ensures MapTextureFormat(c).Some? && ToNativeTextureFormat(MapTextureFormat(c).value) == Some(c)
  {
    match c case 37 => case 38 =>
  }

  /** The 24-bit depth formats. */
  predicate Depth24Formats(f: TextureFormat) {
    f.Depth24Plus? || f.Depth24PlusStencil8?
  }

  lemma Depth24FormatsBack(f: TextureFormat)
    requires Depth24Formats(f)
    ensures ToNativeTextureFormat(f).Some? && MapTextureFormat(ToNativeTextureFormat(f).value) == Some(f)
  {
  }

  /** The constants of the 24-bit depth formats come back from `to_native_texture_format`. */
  lemma Depth24FromNative(c: int)
    requires 39 <= c <= 40
    ensures MapTextureFormat(c).Some? && ToNativeTextureFormat(MapTextureFormat(c).value) == Some(c)
  {
    match c case 39 => case 40 =>
  }

  /** The 32-bit depth formats. */
  predicate Depth32Formats(f: TextureFormat) {
    f.Depth32Float? || f.Depth32FloatStencil8?
  }

  lemma Depth32FormatsBack(f: TextureFormat)
    requires Depth32Formats(f)
    ensures ToNativeTextureFormat(f).Some? && MapTextureFormat(ToNativeTextureFormat(f).value) == Some(f)
  {
  }

  /** The constants of the 32-bit depth formats come back from `to_native_texture_format`. */
  lemma Depth32FromNative(c: int)
    requires 41 <= c <= 42
    ensures MapTextureFormat(c).Some? && ToNativeTextureFormat(MapTextureFormat(c).value) == Some(c)
  {
    match c case 41 => case 42 =>
  }

  /** The BC1 formats. */
  predicate Bc1Formats(f: TextureFormat) {
    f.Bc1RgbaUnorm? || f.Bc1RgbaUnormSrgb?
  }

  lemma Bc1FormatsBack(f: TextureFormat)
    requires Bc1Formats(f)
    ensures ToNativeTextureFormat(f).Some? && MapTextureFormat(ToNativeTextureFormat(f).value) == Some(f)
  {
  }

  /** The constants of the BC1 formats come back from `to_native_texture_format`. */
  lemma Bc1FromNative(c: int)
    requires 43 <= c <= 44
    ensures MapTextureFormat(c).Some? && ToNativeTextureFormat(MapTextureFormat(c).value) == Some(c)
  {
    match c case 43 => case 44 =>
  }

  /** The BC2 formats. */
  predicate Bc2Formats(f: TextureFormat) {
    f.Bc2RgbaUnorm? || f.Bc2RgbaUnormSrgb?
  }

  lemma Bc2FormatsBack(f: TextureFormat)
    requires Bc2Formats(f)
    ensures ToNativeTextureFormat(f).Some? && MapTextureFormat(ToNativeTextureFormat(f).value) == Some(f)
  {
  }

  /** The constants of the BC2 formats come back from `to_native_texture_format`. */
  lemma Bc2FromNative(c: int)
    requires 45 <= c <= 46
    ensures MapTextureFormat(c).Some? && ToNativeTextureFormat(MapTextureFormat(c).value) == Some(c)
  {
    match c case 45 => case 46 =>
  }

  /** The BC3 formats. */
  predicate Bc3Formats(f: TextureFormat) {
    f.Bc3RgbaUnorm? || f.Bc3RgbaUnormSrgb?
  }

  lemma Bc3FormatsBack(f: TextureFormat)
    requires Bc3Formats(f)
    ensures ToNativeTextureFormat(f).Some? && MapTextureFormat(ToNativeTextureFormat(f).value) == Some(f)
  {
  }

  /** The constants of the BC3 formats come back from `to_native_texture_format`. */
  lemma Bc3FromNative(c: int)
    requires 47 <= c <= 48
    ensures MapTextureFormat(c).Some? && ToNativeTextureFormat(MapTextureFormat(c).value) == Some(c)
  {
    match c case 47 => case 48 =>
  }

  /** The BC4 formats. */
  predicate Bc4Formats(f: TextureFormat) {
    f.Bc4RUnorm? || f.Bc4RSnorm?
  }

  lemma Bc4FormatsBack(f: TextureFormat)
    requires Bc4Formats(f)
    ensures ToNativeTextureFormat(f).Some? && MapTextureFormat(ToNativeTextureFormat(f).value) == Some(f)
  {
  }

  /** The constants of the BC4 formats come back from `to_native_texture_format`. */
  lemma Bc4FromNative(c: int)
    requires 49 <= c <= 50
    ensures MapTextureFormat(c).Some? && ToNativeTextureFormat(MapTextureFormat(c).value) == Some(c)
  {
    match c case 49 => case 50 =>
  }

  /** The BC5 formats. */
  predicate Bc5Formats(f: TextureFormat) {
    f.Bc5RgUnorm? || f.Bc5RgSnorm?
  }

  lemma Bc5FormatsBack(f: TextureFormat)
    requires Bc5Formats(f)
    ensures ToNativeTextureFormat(f).Some? && MapTextureFormat(ToNativeTextureFormat(f).value) == Some(f)
  {
  }

  /** The constants of the BC5 formats come back from `to_native_texture_format`. */
  lemma Bc5FromNative(c: int)
    requires 51 <= c <= 52
    ensures MapTextureFormat(c).Some? && ToNativeTextureFormat(MapTextureFormat(c).value) == Some(c)
  {
    match c case 51 => case 52 =>
  }

  /** The BC6H formats. */
  predicate Bc6hFormats(f: TextureFormat) {
    f.Bc6hRgbUfloat? || f.Bc6hRgbSfloat?
  }

  lemma Bc6hFormatsBack(f: TextureFormat)
    requires Bc6hFormats(f)
    ensures ToNativeTextureFormat(f).Some? && MapTextureFormat(ToNativeTextureFormat(f).value) == Some(f)
  {
  }

  /** The constants of the BC6H formats come back from `to_native_texture_format`. */
  lemma Bc6hFromNative(c: int)
    requires 53 <= c <= 54
    ensures MapTextureFormat(c).Some? && ToNativeTextureFormat(MapTextureFormat(c).value) == Some(c)
  {
    match c case 53 => case 54 =>
  }

  /** The BC7 formats. */
  predicate Bc7Formats(f: TextureFormat) {
    f.Bc7RgbaUnorm? || f.Bc7RgbaUnormSrgb?
  }

  lemma Bc7FormatsBack(f: TextureFormat)
    requires Bc7Formats(f)
    ensures ToNativeTextureFormat(f).Some? && MapTextureFormat(ToNativeTextureFormat(f).value) == Some(f)
  {
  }

  /** The constants of the BC7 formats come back from `to_native_texture_format`. */
  lemma Bc7FromNative(c: int)
    requires 55 <= c <= 56
    ensures MapTextureFormat(c).Some? && ToNativeTextureFormat(MapTextureFormat(c).value) == Some(c)
  {
    match c case 55 => case 56 =>
  }

  /** The ETC2 RGB formats. */
  predicate Etc2Rgb8Formats(f: TextureFormat) {
    f.Etc2Rgb8Unorm? || f.Etc2Rgb8UnormSrgb?
  }

  lemma Etc2Rgb8FormatsBack(f: TextureFormat)
    requires Etc2Rgb8Formats(f)
    ensures ToNativeTextureFormat(f).Some? && MapTextureFormat(ToNativeTextureFormat(f).value) == Some(f)
  {
  }

  /** The constants of the ETC2 RGB formats come back from `to_native_texture_format`. */
  lemma Etc2Rgb8FromNative(c: int)
    requires 57 <= c <= 58
    ensures MapTextureFormat(c).Some? && ToNativeTextureFormat(MapTextureFormat(c).value) == Some(c)
  {
    match c case 57 => case 58 =>
  }

  /** The ETC2 RGB formats with 1-bit alpha. */
  predicate Etc2Rgb8A1Formats(f: TextureFormat) {
    f.Etc2Rgb8A1Unorm? || f.Etc2Rgb8A1UnormSrgb?
  }

  lemma Etc2Rgb8A1FormatsBack(f: TextureFormat)
    requires Etc2Rgb8A1Formats(f)
    ensures ToNativeTextureFormat(f).Some? && MapTextureFormat(ToNativeTextureFormat(f).value) == Some(f)
  {
  }

  /** The constants of the ETC2 RGB formats with 1-bit alpha come back from `to_native_texture_format`. */
  lemma Etc2Rgb8A1FromNative(c: int)
    requires 59 <= c <= 60
    ensures MapTextureFormat(c).Some? && ToNativeTextureFormat(MapTextureFormat(c).value) == Some(c)
  {
    match c case 59 => case 60 =>
  }

  /** The ETC2 RGBA formats. */
  predicate Etc2Rgba8Formats(f: TextureFormat) {
    f.Etc2Rgba8Unorm? || f.Etc2Rgba8UnormSrgb?
  }

  lemma Etc2Rgba8FormatsBack(f: TextureFormat)
    requires Etc2Rgba8Formats(f)
    ensures ToNativeTextureFormat(f).Some? && MapTextureFormat(ToNativeTextureFormat(f).value) == Some(f)
  {
  }

  /** The constants of the ETC2 RGBA formats come back from `to_native_texture_format`. */
  lemma Etc2Rgba8FromNative(c: int)
    requires 61 <= c <= 62
    ensures MapTextureFormat(c).Some? && ToNativeTextureFormat(MapTextureFormat(c).value) == Some(c)
  {
    match c case 61 => case 62 =>
  }

  /** The one-channel EAC formats. */
  predicate EacR11Formats(f: TextureFormat) {
    f.EacR11Unorm? || f.EacR11Snorm?
  }

  lemma EacR11FormatsBack(f: TextureFormat)
    requires EacR11Formats(f)
    ensures ToNativeTextureFormat(f).Some? && MapTextureFormat(ToNativeTextureFormat(f).value) == Some(f)
  {
  }

  /** The constants of the one-channel EAC formats come back from `to_native_texture_format`. */
  lemma EacR11FromNative(c: int)
    requires 63 <= c <= 64
    ensures MapTextureFormat(c).Some? && ToNativeTextureFormat(MapTextureFormat(c).value) == Some(c)
  {
    match c case 63 => case 64 =>
  }

  /** The two-channel EAC formats. */
  predicate EacRg11Formats(f: TextureFormat) {
    f.EacRg11Unorm? || f.EacRg11Snorm?
  }

  lemma EacRg11FormatsBack(f: TextureFormat)
    requires EacRg11Formats(f)
    ensures ToNativeTextureFormat(f).Some? && MapTextureFormat(ToNativeTextureFormat(f).value) == Some(f)
  {
  }

  /** The constants of the two-channel EAC formats come back from `to_native_texture_format`. */
  lemma EacRg11FromNative(c: int)
    requires 65 <= c <= 66
    ensures MapTextureFormat(c).Some? && ToNativeTextureFormat(MapTextureFormat(c).value) == Some(c)
  {
    match c case 65 => case 66 =>
  }

  /** Every ASTC format without HDR comes back from its constant. */
  lemma AstcFormatsBack(f: TextureFormat)
    requires f.Astc? && !f.channel.Hdr?
    ensures ToNativeTextureFormat(f).Some? && MapTextureFormat(ToNativeTextureFormat(f).value) == Some(f)
  {
  }

  /** The constants of the ASTC 4x4 and 5x4 formats come back from `to_native_texture_format`. */
  lemma Astc4x4And5x4FromNative(c: int)
    requires 67 <= c <= 70
    ensures MapTextureFormat(c).Some? && ToNativeTextureFormat(MapTextureFormat(c).value) == Some(c)
  {
    match c case 67 => case 68 => case 69 => case 70 =>
  }

  /** The constants of the ASTC 5x5 and 6x5 formats come back from `to_native_texture_format`. */
  lemma Astc5x5And6x5FromNative(c: int)
    requires 71 <= c <= 74
    ensures MapTextureFormat(c).Some? && ToNativeTextureFormat(MapTextureFormat(c).value) == Some(c)
  {
    match c case 71 => case 72 => case 73 => case 74 =>
  }

  /** The constants of the ASTC 6x6 and 8x5 formats come back from `to_native_texture_format`. */
  lemma Astc6x6And8x5FromNative(c: int)
    requires 75 <= c <= 78
    ensures MapTextureFormat(c).Some? && ToNativeTextureFormat(MapTextureFormat(c).value) == Some(c)
  {
    match c case 75 => case 76 => case 77 => case 78 =>
  }

  /** The constants of the ASTC 8x6 and 8x8 formats come back from `to_native_texture_format`. */
  lemma Astc8x6And8x8FromNative(c: int)
    requires 79 <= c <= 82
    ensures MapTextureFormat(c).Some? && ToNativeTextureFormat(MapTextureFormat(c).value) == Some(c)
  {
    match c case 79 => case 80 => case 81 => case 82 =>
  }

  /** The constants of the ASTC 10x5 and 10x6 formats come back from `to_native_texture_format`. */
  lemma Astc10x5And10x6FromNative(c: int)
    requires 83 <= c <= 86
    ensures MapTextureFormat(c).Some? && ToNativeTextureFormat(MapTextureFormat(c).value) == Some(c)
  {
    match c case 83 => case 84 => case 85 => case 86 =>
  }

  /** The constants of the ASTC 10x8 and 10x10 formats come back from `to_native_texture_format`. */
  lemma Astc10x8And10x10FromNative(c: int)
    requires 87 <= c <= 90
    ensures MapTextureFormat(c).Some? && ToNativeTextureFormat(MapTextureFormat(c).value) == Some(c)
  {
    match c case 87 => case 88 => case 89 => case 90 =>
  }

  /** The constants of the ASTC 12x10 and 12x12 formats come back from `to_native_texture_format`. */
  lemma Astc12x10And12x12FromNative(c: int)
    requires 91 <= c <= 94
    ensures MapTextureFormat(c).Some? && ToNativeTextureFormat(MapTextureFormat(c).value) == Some(c)
  {
    match c case 91 => case 92 => case 93 => case 94 =>
  }
}

=== FILE: dicts.dfy ===
/** Python dictionaries as the integrity script fills them: a loop that assigns
    `d[k] = v` for some of the items it visits, so that the last assignment to
    a key wins, and, where iteration order matters, insertion order. */
module Dicts {
  import opened Wrappers

  /** The dict built by visiting `os` in order and assigning `d[k] = v` for each
      `Some((k, v))`; a `None` is an item the loop assigns nothing for. */
  function Assign<K(!new), V>(os: seq<Option<(K, V)>>): (m: map<K, V>)
    ensures forall k :: k in m <==> exists i :: 0 <= i < |os| && os[i].Some? && os[i].value.0 == k
    ensures forall k :: k in m ==> exists i :: 0 <= i < |os| && os[i] == Some((k, m[k]))
    decreases |os|
  {
    if |os| == 0 then map[]
    else
      var init := os[..|os| - 1];
      assert forall i :: 0 <= i < |init| ==> init[i] == os[i];
      var m0 := Assign(init);
      match os[|os| - 1]
      case None => m0
      case Some(kv) => m0[kv.0 := kv.1]
  }

  /** Item `i` assigns a key that no later item assigns again. */
  predicate LastFor<K(==), V>(os: seq<Option<(K, V)>>, i: int)
    requires 0 <= i < |os|
  {
    os[i].Some? && forall j :: i < j < |os| && os[j].Some? ==> os[j].value.0 != os[i].value.0
  }

  /** The last assignment to a key is the one the dict keeps. */
  lemma {:induction false} LastAssignmentWins<K(!new), V>(os: seq<Option<(K, V)>>, i: nat)
    requires i < |os| && LastFor(os, i)
    ensures os[i].value.0 in Assign(os) && Assign(os)[os[i].value.0] == os[i].value.1
    decreases |os|
  {
    if i < |os| - 1 {
      var init := os[..|os| - 1];
      assert init[i] == os[i];
      assert LastFor(init, i) by {
        forall j | i < j < |init| && init[j].Some? ensures init[j].value.0 != init[i].value.0 {
          assert init[j] == os[j];
        }
      }
      LastAssignmentWins(init, i);
    }
  }

  /** Every pair is an assignment. */
  function Somes<K, V>(ps: seq<(K, V)>): (os: seq<Option<(K, V)>>)
    ensures |os| == |ps| && forall i :: 0 <= i < |ps| ==> os[i] == Some(ps[i])
  {
    seq(|ps|, i requires 0 <= i < |ps| => Some(ps[i]))
  }

  /** What a loop over `xs` assigns, item by item, when it assigns `g(x)`. */
  function Entries<A, K, V>(xs: seq<A>, g: A -> Option<(K, V)>): (os: seq<Option<(K, V)>>)
    ensures |os| == |xs| && forall i :: 0 <= i < |xs| ==> os[i] == g(xs[i])
  {
    seq(|xs|, i requires 0 <= i < |xs| => g(xs[i]))
  }

  /** Item `i` of `xs` assigns a key that no later item assigns again. */
  predicate LastEntry<A, K(==), V>(xs: seq<A>, g: A -> Option<(K, V)>, i: int)
    requires 0 <= i < |xs|
  {
    g(xs[i]).Some? && forall j :: i < j < |xs| && g(xs[j]).Some? ==> g(xs[j]).value.0 != g(xs[i]).value.0
  }

  /** The dict a loop assigning `g(x)` for each `x` of `xs` builds: exactly the
      keys some item assigns, each with the value of the last item assigning it. */
  lemma AssignEntries<A, K(!new), V>(xs: seq<A>, g: A -> Option<(K, V)>)
    ensures var m := Assign(Entries(xs, g));
      && (forall k :: k in m <==> exists i :: 0 <= i < |xs| && g(xs[i]).Some? && g(xs[i]).value.0 == k)
      && (forall k :: k in m ==> exists i :: 0 <= i < |xs| && g(xs[i]) == Some((k, m[k])))
      && (forall i :: 0 <= i < |xs| && LastEntry(xs, g, i) ==> m[g(xs[i]).value.0] == g(xs[i]).value.1)
  {
    var os := Entries(xs, g);
    forall i | 0 <= i < |xs| && LastEntry(xs, g, i)
      ensures Assign(os)[g(xs[i]).value.0] == g(xs[i]).value.1
    {
      assert LastFor(os, i);
      LastAssignmentWins(os, i);
    }
  }

  /** The dict a loop builds from the results of `f` over `xs` when no call
      fails: exactly the keys of the results, each with the value of the last
      result of that key. */
  lemma AssignAllOk<A, K(!new), V, E>(xs: seq<A>, f: A -> Result<(K, V), E>)
    requires AllOk(xs, f).Ok?
    ensures var m := Assign(Somes(AllOk(xs, f).value));
      && (forall k :: k in m <==> exists i :: 0 <= i < |xs| && f(xs[i]).value.0 == k)
      && (forall i :: (0 <= i < |xs| && forall j :: i < j < |xs| ==> f(xs[j]).value.0 != f(xs[i]).value.0)
                      ==> m[f(xs[i]).value.0] == f(xs[i]).value.1)
  {
    var vs := AllOk(xs, f).value;
    var os := Somes(vs);
    forall k ensures k in Assign(os) <==> exists i :: 0 <= i < |xs| && f(xs[i]).value.0 == k {
      if exists i :: 0 <= i < |xs| && f(xs[i]).value.0 == k {
        var i :| 0 <= i < |xs| && f(xs[i]).value.0 == k;
        assert os[i].value.0 == k;
      }
    }
    forall i | 0 <= i < |xs| && forall j :: i < j < |xs| ==> f(xs[j]).value.0 != f(xs[i]).value.0
      ensures Assign(os)[f(xs[i]).value.0] == f(xs[i]).value.1
    {
      assert LastFor(os, i);
      LastAssignmentWins(os, i);
    }
  }

  /** `AssignAllOk` for one result: a result whose key no later result has is
      the value the dict keeps. */
  lemma AllOkLastWins<A, K(!new), V, E>(xs: seq<A>, f: A -> Result<(K, V), E>, i: nat)
    requires AllOk(xs, f).Ok? && i < |xs|
    requires forall j :: i < j < |xs| ==> f(xs[j]).value.0 != f(xs[i]).value.0
    ensures var m := Assign(Somes(AllOk(xs, f).value));
      f(xs[i]).value.0 in m && m[f(xs[i]).value.0] == f(xs[i]).value.1
  {
    var os := Somes(AllOk(xs, f).value);
    assert LastFor(os, i);
    LastAssignmentWins(os, i);
  }

  /** A dict with insertion order: `keys` lists every key once, in the order of
      first insertion. */
  datatype OrderedDict<K(!new), V> = OrderedDict(keys: seq<K>, entries: map<K, V>)
  {
    ghost predicate Valid() {
      && (forall i, j :: 0 <= i < j < |keys| ==> keys[i] != keys[j])
      && (forall k :: k in entries <==> k in keys)
    }
  }

  /** `Assign` on an insertion-ordered dict: the same entries, and a key
      assigned again keeps the place of its first assignment. */
  function AssignOrdered<K(!new), V>(os: seq<Option<(K, V)>>): (d: OrderedDict<K, V>)
    ensures d.Valid()
    ensures d.entries == Assign(os)
    decreases |os|
  {
    if |os| == 0 then OrderedDict([], map[])
    else
      var init := os[..|os| - 1];
      assert forall i :: 0 <= i < |init| ==> init[i] == os[i];
      var d0 := AssignOrdered(init);
      match os[|os| - 1]
      case None => d0
      case Some(kv) =>
        if kv.0 in d0.entries then OrderedDict(d0.keys, d0.entries[kv.0 := kv.1])
        else OrderedDict(d0.keys + [kv.0], d0.entries[kv.0 := kv.1])
  }

  /** Keys are listed in the order of their first assignment: the key listed
      first is assigned before the other is assigned at all. */
  lemma {:induction false} FirstAssignmentOrder<K(!new), V>(os: seq<Option<(K, V)>>, a: nat, b: nat)
    requires a < b < |AssignOrdered(os).keys|
    ensures exists i :: (0 <= i < |os| && os[i].Some? && os[i].value.0 == AssignOrdered(os).keys[a] &&
                         forall j :: 0 <= j <= i && os[j].Some? ==> os[j].value.0 != AssignOrdered(os).keys[b])
    decreases |os|
  {
    var init := os[..|os| - 1];
    if b < |AssignOrdered(init).keys| {
      FirstAssignmentOrder(init, a, b);
      EarlierKeys(os, a, b);
    } else {
      NewestKey(os, a, b);
    }
  }

  /** Both keys were already listed before the last item: the order carries over. */
  lemma EarlierKeys<K(!new), V>(os: seq<Option<(K, V)>>, a: nat, b: nat)
    requires |os| > 0
    requires var init := os[..|os| - 1];
      && a < b < |AssignOrdered(init).keys|
      && exists i :: (0 <= i < |init| && init[i].Some? && init[i].value.0 == AssignOrdered(init).keys[a] &&
                      forall j :: 0 <= j <= i && init[j].Some? ==> init[j].value.0 != AssignOrdered(init).keys[b])
    ensures b < |AssignOrdered(os).keys|
    ensures exists i :: (0 <= i < |os| && os[i].Some? && os[i].value.0 == AssignOrdered(os).keys[a] &&
                         forall j :: 0 <= j <= i && os[j].Some? ==> os[j].value.0 != AssignOrdered(os).keys[b])
  {
    var init := os[..|os| - 1];
    var d := AssignOrdered(os);
    var d0 := AssignOrdered(init);
    assert forall i :: 0 <= i < |init| ==> init[i] == os[i];
    assert d.keys[..|d0.keys|] == d0.keys;
    assert d.keys[a] == d0.keys[a] && d.keys[b] == d0.keys[b];
    var i :| 0 <= i < |init| && init[i].Some? && init[i].value.0 == d0.keys[a] &&
      forall j :: 0 <= j <= i && init[j].Some? ==> init[j].value.0 != d0.keys[b];
    assert os[i] == init[i];
  }

  /** The later key was first assigned by the last item, after every other. */
  lemma NewestKey<K(!new), V>(os: seq<Option<(K, V)>>, a: nat, b: nat)
    requires |os| > 0
    requires a < b < |AssignOrdered(os).keys|
    requires b >= |AssignOrdered(os[..|os| - 1]).keys|
    ensures exists i :: (0 <= i < |os| && os[i].Some? && os[i].value.0 == AssignOrdered(os).keys[a] &&
                         forall j :: 0 <= j <= i && os[j].Some? ==> os[j].value.0 != AssignOrdered(os).keys[b])
  {
    var d := AssignOrdered(os);
    var init := os[..|os| - 1];
    var d0 := AssignOrdered(init);
    assert forall i :: 0 <= i < |init| ==> init[i] == os[i];
    assert d.keys == d0.keys + [d.keys[b]];
    assert d.keys[a] == d0.keys[a] && d.keys[a] in d0.entries;
    var i :| 0 <= i < |init| && init[i].Some? && init[i].value.0 == d.keys[a];
    forall j | 0 <= j <= i && os[j].Some? ensures os[j].value.0 != d.keys[b] {
      assert os[j] == init[j];
      assert d.keys[b] !in d0.entries;
    }
  }
}

=== FILE: header.dfy ===
/** What the integrity script reads out of the C header `webgpu.h`: the
    pointer arguments of every exported function (`collect_function_args`) and
    the fields of every flat struct (`collect_structs`).  Both collectors work on
    the header text after `remove_c_comments`. */
module Header {
  import opened Wrappers
  import opened PyStr
  import opened Dicts
  import opened Comments

  /** An uncaught `IndexError` in the script; Python then exits with status 1. */
  datatype Crash = IndexError(where: string)

  // ---------------------------------------------------------------- functions

  /** A header line that declares an exported function. */
  predicate IsExport(line: string) {
    StartsWith(line, "WGPU_EXPORT")
  }

  /** The function name: the last space-separated piece before the first `(`. */
  function ExportName(line: string): string {
    Last(SplitOn(SplitOn(line, '(')[0], ' '))
  }

  /** The stripped, comma-separated arguments between the first `(` and the
      last `)` of the line. */
  function ExportArgs(line: string): (args: seq<string>)
    ensures |args| >= 1
  {
    var inner := RPartitionBefore(PartitionAfter(line, "("), ")");
    var pieces := SplitOn(inner, ',');
    seq(|pieces|, i requires 0 <= i < |pieces| => Strip(pieces[i]))
  }

  /** An argument the script records: its C text contains a `*`. */
  predicate IsPointer(arg: string) {
    '*' in arg
  }

  /** The key of a pointer argument: its last whitespace-separated token with
      `_` removed and lower-cased.  A leading `*` of that token is kept. */
  function ArgKey(arg: string): string
    requires IsPointer(arg)
  {
    var ws := Words(arg);
    assert |ws| > 0 by {
      WordsSpec(arg);
      var j :| 0 <= j < |arg| && arg[j] == '*';
      assert !IsSpace(arg[j]);
    }
    Normalize(Last(ws))
  }

  /** What the argument loop assigns for one argument: a pointer argument
      under its key, nothing for any other. */
  function PointerEntry(arg: string): Option<(string, string)> {
    if IsPointer(arg) then Some((ArgKey(arg), arg)) else None
  }

  /** The pointer arguments of one declaration, by key; a later argument with
      the same key replaces an earlier one. */
  function PointerArgs(args: seq<string>): map<string, string> {
    Assign(Entries(args, PointerEntry))
  }

  /** What the line loop assigns for one header line: an exported function
      under its name, nothing for any other line. */
  function ExportEntry(line: string): Option<(string, map<string, string>)> {
    if IsExport(line) then Some((ExportName(line), PointerArgs(ExportArgs(line)))) else None
  }

  /** The lines the function collector visits: the header without comments,
      split at line boundaries. */
  function HeaderLines(header: string): seq<string> {
    SplitLines(RemoveCComments(header))
  }

  /** The loop of `collect_function_args` over `lines`: function name to its
      pointer arguments, in order of first declaration. */
  function FunctionsIn(lines: seq<string>): (d: OrderedDict<string, map<string, string>>)
    ensures d.Valid()
  {
    AssignOrdered(Entries(lines, ExportEntry))
  }

  /** `collect_function_args()` on the header text. */
  function CollectFunctionArgs(header: string): (d: OrderedDict<string, map<string, string>>)
    ensures d.Valid()
  {
    FunctionsIn(HeaderLines(header))
  }

  /** The pointer-argument map of a declaration: exactly the keys of its
      pointer arguments, each holding the text of a pointer argument with that
      key, namely the last one. */
  lemma PointerArgsSpec(args: seq<string>)
    ensures var m := PointerArgs(args);
      && (forall k :: k in m <==> exists i :: 0 <= i < |args| && IsPointer(args[i]) && ArgKey(args[i]) == k)
      && (forall k :: k in m ==> m[k] in args && IsPointer(m[k]) && ArgKey(m[k]) == k)
      && (forall i :: 0 <= i < |args| && LastPointerAt(args, i) ==> m[ArgKey(args[i])] == args[i])
  {
    AssignEntries(args, PointerEntry);
    forall i | 0 <= i < |args|
      ensures PointerEntry(args[i]).Some? == IsPointer(args[i])
      ensures IsPointer(args[i]) ==> PointerEntry(args[i]).value == (ArgKey(args[i]), args[i])
    {
    }
    forall i | 0 <= i < |args| ensures LastPointerAt(args, i) == LastEntry(args, PointerEntry, i) {
    }
  }

  /** Argument `i` is a pointer argument and no later pointer argument has its key. */
  predicate LastPointerAt(args: seq<string>, i: int)
    requires 0 <= i < |args|
  {
    IsPointer(args[i]) &&
    forall j :: i < j < |args| && IsPointer(args[j]) ==> ArgKey(args[j]) != ArgKey(args[i])
  }

  /** Line `i` declares a function and no later line declares one of that name. */
  predicate LastExportAt(lines: seq<string>, i: int)
    requires 0 <= i < |lines|
  {
    IsExport(lines[i]) &&
    forall j :: i < j < |lines| && IsExport(lines[j]) ==> ExportName(lines[j]) != ExportName(lines[i])
  }

  /** What the line loop assigns for line `i`, in the script's terms. */
  lemma ExportEntryAt(lines: seq<string>)
    ensures forall i :: 0 <= i < |lines| ==>
      && ExportEntry(lines[i]).Some? == IsExport(lines[i])
      && (IsExport(lines[i]) ==> ExportEntry(lines[i]).value == (ExportName(lines[i]), PointerArgs(ExportArgs(lines[i]))))
      && LastExportAt(lines, i) == LastEntry(lines, ExportEntry, i)
  {
    forall i | 0 <= i < |lines|
      ensures LastExportAt(lines, i) == LastEntry(lines, ExportEntry, i)
    {
    }
  }

  /** The function table has an entry for every `WGPU_EXPORT` line and for
      nothing else. */
  lemma FunctionNames(lines: seq<string>)
    ensures var t := FunctionsIn(lines).entries;
      forall f :: f in t <==> exists i :: 0 <= i < |lines| && IsExport(lines[i]) && ExportName(lines[i]) == f
  {
    assert FunctionsIn(lines).entries == Assign(Entries(lines, ExportEntry));
    AssignEntries(lines, ExportEntry);
    ExportEntryAt(lines);
  }

  /** Each function maps to the pointer arguments of its last declaration. */
  lemma FunctionLastDeclaration(lines: seq<string>)
    ensures var t := FunctionsIn(lines).entries;
      forall i :: 0 <= i < |lines| && LastExportAt(lines, i) ==>
        ExportName(lines[i]) in t && t[ExportName(lines[i])] == PointerArgs(ExportArgs(lines[i]))
  {
    assert FunctionsIn(lines).entries == Assign(Entries(lines, ExportEntry));
    AssignEntries(lines, ExportEntry);
    ExportEntryAt(lines);
  }

  /** The function table has an entry for every `WGPU_EXPORT` line and for
      nothing else, and each function maps to the pointer arguments of its last
      declaration. */
  lemma FunctionTable(lines: seq<string>)
    ensures var t := FunctionsIn(lines).entries;
      && (forall f :: f in t <==> exists i :: 0 <= i < |lines| && IsExport(lines[i]) && ExportName(lines[i]) == f)
      && (forall i :: 0 <= i < |lines| && LastExportAt(lines, i) ==>
            ExportName(lines[i]) in t && t[ExportName(lines[i])] == PointerArgs(ExportArgs(lines[i])))
  {
    FunctionNames(lines);
    FunctionLastDeclaration(lines);
  }

  /** A declaration without any `*` argument still gets an entry, an empty one. */
  lemma NoPointerNoArgs(args: seq<string>)
    requires forall i :: 0 <= i < |args| ==> !IsPointer(args[i])
    ensures PointerArgs(args) == map[]
  {
  }

  /** Argument keys are not star-stripped: when the last token of a pointer
      argument begins with `*` (as in `char *name`), so does its key. */
  lemma {:induction false} ArgKeyKeepsStar(arg: string)
    requires IsPointer(arg)
    requires var ws := Words(arg); |ws| > 0 && |Last(ws)| > 0 && Last(ws)[0] == '*'
    ensures |ArgKey(arg)| > 0 && ArgKey(arg)[0] == '*'
  {
    var t := Last(Words(arg));
    var e := Replace(t, "_", "");
    assert t[..1] != "_" by {
      assert t[..1][0] == '*';
    }
    assert e == [t[0]] + Replace(t[1..], "_", "");
    assert Normalize(t)[0] == LowerChar(e[0]);
  }

  // ---------------------------------------------------------------- structs

  /** A `typedef struct` the script decomposes: the text between `}` and `;`
      (stripped) and the text between the braces. */
  datatype Block = Block(name: string, body: string)

  /** One turn of the scanning loop of `collect_structs`. */
  datatype Step = Stop | Skip(next: int) | Take(next: int, block: Block)

  /** One turn from search position `from`: find `typedef struct`, then `{`,
      `}` and `;`, each from the previous hit (Python's `find`, where -1 as a
      start means the last character).  A struct whose braces enclose another
      `{` is skipped. */
  function StepAt(code: string, from: int): (s: Step)
    requires -1 <= from <= |code|
    ensures !s.Stop? ==> -1 <= s.next <= |code| && FindStart(from, |code|) < FindStart(s.next, |code|)
  {
    var i1 := Find(code, "typedef struct", from);
    var i2 := Find(code, "{", i1);
    var i3 := Find(code, "}", i2);
    var i4 := Find(code, ";", i3);
    if i1 < 0 then Stop
    else
      assert code[i1] == 't' by {
        assert code[i1..i1 + 14][0] == code[i1];
      }
      assert i4 >= 0 ==> code[i4] == ';' by {
        if i4 >= 0 {
          assert code[i4..i4 + 1][0] == code[i4];
        }
      }
      if 0 < Find(code, "{", i2 + 1) < i3 then Skip(i4)
      else Take(i4, Block(Strip(Slice(code, i3 + 1, i4)), Slice(code, i2 + 1, i3)))
  }

  /** The blocks the loop of `collect_structs` decomposes, in order. */
  function Scan(code: string, from: int): seq<Block>
    requires -1 <= from <= |code|
    decreases |code| - FindStart(from, |code|)
  {
    match StepAt(code, from)
    case Stop => []
    case Skip(next) => Scan(code, next)
    case Take(next, b) => [b] + Scan(code, next)
  }

  /** The field statements of a struct body: `body.strip().strip(";").split(";")`. */
  function FieldStatements(body: string): seq<string> {
    SplitOn(StripChar(Strip(body), ';'), ';')
  }

  /** A field key: the last token with `*` stripped from both ends, so that
      `*name` and `name` give the same key. */
  function FieldKey(token: string): (key: string)
    ensures |key| > 0 ==> key[0] != '*' && key[|key| - 1] != '*'
  {
    StripCharEnds(token, '*');
    StripChar(token, '*')
  }

  /** A field type: the tokens before the key, joined by single spaces, with
      every `const ` removed. */
  function FieldType(tokens: seq<string>): string {
    Replace(Join(tokens, " "), "const ", "")
  }

  /** One field statement as (key, type).  A statement without tokens has no
      last token: `parts[-1]` raises. */
  function ParseField(stmt: string): (r: Result<(string, string), Crash>)
    ensures r.Err? <==> Blank(stmt)
    ensures r.Ok? ==> var key := r.value.0;
      |key| > 0 ==> key[0] != '*' && key[|key| - 1] != '*'
  {
    var parts := Words(Strip(stmt));
    StripKeepsContent(stmt);
    WordsSpec(Strip(stmt));
    if |parts| == 0 then Err(IndexError("parts[-1]"))
    else Ok((FieldKey(Last(parts)), FieldType(parts[..|parts| - 1])))
  }

  /** Stripping whitespace leaves only whitespace behind iff there was only
      whitespace to begin with. */
  lemma StripKeepsContent(s: string)
    ensures Blank(Strip(s)) <==> Blank(s)
  {
    var a := LeadCount(s, Whitespace);
    var l := s[a..];
    var b := TrailCount(l, Whitespace);
    var r := l[..|l| - b];
    assert r == Strip(s);
    LeadCountSpec(s, Whitespace);
    TrailCountSpec(l, Whitespace);
    if !Blank(r) {
      var j :| 0 <= j < |r| && !IsSpace(r[j]);
      assert r[j] == s[a + j];
    }
  }

  /** The field loop over the statements of one struct body: the field dict,
      or the crash of the first empty statement. */
  function FieldsOf(stmts: seq<string>): Result<map<string, string>, Crash> {
    match AllOk(stmts, ParseField)
    case Err(e) => Err(e)
    case Ok(fs) => Ok(Assign(Somes(fs)))
  }

  /** The field dict of one struct body. */
  function StructFields(body: string): Result<map<string, string>, Crash> {
    FieldsOf(FieldStatements(body))
  }

  /** A decomposed block as the entry `structs[name] = fields`. */
  function NamedFields(b: Block): Result<(string, map<string, string>), Crash> {
    match StructFields(b.body)
    case Err(e) => Err(e)
    case Ok(fields) => Ok((b.name, fields))
  }

  /** The struct loop over the decomposed blocks: struct name to field dict;
      a struct declared twice keeps its last decomposition. */
  function StructsIn(blocks: seq<Block>): Result<map<string, map<string, string>>, Crash> {
    match AllOk(blocks, NamedFields)
    case Err(e) => Err(e)
    case Ok(pairs) => Ok(Assign(Somes(pairs)))
  }

  /** The blocks `collect_structs` decomposes in the header text. */
  function HeaderBlocks(header: string): seq<Block> {
    Scan(RemoveCComments(header), 0)
  }

  /** `collect_structs()` on the header text. */
  function CollectStructs(header: string): Result<map<string, map<string, string>>, Crash> {
    StructsIn(HeaderBlocks(header))
  }

  /** The struct filter of `collect_structs`: once `typedef struct`, its `{` and
      the following `}` are found, the struct is decomposed iff no `{` lies
      between its braces. */
  lemma FlatStructsOnly(code: string, from: int, i1: int, i2: int, i3: int)
    requires -1 <= from <= |code|
    requires i1 == Find(code, "typedef struct", from) && i1 >= 0
    requires i2 == Find(code, "{", i1) && i2 >= 0
    requires i3 == Find(code, "}", i2) && i3 >= 0
    ensures StepAt(code, from).Take? <==> forall j :: i2 < j < i3 ==> code[j] != '{'
  {
    OccursChar(code, '{', i2);
    OccursChar(code, '}', i3);
    var n := Find(code, "{", i2 + 1);
    assert StepAt(code, from).Take? <==> !(0 < n < i3);
    if n >= 0 {
      OccursChar(code, '{', n);
    }
    if exists j :: i2 < j < i3 && code[j] == '{' {
      var j :| i2 < j < i3 && code[j] == '{';
      assert code[j..j + 1] == "{";
      assert OccursAt(code, "{", j);
      assert 0 <= n <= j;
    }
  }

  /** A decomposed struct's body is the text between its braces and its name
      the stripped text between the `}` and the next `;`. */
  lemma TakenBlock(code: string, from: int, i2: int, i3: int)
    requires -1 <= from <= |code|
    requires var i1 := Find(code, "typedef struct", from);
             i1 >= 0 && i2 == Find(code, "{", i1) && i3 == Find(code, "}", i2)
    requires i2 >= 0 && i3 >= 0
    requires StepAt(code, from).Take?
    ensures var b := StepAt(code, from).block;
      var i4 := Find(code, ";", i3);
      && 0 <= i2 < i3 && b.body == code[i2 + 1..i3]
      && (i4 >= 0 ==> i3 < i4 && b.name == Strip(code[i3 + 1..i4]))
  {
    var i4 := Find(code, ";", i3);
    assert StepAt(code, from).block == Block(Strip(Slice(code, i3 + 1, i4)), Slice(code, i2 + 1, i3));
    OccursChar(code, '{', i2);
    OccursChar(code, '}', i3);
    assert Slice(code, i2 + 1, i3) == code[i2 + 1..i3];
    if i4 >= 0 {
      OccursChar(code, ';', i4);
      assert Slice(code, i3 + 1, i4) == code[i3 + 1..i4];
    }
  }

  /** A one-character find hit is that character. */
  lemma OccursChar(s: string, c: char, i: int)
    requires OccursAt(s, [c], i)
    ensures 0 <= i < |s| && s[i] == c
  {
    assert s[i..i + 1][0] == s[i];
  }

  /** A struct body makes `collect_structs` crash exactly when one of its
      field statements is whitespace only (as in an empty body `{}` or a
      doubled `;;`). */
  lemma EmptyFieldCrashes(stmts: seq<string>)
    ensures FieldsOf(stmts).Err? <==> exists i :: 0 <= i < |stmts| && Blank(stmts[i])
  {
    var r := AllOk(stmts, ParseField);
    assert FieldsOf(stmts).Err? == r.Err?;
    if r.Err? {
      var i :| 0 <= i < |stmts| && ParseField(stmts[i]) == Err(r.error);
      assert Blank(stmts[i]);
    }
  }

  /** `collect_structs` crashes exactly when some decomposed struct body does. */
  lemma CrashIffSomeBody(blocks: seq<Block>)
    ensures StructsIn(blocks).Err? <==> exists k :: 0 <= k < |blocks| && StructFields(blocks[k].body).Err?
  {
    assert StructsIn(blocks).Err? == AllOk(blocks, NamedFields).Err?;
    forall k | 0 <= k < |blocks| ensures NamedFields(blocks[k]).Err? == StructFields(blocks[k].body).Err? {
    }
  }

  /** Block `i` is the last decomposed block of its name. */
  predicate LastBlockAt(blocks: seq<Block>, i: int)
    requires 0 <= i < |blocks|
  {
    forall j :: i < j < |blocks| ==> blocks[j].name != blocks[i].name
  }

  /** What the struct loop assigns for a block that decomposes. */
  lemma NamedFieldsOk(b: Block)
    requires NamedFields(b).Ok?
    ensures StructFields(b.body).Ok? && NamedFields(b).value == (b.name, StructFields(b.body).value)
  {
  }

  /** Without a crash, the struct table has exactly the names of the
      decomposed blocks. */
  lemma StructNames(blocks: seq<Block>)
    requires StructsIn(blocks).Ok?
    ensures forall name :: name in StructsIn(blocks).value <==> exists i :: 0 <= i < |blocks| && blocks[i].name == name
  {
    var r := AllOk(blocks, NamedFields);
    assert StructsIn(blocks).value == Assign(Somes(r.value));
    AssignAllOk(blocks, NamedFields);
    forall i | 0 <= i < |blocks| ensures NamedFields(blocks[i]).value.0 == blocks[i].name {
      assert NamedFields(blocks[i]) == Ok(r.value[i]);
      NamedFieldsOk(blocks[i]);
    }
  }

  /** Without a crash, each struct name maps to the fields of its last block. */
  lemma StructLastBlock(blocks: seq<Block>)
    requires StructsIn(blocks).Ok?
    ensures forall i :: 0 <= i < |blocks| && LastBlockAt(blocks, i) ==>
      blocks[i].name in StructsIn(blocks).value &&
      StructsIn(blocks).value[blocks[i].name] == StructFields(blocks[i].body).value
  {
    var r := AllOk(blocks, NamedFields);
    var t := StructsIn(blocks).value;
    assert t == Assign(Somes(r.value));
    forall i | 0 <= i < |blocks| && LastBlockAt(blocks, i)
      ensures blocks[i].name in t && t[blocks[i].name] == StructFields(blocks[i].body).value
    {
      forall j | i < j < |blocks| ensures NamedFields(blocks[j]).value.0 != NamedFields(blocks[i]).value.0 {
        assert NamedFields(blocks[j]) == Ok(r.value[j]);
        NamedFieldsOk(blocks[j]);
      }
      assert NamedFields(blocks[i]) == Ok(r.value[i]);
      NamedFieldsOk(blocks[i]);
      AllOkLastWins(blocks, NamedFields, i);
    }
  }

  /** Without a crash, the struct table has exactly the names of the
      decomposed blocks, and each name maps to the fields of its last block. */
  lemma StructTable(blocks: seq<Block>)
    requires StructsIn(blocks).Ok?
    ensures var t := StructsIn(blocks).value;
      && (forall name :: name in t <==> exists i :: 0 <= i < |blocks| && blocks[i].name == name)
      && (forall i :: 0 <= i < |blocks| && LastBlockAt(blocks, i) ==>
            blocks[i].name in t && t[blocks[i].name] == StructFields(blocks[i].body).value)
  {
    StructNames(blocks);
    StructLastBlock(blocks);
  }

  /** Without a crash, a struct's field dict has exactly the keys of its
      statements, each with the type of its last statement of that key. */
  lemma FieldTable(stmts: seq<string>)
    requires FieldsOf(stmts).Ok?
    ensures var t := FieldsOf(stmts).value;
      && (forall key :: key in t <==> exists i :: 0 <= i < |stmts| && ParseField(stmts[i]).value.0 == key)
      && (forall i :: (0 <= i < |stmts| &&
                       forall j :: i < j < |stmts| ==> ParseField(stmts[j]).value.0 != ParseField(stmts[i]).value.0)
            ==> t[ParseField(stmts[i]).value.0] == ParseField(stmts[i]).value.1)
  {
    assert FieldsOf(stmts).value == Assign(Somes(AllOk(stmts, ParseField).value));
    AssignAllOk(stmts, ParseField);
  }
}

=== FILE: ints.dfy ===
/** The machine integers of the native interface, as ranges of `int`. */
module Ints {
  const U32_LIMIT := 0x1_0000_0000
  const U64_LIMIT := 0x1_0000_0000_0000_0000

  /** `uint32_t` / `u32`. */
  newtype u32 = x: int | 0 <= x < U32_LIMIT

  /** `uint64_t` / `u64`, and `size_t` / `usize` on a 64-bit target. */
  newtype u64 = x: int | 0 <= x < U64_LIMIT

  /** Rust's `as u32` on a `u64`: the low 32 bits. */
  function TruncateU32(x: u64): (r: u32)
    ensures (r as int) % U32_LIMIT == (x as int) % U32_LIMIT
    ensures (x as int) < U32_LIMIT ==> r as int == x as int
  {
    ((x as int) % U32_LIMIT) as u32
  }
}

=== FILE: pystr.dfy ===
/** The Python `str` operations the integrity script relies on, with Python's own
    semantics: `find` with a negative start counts from the end, slices clamp
    their bounds, `split()` splits on runs of Unicode whitespace, `split(sep)`
    keeps empty pieces, `splitlines()` knows every Python line boundary. */
module PyStr {

  /** The characters Python's `str.isspace` accepts: what `split()` and
      `strip()` drop. */
  const SpaceChars: set<char> := {
      '\U{9}', '\U{A}', '\U{B}', '\U{C}', '\U{D}', '\U{1C}', '\U{1D}', '\U{1E}',
      '\U{1F}', '\U{20}', '\U{85}', '\U{A0}', '\U{1680}', '\U{2000}', '\U{2001}', '\U{2002}',
      '\U{2003}', '\U{2004}', '\U{2005}', '\U{2006}', '\U{2007}', '\U{2008}', '\U{2009}', '\U{200A}',
      '\U{2028}', '\U{2029}', '\U{202F}', '\U{205F}', '\U{3000}'
    }

  predicate IsSpace(c: char) {
    c in SpaceChars
  }

  /** ASCII letters are not whitespace. */
  lemma LetterNotSpace(c: char)
    requires 'a' <= c <= 'z' || 'A' <= c <= 'Z'
    ensures !IsSpace(c)
  {
  }

  /** The line boundaries of `str.splitlines` (`\r\n` also counts as one boundary). */
  const LineBoundaries: set<char> := {
      '\U{A}', '\U{B}', '\U{C}', '\U{D}', '\U{1C}', '\U{1D}', '\U{1E}', '\U{85}', '\U{2028}', '\U{2029}'
    }

  predicate IsLineBoundary(c: char) {
    c in LineBoundaries
  }

  function Last<T>(xs: seq<T>): T
    requires |xs| > 0
  {
    xs[|xs| - 1]
  }

  predicate StartsWith(s: string, prefix: string) {
    |prefix| <= |s| && s[..|prefix|] == prefix
  }

  predicate EndsWith(s: string, suffix: string) {
    |suffix| <= |s| && s[|s| - |suffix|..] == suffix
  }

  /** `sub` occurs in `s` starting at index `i`. */
  predicate OccursAt(s: string, sub: string, i: int) {
    0 <= i && i + |sub| <= |s| && s[i..i + |sub|] == sub
  }

  // ---------------------------------------------------------------- find

  /** Where `str.find(sub, start)` begins to look: a negative start counts
      from the end of the text and is clamped at 0. */
  function FindStart(start: int, n: nat): nat {
    if start >= 0 then start else if start + n >= 0 then start + n else 0
  }

  function FindFrom(s: string, sub: string, k: nat): (r: int)
    requires k <= |s|
    ensures r == -1 || (k <= r && OccursAt(s, sub, r))
    ensures r != -1 ==> forall j :: k <= j < r ==> !OccursAt(s, sub, j)
    ensures r == -1 ==> forall j :: k <= j ==> !OccursAt(s, sub, j)
    decreases |s| - k
  {
    if k + |sub| > |s| then -1
    else if s[k..k + |sub|] == sub then k
    else FindFrom(s, sub, k + 1)
  }

  /** Python's `s.find(sub, start)`: the lowest index at or after the
      (normalised) start where `sub` occurs, or -1. */
  function Find(s: string, sub: string, start: int): (r: int)
    ensures r == -1 || (FindStart(start, |s|) <= r && OccursAt(s, sub, r))
  {
    var k := FindStart(start, |s|);
    if k > |s| then -1 else FindFrom(s, sub, k)
  }

  /** `find` returns the first occurrence from the start: none lies between
      the start and the result, and none at all after the start when the
      result is -1. */
  lemma FindFirst(s: string, sub: string, start: int)
    ensures var r := Find(s, sub, start);
      && (r != -1 ==> forall j :: FindStart(start, |s|) <= j < r ==> !OccursAt(s, sub, j))
      && (r == -1 ==> forall j :: FindStart(start, |s|) <= j ==> !OccursAt(s, sub, j))
  {
  }

  function RFindUpTo(s: string, sub: string, k: int): (r: int)
    ensures r == -1 || (0 <= r <= k && OccursAt(s, sub, r))
    ensures forall j :: r < j <= k ==> !OccursAt(s, sub, j)
    decreases k + 1
  {
    if k < 0 then -1
    else if OccursAt(s, sub, k) then k
    else RFindUpTo(s, sub, k - 1)
  }

  /** Python's `s.rfind(sub)`: the highest index where `sub` occurs, or -1. */
  function RFind(s: string, sub: string): (r: int)
    ensures r == -1 || OccursAt(s, sub, r)
    ensures forall j :: r < j ==> !OccursAt(s, sub, j)
  {
    RFindUpTo(s, sub, |s| - |sub|)
  }

  /** `s.partition(sep)[0]`: the text before the first `sep`, or all of `s`. */
  function PartitionBefore(s: string, sep: string): string {
    var i := Find(s, sep, 0);
    if i < 0 then s else s[..i]
  }

  /** `s.partition(sep)[2]`: the text after the first `sep`, or "" without one. */
  function PartitionAfter(s: string, sep: string): string {
    var i := Find(s, sep, 0);
    if i < 0 then "" else s[i + |sep|..]
  }

  /** `s.rpartition(sep)[0]`: the text before the last `sep`, or "" without one. */
  function RPartitionBefore(s: string, sep: string): string {
    var i := RFind(s, sep);
    if i < 0 then "" else s[..i]
  }

  // ---------------------------------------------------------------- slicing

  /** How a Python slice bound is normalised against a text of length `n`. */
  function Clamp(i: int, n: nat): (r: nat)
    ensures r <= n
  {
    if i < 0 then (if i + n < 0 then 0 else i + n)
    else if i > n then n
    else i
  }

  /** Python's `s[a:b]`. */
  function Slice(s: string, a: int, b: int): string {
    var lo := Clamp(a, |s|);
    var hi := Clamp(b, |s|);
    if hi <= lo then "" else s[lo..hi]
  }

  // ---------------------------------------------------------------- strip

  /** The characters a strip drops: whitespace for `strip()`, one given
      character for `strip(c)`. */
  datatype StripSet = Whitespace | Only(c: char)

  predicate Drops(w: StripSet, c: char) {
    match w
    case Whitespace => IsSpace(c)
    case Only(d) => c == d
  }

  /** Length of the leading run of dropped characters (see `LeadCountSpec`). */
  function LeadCount(s: string, w: StripSet): (k: nat)
    ensures k <= |s|
    decreases |s|
  {
    if |s| > 0 && Drops(w, s[0]) then 1 + LeadCount(s[1..], w) else 0
  }

  /** Length of the trailing run of dropped characters (see `TrailCountSpec`). */
  function TrailCount(s: string, w: StripSet): (k: nat)
    ensures k <= |s|
    decreases |s|
  {
    if |s| > 0 && Drops(w, s[|s| - 1]) then 1 + TrailCount(s[..|s| - 1], w) else 0
  }

  /** The leading run is maximal: every character in it is dropped, the one
      after it is not. */
  lemma {:induction false} LeadCountSpec(s: string, w: StripSet)
    ensures var k := LeadCount(s, w);
      && (k < |s| ==> !Drops(w, s[k]))
      && (forall j :: 0 <= j < k ==> Drops(w, s[j]))
    decreases |s|
  {
    if |s| > 0 && Drops(w, s[0]) {
      LeadCountSpec(s[1..], w);
      var k := LeadCount(s, w);
      forall j | 1 <= j < k ensures Drops(w, s[j]) {
        assert s[j] == s[1..][j - 1];
      }
      if k < |s| {
        assert s[k] == s[1..][k - 1];
      }
    }
  }

  /** The trailing run is maximal: every character in it is dropped, the one
      before it is not. */
  lemma {:induction false} TrailCountSpec(s: string, w: StripSet)
    ensures var k := TrailCount(s, w);
      && (k < |s| ==> !Drops(w, s[|s| - 1 - k]))
      && (forall j :: |s| - k <= j < |s| ==> Drops(w, s[j]))
    decreases |s|
  {
    if |s| > 0 && Drops(w, s[|s| - 1]) {
      var init := s[..|s| - 1];
      TrailCountSpec(init, w);
      var k := TrailCount(s, w);
      forall j | |s| - k <= j < |s| - 1 ensures Drops(w, s[j]) {
        assert s[j] == init[j];
      }
      if k < |s| {
        assert s[|s| - 1 - k] == init[|init| - 1 - (k - 1)];
      }
    }
  }

  /** `s.lstrip(...)`. */
  function LStrip(s: string, w: StripSet): string {
    s[LeadCount(s, w)..]
  }

  /** `s.rstrip(...)`. */
  function RStrip(s: string, w: StripSet): string {
    s[..|s| - TrailCount(s, w)]
  }

  /** `s.strip()`. */
  function Strip(s: string): string {
    RStrip(LStrip(s, Whitespace), Whitespace)
  }

  /** `s.strip(c)` for a one-character argument. */
  function StripChar(s: string, c: char): string {
    RStrip(LStrip(s, Only(c)), Only(c))
  }

  /** Neither end of `s.strip(c)` is `c`. */
  lemma StripCharEnds(s: string, c: char)
    ensures var r := StripChar(s, c); |r| > 0 ==> r[0] != c && r[|r| - 1] != c
  {
    var l := LStrip(s, Only(c));
    var r := RStrip(l, Only(c));
    LeadCountSpec(s, Only(c));
    TrailCountSpec(l, Only(c));
    if |r| > 0 {
      assert r[0] == l[0];
      assert r[|r| - 1] == l[|l| - 1 - TrailCount(l, Only(c))];
    }
  }

  // ---------------------------------------------------------------- split

  /** Length of the leading run of non-whitespace characters. */
  function WordEnd(s: string): (k: nat)
    ensures k <= |s|
  {
    if |s| == 0 || IsSpace(s[0]) then 0 else 1 + WordEnd(s[1..])
  }

  lemma {:induction false} WordEndSpec(s: string)
    ensures var k := WordEnd(s);
      && (forall j :: 0 <= j < k ==> !IsSpace(s[j]))
      && (k < |s| ==> IsSpace(s[k]))
    decreases |s|
  {
    if |s| > 0 && !IsSpace(s[0]) {
      WordEndSpec(s[1..]);
      var k := WordEnd(s);
      forall j | 1 <= j < k ensures !IsSpace(s[j]) {
        assert s[j] == s[1..][j - 1];
      }
      if k < |s| {
        assert s[k] == s[1..][k - 1];
      }
    }
  }

  /** A text with nothing but whitespace in it (the empty text included). */
  predicate Blank(s: string) {
    forall j :: 0 <= j < |s| ==> IsSpace(s[j])
  }

  /** `s.split()`: the maximal runs of non-whitespace characters, in order
      (see `WordsSpec`). */
  function Words(s: string): seq<string>
    decreases |s|
  {
    if |s| == 0 then []
    else if IsSpace(s[0]) then Words(s[1..])
    else
      var k := WordEnd(s);
      [s[..k]] + Words(s[k..])
  }

  /** A leading run of `k` non-whitespace characters ended by whitespace or
      by the end of the text is the first word. */
  lemma {:induction false} WordsStep(s: string, k: nat)
    requires 0 < k <= |s|
    requires forall j :: 0 <= j < k ==> !IsSpace(s[j])
    requires k == |s| || IsSpace(s[k])
    ensures Words(s) == [s[..k]] + Words(s[k..])
  {
    WordEndIs(s, k);
  }

  lemma {:induction false} WordEndIs(s: string, k: nat)
    requires k <= |s|
    requires forall j :: 0 <= j < k ==> !IsSpace(s[j])
    requires k == |s| || IsSpace(s[k])
    ensures WordEnd(s) == k
    decreases k
  {
    if k > 0 {
      WordEndIs(s[1..], k - 1);
    }
  }

  /** The words of a text are non-empty and free of whitespace, and there are
      none exactly when the text is all whitespace. */
  lemma {:induction false} WordsSpec(s: string)
    ensures var r := Words(s);
      && (forall k :: 0 <= k < |r| ==> |r[k]| > 0)
      && (forall k, j :: 0 <= k < |r| && 0 <= j < |r[k]| ==> !IsSpace(r[k][j]))
      && (|r| == 0 <==> Blank(s))
    decreases |s|
  {
    if |s| == 0 {
    } else if IsSpace(s[0]) {
      WordsSpec(s[1..]);
      if forall j :: 0 <= j < |s[1..]| ==> IsSpace(s[1..][j]) {
        forall j | 0 < j < |s| ensures IsSpace(s[j]) {
          assert s[j] == s[1..][j - 1];
        }
      }
    } else {
      var k := WordEnd(s);
      WordEndSpec(s);
      WordsSpec(s[k..]);
      var r := Words(s);
      assert r == [s[..k]] + Words(s[k..]);
      forall i, j | 0 <= i < |r| && 0 <= j < |r[i]| ensures !IsSpace(r[i][j]) {
        if i > 0 {
          assert r[i] == Words(s[k..])[i - 1];
        } else {
          assert r[0][j] == s[j];
        }
      }
      forall i | 0 <= i < |r| ensures |r[i]| > 0 {
        if i > 0 {
          assert r[i] == Words(s[k..])[i - 1];
        }
      }
    }
  }

  /** Index of the first `c` in `s`, or `|s|`. */
  function IndexOf(s: string, c: char): (i: nat)
    ensures i <= |s|
    ensures i < |s| ==> s[i] == c
  {
    if |s| == 0 || s[0] == c then 0 else 1 + IndexOf(s[1..], c)
  }

  lemma {:induction false} IndexOfFirst(s: string, c: char)
    ensures forall j :: 0 <= j < IndexOf(s, c) ==> s[j] != c
    decreases |s|
  {
    if |s| > 0 && s[0] != c {
      IndexOfFirst(s[1..], c);
      forall j | 1 <= j < IndexOf(s, c) ensures s[j] != c {
        assert s[j] == s[1..][j - 1];
      }
    }
  }

  /** `sep.join(parts)`. */
  function Join(parts: seq<string>, sep: string): string
    decreases |parts|
  {
    if |parts| == 0 then ""
    else if |parts| == 1 then parts[0]
    else parts[0] + sep + Join(parts[1..], sep)
  }

  /** `s.split(c)` for a one-character separator: never empty, keeps empty
      pieces (see `SplitOnSpec`). */
  function SplitOn(s: string, c: char): (r: seq<string>)
    ensures |r| >= 1
    decreases |s|
  {
    var i := IndexOf(s, c);
    if i == |s| then [s]
    else [s[..i]] + SplitOn(s[i + 1..], c)
  }

  /** The pieces of `s.split(c)` contain no `c`, and joining them with `c`
      gives `s` back. */
  lemma {:induction false} SplitOnSpec(s: string, c: char)
    ensures var r := SplitOn(s, c);
      && (forall k, j :: 0 <= k < |r| && 0 <= j < |r[k]| ==> r[k][j] != c)
      && Join(r, [c]) == s
    decreases |s|
  {
    var i := IndexOf(s, c);
    IndexOfFirst(s, c);
    if i < |s| {
      var rest := SplitOn(s[i + 1..], c);
      SplitOnSpec(s[i + 1..], c);
      var r := SplitOn(s, c);
      assert r == [s[..i]] + rest;
      assert r[1..] == rest;
      assert Join(r, [c]) == s[..i] + [c] + Join(rest, [c]);
      assert s == s[..i] + [c] + s[i + 1..];
      forall k, j | 0 <= k < |r| && 0 <= j < |r[k]| ensures r[k][j] != c {
        if k > 0 {
          assert r[k] == rest[k - 1];
        }
      }
    }
  }

  /** Length of the leading run of characters that are not line boundaries. */
  function LineEnd(s: string): (k: nat)
    ensures k <= |s|
    ensures k < |s| ==> IsLineBoundary(s[k])
  {
    if |s| == 0 || IsLineBoundary(s[0]) then 0 else 1 + LineEnd(s[1..])
  }

  /** `s.splitlines()`: the lines without their terminators, where `\r\n`
      counts as one terminator; a final terminator does not start an extra
      empty line. */
  function SplitLines(s: string): (r: seq<string>)
    ensures |s| > 0 ==> |r| > 0
    decreases |s|
  {
    if |s| == 0 then []
    else
      var k := LineEnd(s);
      if k == |s| then [s]
      else
        var skip := if s[k] == '\r' && k + 1 < |s| && s[k + 1] == '\n' then 2 else 1;
        [s[..k]] + SplitLines(s[k + skip..])
  }

  // ---------------------------------------------------------------- replace, lower

  /** `s.replace(pat, rep)`: every non-overlapping occurrence, left to right. */
  function Replace(s: string, pat: string, rep: string): string
    requires |pat| > 0
    decreases |s|
  {
    if |s| < |pat| then s
    else if s[..|pat|] == pat then rep + Replace(s[|pat|..], pat, rep)
    else [s[0]] + Replace(s[1..], pat, rep)
  }

  function LowerChar(c: char): char {
    if 'A' <= c <= 'Z' then (c as int + 32) as char else c
  }

  /** `s.lower()` on ASCII letters. */
  function Lower(s: string): (r: string)
    ensures |r| == |s|
    ensures forall j :: 0 <= j < |s| ==> r[j] == LowerChar(s[j])
  {
    seq(|s|, j requires 0 <= j < |s| => LowerChar(s[j]))
  }

  /** The name normalisation the script applies before comparing names:
      `name.replace("_", "").lower()`. */
  function Normalize(name: string): string {
    Lower(Replace(name, "_", ""))
  }

  lemma {:induction false} EraseUnderscores(s: string)
    ensures forall j :: 0 <= j < |Replace(s, "_", "")| ==> Replace(s, "_", "")[j] != '_'
    ensures (forall j :: 0 <= j < |s| ==> s[j] != '_') ==> Replace(s, "_", "") == s
    decreases |s|
  {
    if |s| >= 1 {
      EraseUnderscores(s[1..]);
      if s[..1] != "_" {
        var rest := Replace(s[1..], "_", "");
        assert Replace(s, "_", "") == [s[0]] + rest;
      }
    }
  }

  /** Normalisation is idempotent: a normalised name contains no `_` and no
      upper-case ASCII letter, so normalising it again changes nothing. */
  lemma NormalizeIdempotent(name: string)
    ensures Normalize(Normalize(name)) == Normalize(name)
  {
    var n := Normalize(name);
    var e := Replace(name, "_", "");
    EraseUnderscores(name);
    assert forall j :: 0 <= j < |n| ==> n[j] != '_' by {
      forall j | 0 <= j < |n| ensures n[j] != '_' {
        assert n[j] == LowerChar(e[j]);
      }
    }
    EraseUnderscores(n);
    assert Lower(n) == n;
  }
}

=== FILE: utils.dfy ===
/** The helpers of `src/utils.rs`: the `map_enum!` lookup, `make_slice`,
    `OwnedLabel` and the `follow_chain!` walk over a C extension chain. */
module Utils {
  import opened Wrappers

  // ---------------------------------------------------------------- map_enum!

  /** The native constants of a `map_enum!` table, in arm order. */
  function Constants<V>(table: seq<(int, V)>): (cs: seq<int>)
    ensures |cs| == |table| && forall i :: 0 <= i < |table| ==> cs[i] == table[i].0
  {
    seq(|table|, i requires 0 <= i < |table| => table[i].0)
  }

  /** No native constant is listed twice. */
  predicate DistinctConstants<V>(table: seq<(int, V)>) {
    forall i, j :: 0 <= i < j < |table| ==> table[i].0 != table[j].0
  }

  /** No variant is listed twice. */
  predicate DistinctVariants<V(==)>(table: seq<(int, V)>) {
    forall i, j :: 0 <= i < j < |table| ==> table[i].1 != table[j].1
  }

  /** A `map_enum!` function without an error message: the `match` tries the
      arms in order, returns the variant of the first arm whose native constant
      equals `value`, and hands an unlisted value back unchanged as the error. */
  function MapEnum<V>(table: seq<(int, V)>, value: int): (r: Result<V, int>)
    ensures r.Err? <==> value !in Constants(table)
    ensures r.Err? ==> r.error == value
    ensures r.Ok? ==> exists i :: 0 <= i < |table| && table[i] == (value, r.value) &&
                                  forall j :: 0 <= j < i ==> table[j].0 != value
    decreases |table|
  {
    if |table| == 0 then Err(value)
    else if table[0].0 == value then Ok(table[0].1)
    else
      var r := MapEnum(table[1..], value);
      assert Constants(table) == [table[0].0] + Constants(table[1..]);
      assert forall i :: 1 <= i < |table| ==> table[i] == table[1..][i - 1];
      r
  }

  /** The decimal text of an integer, as Rust's `{:?}` prints it. */
  function Decimal(n: int): (s: string)
    ensures |s| > 0
    decreases if n < 0 then 1 - n else n
  {
    if n < 0 then "-" + Decimal(-n)
    else if n < 10 then ["0123456789"[n]]
    else Decimal(n / 10) + ["0123456789"[n % 10]]
  }

  /** A `map_enum!` function with an error message: the same lookup, followed
      by `expect(msg)`, whose panic message is the text followed by `: ` and the
      unlisted value. */
  function MapEnumOrPanic<V>(table: seq<(int, V)>, msg: string, value: int): (r: Panic<V>)
    ensures r.Returned? ==> MapEnum(table, value) == Ok(r.value)
    ensures r.Panicked? <==> value !in Constants(table)
    ensures r.Panicked? ==> r.message == msg + ": " + Decimal(value)
  {
    match MapEnum(table, value)
    case Ok(v) => Returned(v)
    case Err(x) => Panicked(msg + ": " + Decimal(x))
  }

  /** With distinct constants, every listed constant maps to its own variant. */
  lemma MapEnumListed<V>(table: seq<(int, V)>, i: nat)
    requires DistinctConstants(table) && i < |table|
    ensures MapEnum(table, table[i].0) == Ok(table[i].1)
  {
    var r := MapEnum(table, table[i].0);
    assert table[i].0 in Constants(table);
    var k :| 0 <= k < |table| && table[k] == (table[i].0, r.value) &&
             forall j :: 0 <= j < k ==> table[j].0 != table[i].0;
    assert k == i;
  }

  /** The native constant listed for a variant, as an inverse conversion
      (`to_native_*`) would pick it: the first arm naming the variant. */
  function NativeOf<V(==)>(table: seq<(int, V)>, v: V): (r: Option<int>)
    ensures r.None? <==> forall i :: 0 <= i < |table| ==> table[i].1 != v
    ensures r.Some? ==> exists i :: 0 <= i < |table| && table[i] == (r.value, v)
    decreases |table|
  {
    if |table| == 0 then None
    else if table[0].1 == v then Some(table[0].0)
    else
      assert forall i :: 1 <= i < |table| ==> table[i] == table[1..][i - 1];
      NativeOf(table[1..], v)
  }

  /** A table with distinct constants is inverted by `NativeOf`: mapping a
      variant to its constant and back gives the variant, and mapping a listed
      constant to its variant and back gives the constant when no variant is
      listed twice. */
  lemma MapEnumInverse<V>(table: seq<(int, V)>, v: V, c: int)
    requires DistinctConstants(table)
    ensures NativeOf(table, v).Some? ==> MapEnum(table, NativeOf(table, v).value) == Ok(v)
    ensures DistinctVariants(table) && MapEnum(table, c).Ok? ==> NativeOf(table, MapEnum(table, c).value) == Some(c)
  {
    if NativeOf(table, v).Some? {
      var i :| 0 <= i < |table| && table[i] == (NativeOf(table, v).value, v);
      MapEnumListed(table, i);
    }
    if DistinctVariants(table) && MapEnum(table, c).Ok? {
      var i :| 0 <= i < |table| && table[i] == (c, MapEnum(table, c).value);
      var n := NativeOf(table, table[i].1);
      var k :| 0 <= k < |table| && table[k] == (n.value, table[i].1);
      assert k == i;
    }
  }

  /** A table whose native constants are the arm positions, counted from 1:
      the stand-in numbering of the native constants of an enum. */
  function Numbered<V>(vs: seq<V>): (t: seq<(int, V)>)
    ensures |t| == |vs| && forall i :: 0 <= i < |vs| ==> t[i] == (i + 1, vs[i])
  {
    seq(|vs|, i requires 0 <= i < |vs| => (i + 1, vs[i]))
  }

  /** No element is listed twice. */
  predicate Distinct<V(==)>(vs: seq<V>) {
    forall i, j :: 0 <= i < j < |vs| ==> vs[i] != vs[j]
  }

  /** Two lists without repeats and without a common element concatenate
      to a list without repeats. */
  lemma DistinctConcat<V>(a: seq<V>, b: seq<V>)
    requires Distinct(a) && Distinct(b)
    requires forall x :: x in a ==> x !in b
    ensures Distinct(a + b)
  {
    forall i, j | 0 <= i < j < |a + b| ensures (a + b)[i] != (a + b)[j] {
      if j < |a| {
      } else if i >= |a| {
        assert (a + b)[i] == b[i - |a|] && (a + b)[j] == b[j - |a|];
      } else {
        assert (a + b)[i] == a[i] && (a + b)[i] in a;
        assert (a + b)[j] == b[j - |a|] && (a + b)[j] in b;
      }
    }
  }

  /** A numbered table maps exactly the constants 1 to `|vs|`, each to the
      variant at its position. */
  lemma NumberedLookup<V>(vs: seq<V>, c: int)
    ensures MapEnum(Numbered(vs), c) == if 1 <= c <= |vs| then Ok(vs[c - 1]) else Err(c)
  {
    var t := Numbered(vs);
    if 1 <= c <= |vs| {
      assert DistinctConstants(t);
      MapEnumListed(t, c - 1);
    } else {
      assert c !in Constants(t);
    }
  }

  /** A numbered table that lists every variant once is a bijection between
      its constants and its variants: a listed variant has exactly one
      constant, and that constant is the one `NativeOf` picks. */
  lemma NumberedBijection<V>(vs: seq<V>, v: V)
    requires Distinct(vs) && v in vs
    ensures NativeOf(Numbered(vs), v).Some?
    ensures forall c :: MapEnum(Numbered(vs), c) == Ok(v) <==> NativeOf(Numbered(vs), v) == Some(c)
  {
    var t := Numbered(vs);
    var i :| 0 <= i < |vs| && vs[i] == v;
    assert t[i].1 == v;
    var n := NativeOf(t, v);
    var k :| 0 <= k < |t| && t[k] == (n.value, v);
    assert k == i;
    forall c ensures MapEnum(t, c) == Ok(v) <==> n == Some(c) {
      NumberedLookup(vs, c);
    }
  }

  // ---------------------------------------------------------------- make_slice

  /** `make_slice(pointer, count)`: an empty slice for a zero count, whatever
      the pointer; otherwise the first `count` elements the pointer addresses.
      `pointer` is `None` for a null pointer and otherwise the elements readable
      from it; the caller promises `count` readable elements when `count > 0`. */
  function MakeSlice<T>(pointer: Option<seq<T>>, count: nat): (r: seq<T>)
    requires count == 0 || (pointer.Some? && count <= |pointer.value|)
    ensures |r| == count
    ensures count > 0 ==> r == pointer.value[..count]
  {
    if count == 0 then [] else pointer.value[..count]
  }

  /** A zero count never looks at the pointer: a null one and any other give
      the same empty slice. */
  lemma MakeSliceZeroIgnoresPointer<T>(pointer: Option<seq<T>>)
    ensures MakeSlice(pointer, 0) == MakeSlice(None, 0) == []
  {
  }

  /** Over readable memory, the slice of `count` elements is the prefix of that
      length, so a count covering all of it gives all of it back. */
  lemma MakeSlicePrefix<T>(memory: seq<T>, count: nat)
    requires count <= |memory|
    ensures MakeSlice(Some(memory), count) == memory[..count]
    ensures MakeSlice(Some(memory), |memory|) == memory
  {
  }

  // ---------------------------------------------------------------- OwnedLabel

  /** Rust's `Cow<str>`: text either borrowed from its owner or owned. */
  datatype Cow = Borrowed(text: string) | Owned(text: string)

  /** An owned copy of an optional C label. */
  datatype OwnedLabel = OwnedLabel(inner: Option<string>)

  /** The bytes `CStr::from_ptr` reads: everything before the first NUL. The
      caller promises the memory holds a NUL. */
  function CStrBytes(memory: seq<bv8>): (r: seq<bv8>)
    requires exists i :: 0 <= i < |memory| && memory[i] == 0
    ensures |r| < |memory| && r == memory[..|r|] && memory[|r|] == 0
    ensures forall i :: 0 <= i < |r| ==> r[i] != 0
  {
    if memory[0] == 0 then []
    else
      assert forall i :: 1 <= i < |memory| ==> memory[i] == memory[1..][i - 1];
      assert memory[0] != 0;
      [memory[0]] + CStrBytes(memory[1..])
  }

  /** A pointer to a NUL-terminated C string, or null (`None`). */
  predicate IsCString(pointer: Option<seq<bv8>>) {
    pointer.Some? ==> exists i :: 0 <= i < |pointer.value| && pointer.value[i] == 0
  }

  /** `OwnedLabel::new`: no label for a null pointer, otherwise the bytes up
      to the first NUL, decoded by `lossy` (the lossy UTF-8 decoding). */
  function NewLabel(pointer: Option<seq<bv8>>, lossy: seq<bv8> -> string): (r: OwnedLabel)
    requires IsCString(pointer)
    ensures r.inner.None? <==> pointer.None?
    ensures r.inner.Some? ==> exists n :: 0 <= n < |pointer.value| && pointer.value[n] == 0 &&
                                         (forall i :: 0 <= i < n ==> pointer.value[i] != 0) &&
                                         r.inner.value == lossy(pointer.value[..n])
  {
    if pointer.None? then OwnedLabel(None)
    else
      var bytes := CStrBytes(pointer.value);
      OwnedLabel(Some(lossy(bytes)))
  }

  /** `into_inner`: the label itself. */
  function IntoInner(l: OwnedLabel): (r: Option<string>)
    ensures r.None? <==> l.inner.None?
    ensures r.Some? ==> r.value == l.inner.value
  {
    l.inner
  }

  /** `as_cow`: the label borrowed, present exactly when the label is. */
  function AsCow(l: OwnedLabel): (r: Option<Cow>)
    ensures r.None? <==> l.inner.None?
    ensures r.Some? ==> r.value.Borrowed? && r.value.text == l.inner.value
  {
    match l.inner
    case None => None
    case Some(s) => Some(Borrowed(s))
  }

  /** `into_cow`: the label moved out as owned text, present exactly when the
      label is. */
  function IntoCow(l: OwnedLabel): (r: Option<Cow>)
    ensures r.None? <==> l.inner.None?
    ensures r.Some? ==> r.value.Owned? && r.value.text == l.inner.value
  {
    match l.inner
    case None => None
    case Some(s) => Some(Owned(s))
  }

  /** A label built by `OwnedLabel::new` reads back the same through every
      getter: nothing exactly when the pointer is null, and otherwise the
      decoded bytes before the first NUL. */
  lemma LabelReadBack(pointer: Option<seq<bv8>>, lossy: seq<bv8> -> string)
    requires IsCString(pointer)
    ensures var l := NewLabel(pointer, lossy);
      && (IntoInner(l).None? <==> pointer.None?)
      && (AsCow(l).None? <==> pointer.None?)
      && (IntoCow(l).None? <==> pointer.None?)
      && (pointer.Some? ==>
            var text := lossy(CStrBytes(pointer.value));
            && IntoInner(l).value == text
            && AsCow(l).value == Borrowed(text)
            && IntoCow(l).value == Owned(text))
  {
  }

  // ---------------------------------------------------------------- follow_chain!

  /** A chained extension struct: its `sType` and what the walk hands on when
      it picks the struct. */
  datatype Node<P> = Node(sType: int, payload: P)

  /** The first arm of `follow_chain!` whose sType constant is `t`, or -1. */
  function FirstArm(stypes: seq<int>, t: int): (k: int)
    ensures -1 <= k < |stypes|
    ensures k == -1 <==> t !in stypes
    ensures k >= 0 ==> stypes[k] == t && forall j :: 0 <= j < k ==> stypes[j] != t
    decreases |stypes|
  {
    if |stypes| == 0 then -1
    else if stypes[0] == t then 0
    else
      var k := FirstArm(stypes[1..], t);
      assert forall j :: 1 <= j < |stypes| ==> stypes[j] == stypes[1..][j - 1];
      if k == -1 then -1 else k + 1
  }

  /** The last struct of `chain` with sType `t`, the reference for what one
      extension argument receives. */
  function LastWith<P>(chain: seq<Node<P>>, t: int): (r: Option<P>)
    decreases |chain|
  {
    if |chain| == 0 then None
    else if chain[|chain| - 1].sType == t then Some(chain[|chain| - 1].payload)
    else LastWith(chain[..|chain| - 1], t)
  }

  /** `LastWith` finds a struct exactly when the chain holds one with that
      sType, and the one it finds has no later struct of the same sType. */
  lemma {:induction false} LastWithSpec<P>(chain: seq<Node<P>>, t: int)
    ensures LastWith(chain, t).Some? <==> exists i :: 0 <= i < |chain| && chain[i].sType == t
    ensures LastWith(chain, t).Some? ==>
      exists i :: 0 <= i < |chain| && chain[i] == Node(t, LastWith(chain, t).value) &&
                  forall j :: i < j < |chain| ==> chain[j].sType != t
    decreases |chain|
  {
    if |chain| > 0 {
      var init := chain[..|chain| - 1];
      assert forall i :: 0 <= i < |init| ==> init[i] == chain[i];
      LastWithSpec(init, t);
    }
  }

  /** The extension arguments `follow_chain!` passes on, for a chain that is
      walked exactly once (`chain[0]` is the base's `nextInChain`) and the
      sType constants of its arms, in order: each arm's slot holds the last
      struct of its sType, and an arm shadowed by an earlier arm of the same
      constant is never set. Structs of unrequested sTypes are skipped. */
  method FollowChain<P>(chain: seq<Node<P>>, stypes: seq<int>) returns (slots: seq<Option<P>>)
    ensures |slots| == |stypes|
    ensures forall k :: 0 <= k < |stypes| ==>
      slots[k] == (if FirstArm(stypes, stypes[k]) == k then LastWith(chain, stypes[k]) else None)
  {
    slots := seq(|stypes|, _ => None);
    var i := 0;
    while i < |chain|
      invariant 0 <= i <= |chain| && |slots| == |stypes|
      invariant forall k :: 0 <= k < |stypes| ==>
        slots[k] == (if FirstArm(stypes, stypes[k]) == k then LastWith(chain[..i], stypes[k]) else None)
    {
      var node := chain[i];
      var arm := FirstArm(stypes, node.sType);
      assert chain[..i + 1][..i] == chain[..i];
      if arm >= 0 {
        slots := slots[arm := Some(node.payload)];
      }
      i := i + 1;
    }
    assert chain[..i] == chain;
  }
}

=== FILE: wrappers.dfy ===
/** Failure-carrying result types shared by the whole model. */
module Wrappers {

  /** Rust's `Option` and the "present or absent" answers of Python lookups. */
  datatype Option<+T> = None | Some(value: T)

  /** Rust's `Result`: the value on success, the offending input on failure. */
  datatype Result<+T, +E> = Ok(value: T) | Err(error: E)

  /** The outcome of a Rust call that may `panic!` (or `expect` on an `Err`):
      either the returned value or the panic message. */
  datatype Panic<+T> = Returned(value: T) | Panicked(message: string)

  /** Apply `f` to every element in order, stopping at the first failure:
      all the results when every call succeeds, else the first error. */
  function AllOk<A, B, E>(xs: seq<A>, f: A -> Result<B, E>): (r: Result<seq<B>, E>)
    ensures r.Ok? <==> forall i :: 0 <= i < |xs| ==> f(xs[i]).Ok?
    ensures r.Ok? ==> |r.value| == |xs| && forall i :: 0 <= i < |xs| ==> f(xs[i]) == Ok(r.value[i])
    ensures r.Err? ==> exists i :: 0 <= i < |xs| && f(xs[i]) == Err(r.error) &&
                                   forall j :: 0 <= j < i ==> f(xs[j]).Ok?
    decreases |xs|
  {
    if |xs| == 0 then Ok([])
    else
      match f(xs[0])
      case Err(e) => Err(e)
      case Ok(y) =>
        var rest := AllOk(xs[1..], f);
        AllOkShift(xs, f, rest);
        if rest.Err? then Err(rest.error) else Ok([y] + rest.value)
  }

  /** The elements after the first are those of `xs[1..]`, one place on. */
  lemma AllOkShift<A, B, E>(xs: seq<A>, f: A -> Result<B, E>, rest: Result<seq<B>, E>)
    requires |xs| > 0
    requires rest.Ok? <==> forall i :: 0 <= i < |xs| - 1 ==> f(xs[1..][i]).Ok?
    requires rest.Ok? ==> |rest.value| == |xs| - 1 && forall i :: 0 <= i < |xs| - 1 ==> f(xs[1..][i]) == Ok(rest.value[i])
    requires rest.Err? ==> exists i :: 0 <= i < |xs| - 1 && f(xs[1..][i]) == Err(rest.error) &&
                                       forall j :: 0 <= j < i ==> f(xs[1..][j]).Ok?
    ensures rest.Ok? <==> forall i :: 1 <= i < |xs| ==> f(xs[i]).Ok?
    ensures rest.Ok? ==> forall i :: 1 <= i < |xs| ==> f(xs[i]) == Ok(rest.value[i - 1])
    ensures rest.Err? ==> exists i :: 1 <= i < |xs| && f(xs[i]) == Err(rest.error) &&
                                      forall j :: 1 <= j < i ==> f(xs[j]).Ok?
  {
    assert forall i :: 1 <= i < |xs| ==> xs[i] == xs[1..][i - 1];
    if rest.Err? {
      var i :| 0 <= i < |xs| - 1 && f(xs[1..][i]) == Err(rest.error) &&
                forall j :: 0 <= j < i ==> f(xs[1..][j]).Ok?;
      assert f(xs[i + 1]) == Err(rest.error);
    }
  }

  /** The present values of `os`, in order: what a loop appends when it
      appends at most one item per step. */
  function Present<T(!new)>(os: seq<Option<T>>): (r: seq<T>)
    ensures |r| <= |os|
    ensures forall x :: x in r <==> exists i :: 0 <= i < |os| && os[i] == Some(x)
    decreases |os|
  {
    if |os| == 0 then []
    else
      var rest := Present(os[1..]);
      assert forall i :: 1 <= i < |os| ==> os[i] == os[1..][i - 1];
      (if os[0].Some? then [os[0].value] else []) + rest
  }

  /** The concatenation of `xss`, in order. */
  function Flatten<T(!new)>(xss: seq<seq<T>>): (r: seq<T>)
    ensures forall x :: x in r <==> exists i :: 0 <= i < |xss| && x in xss[i]
    decreases |xss|
  {
    if |xss| == 0 then []
    else
      var rest := Flatten(xss[1..]);
      assert forall i :: 1 <= i < |xss| ==> xss[i] == xss[1..][i - 1];
      xss[0] + rest
  }

  /** The values `f` gives for the elements of `xs`, gathered into a set:
      an `insert` for every `Some` in a pass over the list. */
  function CollectSome<A, B(!new)>(xs: seq<A>, f: A -> Option<B>): (r: set<B>)
    ensures forall y :: y in r <==> exists i :: 0 <= i < |xs| && f(xs[i]) == Some(y)
    decreases |xs|
  {
    if |xs| == 0 then {}
    else
      var init := CollectSome(xs[..|xs| - 1], f);
      assert forall i :: 0 <= i < |xs| - 1 ==> xs[..|xs| - 1][i] == xs[i];
      match f(xs[|xs| - 1])
      case Some(y) => init + {y}
      case None => init
  }
}
